=== FILE: README.md ===
# lorminator_dash simulation core in Dafny

This project models the game simulation of *lorminator_dash*, a tile-grid
Boulder-Dash-like game, and proves properties of the model. The model covers:

- **Point geometry.** The `point` type, its direction steps, arithmetic and
  row-major order (`Geometry`), and the integer Bresenham line walker with an
  early-abort callback (`Bresenham`).
- **The world.** A bounds-checked tile grid (`Tiles`) and the entity objects
  in the store (`Worlds`). Removing an entity takes it out of the store's
  lookups but keeps its object, because traits still hold it.
- **The per-tick traits:**
  - falling (`Falling`);
  - the bomb fuse (`Exploding`) and the fireball burn-out (`Disappearing`),
    both counted down in 32-bit C arithmetic (`CInt`, `Timers`);
  - the exploring ghost with its bounded visited list (`GhostWalking`);
  - conveyor bands (`Transporter`) and teleporters (`Teleporting`);
  - fireball collisions (`Colliding`);
  - the player's walk and operate actions (`PlayerBase`, `PlayerWalk`,
    `PlayerOperate`).
- **Trait tables.** The table that gives each entity type its traits, the
  level's traits, and how both are run (`Behaviors`).
- **Fog of war.** The remembered overlay, the visible-id list and the shadow
  map (`Lighting`).
- **Observer.** The listener map, its cookies and their weak detach (`Observer`).
- **Small tables and stores:**
  - character to entity (`Entities`);
  - the per-entity integer properties (`EntityProperties`);
  - the sprite animator's pixel-frame queue (`Animation`, `Images`);
  - the tile-to-frame table (`LevelAnimation`);
  - `split_string` (`Split`).

Every operation is a pure function over immutable values. The Bresenham walker
is the exception: it is a method with a loop. Each trait's `run` takes the
world and the trait's own state and returns both updated, together with the
boolean the source returns.

Some parts of the source are outside the shown code. They are parameters of
the model:

- the level's `explode` (a function `Blast` from world and point to world);
- `tileIsPassable` (a predicate on tile types);
- the keys of the player's input;
- the value of `random()` (a natural number `rnd`, used as the source uses it:
  as an index, modulo the list length).

The entity store's lookup order is not shown. `getEntityByPoint` is modelled
as the first live entity at the point, in creation order.

## Model

| member | source | states |
|---|---|---|
| Geometry.StepCoordinates | include/point.hh:21-43 | adding UP, DOWN, LEFT or RIGHT moves y by -1, y by +1, x by -1 or x by +1, and adding NONE leaves the point unchanged (both directions) |
| Geometry.StepBack | include/point.hh:21-43 | stepping in a direction and then in the opposite direction returns to the starting point |
| Geometry.StepIsAdjacent | include/point.hh:21-43 | a step in a real direction reaches an orthogonal neighbour, never the point itself |
| Geometry.AddSubInverse | include/point.hh:45-53 | point subtraction undoes point addition, and addition undoes subtraction |
| Geometry.ScaleDistributes | include/point.hh:80-83 | scaling by an integer distributes over point addition |
| Geometry.EqualIsIdentity | include/point.hh:55-63 | `==` holds exactly when both coordinates agree, and `!=` is its negation |
| Geometry.LessIsStrictTotalOrder | include/point.hh:65-78 | `<` is irreflexive, transitive and total on distinct points, and compares y first, then x |
| Geometry.LessIsIndexOrder | include/point.hh:65-78 | inside a grid of width w, `<` is the order of the row-major index y*w+x |
| Geometry.ExtentsEqualIsIdentity | include/point.hh:103-112 | `extents` equality holds exactly when width and height agree, and `!=` is its negation |
| Bresenham.Walk | legacy/lib/utils/utils.c:30-83 | returns 0 or 1. The first point handed over is the start and the end point is never handed over. The major coordinate advances one step toward the target per point; the minor coordinate changes by 0 or one step toward the target. Returns 1 exactly when the last point aborted, with no later point visited. Returns 0 after exactly max(\|dx\|,\|dy\|) points, none of them aborting |
| Bresenham.WalkMajor | legacy/lib/utils/utils.c:59-82 | the loop over the major axis. Points are given back in the original (x, y) orientation, with the same count, abort and step guarantees as `Walk` |
| Bresenham.Loop | legacy/lib/utils/utils.c:59-82 | the same guarantees as `WalkMajor`, stated against the precomputed deltas and step signs: at most dx points, the major coordinates step toward the target, and consecutive minor coordinates differ by 0 or the minor step sign |
| Bresenham.MinorSteps | legacy/lib/utils/utils.c:72-76 | the inner error loop leaves the error negative. It moves the minor coordinate at most once, by the step sign, paying 2*dx |
| Bresenham.Orient | legacy/lib/utils/utils.c:52-58 | the swap back for steep lines puts the major and minor coordinates on the right axes |
| Tiles.TileAt | src/traits/transporter-bands.cc:63-68 | a tile is returned exactly for points inside the level; every trait treats a missing tile as off the level |
| Tiles.SetTile | src/traits/player-walk.cc:91-94 | sets one in-bounds tile, keeps the size and every other tile, and ignores out-of-bounds points |
| CInt.SubUnsigned | src/traits/exploding.cc:23 | `int -= unsigned` wraps modulo 2^32 and equals the plain difference whenever that fits in an int |
| CInt.Inc | src/traits/player-operate.cc:60-60 | incrementing an int wraps modulo 2^32 and is x+1 below INT_MAX |
| Timers.ElapseSubtractsSum | src/traits/exploding.cc:21-35 | without underflow, a sequence of runs lowers the remaining time by the sum of their milliseconds |
| Entities.SetThenGet | src/entity.cc:53-61 | after `setPosition(dst)`, `getPosition` is dst, the type is unchanged, and setting the old position back restores the entity |
| Entities.CreateFromType | src/entity.cc:85-99 | yields an entity exactly for BOULDER and PLAYER, of that type and at the given point |
| Entities.CreateFromCharMatchesIsValid | src/entity.cc:7-83 | `isValid` holds exactly for 'o' and 'p'. `createFromChar` yields an entity exactly for valid characters: a BOULDER for 'o' and a PLAYER for 'p', at the point |
| Worlds.EntityAt | src/traits/falling.cc:55 | a found entity is live, stands on the point and is stored. None is found exactly when no live entity stands there |
| Worlds.Remove | src/traits/exploding.cc:30 | the entity leaves the store's lookups but its object is kept. Tiles and every other entity are unchanged |
| Worlds.Move | src/entity.cc:58-61 | only the moved entity's position changes, to dst. Tiles, the set of entities and every other entity are unchanged |
| Worlds.RemoveEffect | src/traits/falling.cc:60-61 | after a removal the removed entity is found on no point, and any other entity found before is still found |
| Worlds.RemoveClearsCell | src/traits/player-operate.cc:55-61 | with entities kept apart, removing the entity found on a cell leaves no live entity on that cell |
| Worlds.MoveToFreeCell | src/traits/transporter-bands.cc:75-81 | moving onto a cell no live entity occupies keeps ids unique and live entities on distinct cells |
| Falling.Run | src/traits/falling.cc:20-113 | if falling onto a PLAYER, GHOST or BOMB, both leave the store, the cell below explodes and the run returns true. Resting on any entity, it spills LEFT, else RIGHT, judged on the two tiles of each side alone. With nothing below, it drops exactly when the tile below is EMPTY. Every move sets falling and returns true; every other run changes nothing and clears it |
| Falling.MoveStaysInGrid | src/traits/falling.cc:22-92 | a fall move lands on an in-bounds EMPTY tile one cell LEFT, RIGHT or DOWN, so the entity never leaves the grid |
| Falling.SettledIsStable | src/traits/falling.cc:94-113 | a run that returns false, run again on its own result, changes nothing more |
| Exploding.Run | src/traits/exploding.cc:21-35 | subtracts the milliseconds. While time is left nothing else happens. Once the time is at or below 0 the bomb is removed and then the explosion happens at its position. Always returns false |
| Exploding.FiresAgainAfterExpiry | src/traits/exploding.cc:21-32 | there is no once-only guard: any run after expiry removes and explodes again |
| Exploding.BombScenario | src/traits/exploding.cc:21-35 | runs of 100 and 1899 ms leave a 2000 ms fuse at 1 ms, and a further 2 ms run fires |
| Disappearing.Run | src/traits/disappear-after.cc:19-30 | subtracts the milliseconds, removes the entity exactly when the time is used up, never touches tiles, and always returns false |
| Disappearing.FireballScenario | src/traits/disappear-after.cc:19-30 | 100 ms into a 1000 ms burn the fireball stays. A run that uses up the time removes it from the store |
| GhostWalking.Walkable | src/traits/ghost-exploring.cc:23-49 | a neighbour is a candidate exactly when no entity stands on it and its in-bounds tile is EMPTY or TELEPORTER. A PLAYER there is exploded instead |
| GhostWalking.ScanWithoutPlayer | src/traits/ghost-exploring.cc:124-130 | with no player around, scanning the neighbours leaves the world alone and yields exactly the free neighbours, in UP, DOWN, LEFT, RIGHT order |
| GhostWalking.IndexOf | src/traits/ghost-exploring.cc:51-58 | finds the first visited entry for the point, and none exactly when the point is not listed |
| GhostWalking.Unvisited | src/traits/ghost-exploring.cc:60-74 | keeps exactly the candidates the visited list does not mention |
| GhostWalking.Least | src/traits/ghost-exploring.cc:94-110 | picks the first candidate with the strictly smallest visit count |
| GhostWalking.Insert | src/traits/ghost-exploring.cc:115-119 | inserting into the sorted list adds exactly one entry, as a multiset |
| GhostWalking.SortByCount | src/traits/ghost-exploring.cc:115-119 | the re-sort is a permutation of the list |
| GhostWalking.SortByCountSorts | src/traits/ghost-exploring.cc:115-119 | the re-sort orders the list by non-increasing count |
| GhostWalking.Select | src/traits/ghost-exploring.cc:76-122 | picks a candidate. If some candidate is unvisited, it picks an unvisited one and appends it with count 1, first dropping the last entry of a full list of 20. Otherwise it picks a least-visited candidate, raises its count by one, and leaves the list re-sorted by non-increasing count |
| GhostWalking.SelectNew | src/traits/ghost-exploring.cc:80-92 | the chosen cell is one of the unvisited candidates, appended with count 1 after dropping the last entry of a full list |
| GhostWalking.SelectLeast | src/traits/ghost-exploring.cc:94-121 | when every candidate was visited, the chosen cell has the least count among them. Its count goes up by one and the list comes back sorted by non-increasing count |
| GhostWalking.Bump | src/traits/ghost-exploring.cc:112-112 | raising the selected count changes exactly one entry, as a multiset, and keeps every entry's cell in place |
| GhostWalking.SelectKeepsVisitsValid | src/traits/ghost-exploring.cc:60-153 | the visited list never exceeds 20 entries and never lists a point twice |
| GhostWalking.SelectRemembers | src/traits/ghost-exploring.cc:76-122 | the chosen cell is in the list `select` leaves behind |
| GhostWalking.Run | src/traits/ghost-exploring.cc:124-141 | for every world, including one where the scan blew up a neighbouring player: with no walkable neighbour the ghost stays in the world the scan left and its list is unchanged. Otherwise it is moved onto the neighbour `Select` picks from the scanned walkable ones, and the list becomes the one `Select` leaves, which remembers that cell. A valid list stays valid and the run returns false |
| GhostWalking.RunWithoutPlayer | src/traits/ghost-exploring.cc:124-141 | with no player next to it, a ghost with no free neighbour stays put and forgets nothing. Otherwise it moves one orthogonal step onto a free neighbour, which the list then remembers. The step and the new list are exactly `Select`'s choice among the free neighbours in UP, DOWN, LEFT, RIGHT order |
| GhostWalking.RunExploresUnvisited | src/traits/ghost-exploring.cc:76-141 | with no player next to it and a free neighbour it has not visited, the ghost steps onto such a neighbour and appends it with count 1, dropping the oldest entry of a full list |
| GhostWalking.RunFollowsCorridor | src/traits/ghost-exploring.cc:76-141 | when exactly one free neighbour is new to the ghost, it steps there whatever the random pick |
| Transporter.LocateBandsIsExact | src/traits/transporter-bands.cc:92-129 | the bands found are exactly the maximal transport runs of a row that end before the last column. Each band's direction comes from its first tile |
| Transporter.LocateRowFindsEveryBand | src/traits/transporter-bands.cc:100-127 | the scan of one row, from any consistent state, finds every band still ahead of it |
| Transporter.Collect | src/traits/transporter-bands.cc:45-58 | collects exactly the live entities of the row above the band, in left-to-right order |
| Transporter.Carry | src/traits/transporter-bands.cc:60-82 | an entity moves one cell along only if that cell is EMPTY and unoccupied at that moment. Nothing else changes |
| Transporter.CarryBlocked | src/traits/transporter-bands.cc:60-82 | an entity whose next cell is not EMPTY or is taken leaves the world exactly as it was |
| Transporter.CarryAllStepsOnce | src/traits/transporter-bands.cc:60-82 | after all collected entities are carried in order, each has stayed or moved exactly one cell in the band direction |
| Transporter.CarryAllKeepsEntitiesApart | src/traits/transporter-bands.cc:60-82 | carrying keeps ids unique and live entities on distinct cells |
| Transporter.RunBand | src/traits/transporter-bands.cc:41-83 | one band keeps the tiles and the set of entities, touches only entities above it, moves each at most one cell along, and keeps entities apart |
| Transporter.Run | src/traits/transporter-bands.cc:19-27 | runs every band, keeps entities apart, and always returns true |
| Transporter.CarryAllMovesFree | src/traits/transporter-bands.cc:60-82 | among gathered entities with distinct ids, one whose next cell was EMPTY and free when the band started still finds it free when its turn comes, and ends there |
| Transporter.RunBandMovesFreeEntity | src/traits/transporter-bands.cc:41-83 | in a store with unique ids and entities apart, a live entity above the band whose next cell along the band is in the level, EMPTY and unoccupied ends exactly one cell along |
| Transporter.RunMovesFreeEntity | src/traits/transporter-bands.cc:19-27 | within a full run, band i carries such an entity, found in the world the earlier bands leave, one cell along |
| Transporter.ScenarioFirstRun | src/traits/transporter-bands.cc:41-83 | a boulder and a bomb side by side on a LEFT band both move: the cell the boulder vacates is taken by the bomb in the same tick |
| Transporter.ScenarioSecondRun | src/traits/transporter-bands.cc:60-82 | against a wall both entities come to rest |
| Teleporting.LocateTeleporters | src/traits/teleporting.cc:80-94 | the locations are exactly the TELEPORTER tiles, each once, in row-major order |
| Teleporting.Destination | src/traits/teleporting.cc:46-49 | the destination is a recorded location other than the traveller's own |
| Teleporting.EveryOtherLocationReachable | src/traits/teleporting.cc:46-49 | every other recorded location is the destination for some random value |
| Teleporting.MalfunctionClearsAll | src/traits/teleporting.cc:51-63 | for any explosion that keeps the level's size and never fills an EMPTY cell (the level's own explosion clears cells), a malfunction leaves every in-bounds location EMPTY and keeps the grid size |
| Teleporting.Run | src/traits/teleporting.cc:22-77 | only the first occupied location is serviced. With none, the timeout is reset. While time is left, only the timeout drops. On expiry the timeout is reset and either the traveller moves to a free other location, or every location blows up and the list is cleared. Always returns false |
| Teleporting.MalfunctionIffTaken | src/traits/teleporting.cc:51-67 | on expiry, the list is cleared exactly when the chosen destination is occupied |
| Teleporting.NoTeleportersOnlyResets | src/traits/teleporting.cc:28-74 | with no locations left, a run only resets the timeout |
| Teleporting.TwoLocationsTerminate | src/traits/teleporting.cc:46-49 | with distinct locations, and not exactly one, the retry loop always ends |
| Teleporting.TeleportScenario | src/traits/teleporting.cc:39-68 | after 1499 ms of a 1500 ms delay the entity stays put. 2 ms more send it to the other teleporter and reset the timeout |
| Colliding.IfOne | src/traits/colliding.cc:36-47 | targets the other party when the first has the type, else the first when the other has it, else nothing |
| Colliding.IfPair | src/traits/colliding.cc:49-60 | fires exactly for the pair (type, type2) in either order and targets the party of type2 |
| Colliding.OnCollision | src/traits/colliding.cc:24-33 | a FIREBALL first party removes the second. Otherwise a FIREBALL second party removes the first. Otherwise nothing changes |
| Colliding.AtMostOneRemoved | src/traits/colliding.cc:24-47 | a collision takes at most one entity out of the store, and only one of the two parties |
| Colliding.TwoFireballs | src/traits/colliding.cc:39-42 | of two colliding fireballs only the second is removed |
| Colliding.Run | src/traits/colliding.cc:18-22 | run changes nothing and returns false |
| PlayerBase.KeysToDir | src/traits/player-traits.hh:26-48 | LEFT if the LEFT bit is set, else RIGHT, else UP, else DOWN, else NONE, each as an if-and-only-if |
| PlayerBase.OnlyDirectionBitsMatter | src/traits/player-traits.hh:30-45 | the direction depends only on the four direction bits |
| PlayerBase.SingleAndOpposingKeys | src/traits/player-traits.hh:30-45 | a single direction bit maps to its direction, LEFT\|RIGHT to LEFT and UP\|DOWN to UP, and OPERATE and BOMB alone to NONE |
| PlayerBase.Attach | src/traits/player-traits.hh:15-24 | construction fails exactly when no input source exists |
| PlayerWalk.MakeWay | src/traits/player-walk.cc:52-90 | the way is blocked exactly when a boulder cannot be pushed. A diamond there is taken out of the store; a pushed boulder moves one cell along. Tiles are kept, and every entity other than the one on the target cell keeps its record. Any other entity on the target cell leaves the world unchanged, and a pushed boulder keeps its record with only its position changed |
| PlayerWalk.Run | src/traits/player-walk.cc:25-98 | returns true exactly when the walk is possible. The player then stands on the cell its direction leads to (its own cell for a mask with no direction bit) and a DIRT tile there becomes EMPTY. A diamond there has left the store; the set of entities is kept. Every other tile is untouched, and every entity other than the player and the one on the target cell keeps its record. A non-diamond, non-boulder entity on the target cell keeps its record too, and a pushed boulder keeps its record with only its position moved one cell along. A false run changes nothing |
| PlayerWalk.Enter | src/traits/player-walk.cc:90-95 | the player ends on the destination, which is EMPTY afterwards if it was dug. Every other tile, every other entity and every removal stays as it was |
| PlayerWalk.WalkInPlace | src/traits/player-walk.cc:29-97 | a non-zero mask with neither OPERATE nor a direction bit (BOMB alone, say) passes the mask check: the player walks onto its own passable cell and the run returns true |
| PlayerWalk.WalkPushesBoulder | src/traits/player-walk.cc:63-86 | after a successful walk into a boulder, the boulder stands one cell further along |
| PlayerOperate.Run | src/traits/player-operate.cc:25-65 | returns true exactly with OPERATE and a direction bit set and an in-bounds target. The player never moves and a DIRT target becomes EMPTY; every other tile is untouched. A diamond there is removed and "diamonds" rises by one; every other entity keeps its record and every other property key its value. Any other target leaves entities and properties alone. A false run changes nothing |
| PlayerOperate.OperateAt | src/traits/player-operate.cc:44-64 | operating on an in-bounds cell digs it if it is DIRT and takes and counts a diamond standing there; no other tile, entity or property key changes |
| PlayerOperate.OperateAgainChangesNothing | src/traits/player-operate.cc:44-64 | with entities kept apart, a second operate in the same direction finds the cell dug and no diamond left: it changes neither the world nor the properties |
| EntityProperties.AsInt | src/entity-properties.cc:13-23 | an unset key reads 0, a set key reads its value |
| EntityProperties.AsIntAfterSet | src/entity-properties.cc:25-28 | after `set(k, v)` the key reads v and every other key is unchanged |
| EntityProperties.FromEntity | src/entity-properties.cc:38-51 | returns the stored record of a known entity, unchanged. It creates an empty record for a new one and leaves every other record alone |
| EntityProperties.ValuesPersist | src/entity-properties.cc:38-51 | a value set through an entity's record is read back through it later |
| EntityProperties.RecordsAreIndependent | src/entity-properties.cc:41-50 | setting a key of one entity leaves every other entity's keys, and its own other keys, unchanged |
| Behaviors.TraitsFor | src/behavior.cc:46-73 | BOULDER and DIAMOND get [Fall]. BOMB gets [Fall, ExplodeAfter(2000)] and FIREBALL [Fall, DisappearAfter(1000)]. GHOST gets [GhostWalking], PLAYER only [Walk], and every other type nothing |
| Behaviors.TraitTableRoles | src/behavior.cc:46-73 | only the player walks, exactly the four falling kinds fall, and no type gets more than two traits |
| Behaviors.NewBehavior | src/behavior.cc:46-73 | building a behaviour fails exactly for a player without input, and otherwise yields the table's traits |
| Behaviors.Step | src/behavior.cc:75-82 | one trait run is that trait's own run (falling, fuse, burn-out, ghost walk or player walk) with the tick's elapsed time, explosion, keys and random value, giving its new state and world. It keeps the kind of trait and loses no entity object |
| Behaviors.Run | src/behavior.cc:75-82 | the list keeps its length and each trait its kind. No entity object is lost |
| Behaviors.RunOne | src/behavior.cc:75-82 | a one-trait list runs exactly that trait's step |
| Behaviors.RunEachInOrder | src/behavior.cc:75-82 | trait i runs once, on the world the traits before it leave: its new state is its step's result on that world, and the world after the first i+1 traits is the world its step leaves |
| Behaviors.RunConcat | src/behavior.cc:75-82 | running a list is running its first part and then the rest on the world that leaves |
| Behaviors.NewLevelBehavior | src/behavior.cc:84-89 | the level's traits are [Collision, Transporter, Teleporter] with exactly the level's bands, a 1500 ms delay, and exactly the level's teleporter tiles |
| Behaviors.LevelStep | src/behavior.cc:91-97 | one level trait run is that trait's own run: the collision check, the transporter over its bands, or the teleporter with the tick's elapsed time, explosion and random value (whose retry loop ends). The teleporter keeps its new state; the kind is kept and stays runnable |
| Behaviors.RunLevel | src/behavior.cc:91-97 | the list keeps its length, each trait its kind at its index, and every trait stays runnable |
| Behaviors.RunLevelConcat | src/behavior.cc:91-97 | running a list of level traits is running its first part and then the rest on the world that leaves |
| Behaviors.RunLevelOne | src/behavior.cc:91-97 | a one-trait level list runs exactly that trait's step |
| Behaviors.RunLevelEachInOrder | src/behavior.cc:91-97 | level trait i runs once, on the world the traits before it leave, and the world after the first i+1 traits is the world its step leaves |
| Behaviors.NewLevelIsRunnable | src/behavior.cc:84-89 | a level without a lone teleporter gets only runnable traits |
| Lighting.New | src/lightning.cc:6-13 | a fresh overlay has the level's size and is all UNKNOWN, with no visible or shadow entities |
| Lighting.ShownTile | src/lightning.cc:106-119 | a tile is none exactly when the live tile is none. Hide mode shows the overlay and show mode the live tile |
| Lighting.Paint | src/lightning.cc:82-90 | the overlay takes the live tile at each lighted in-bounds point and keeps every other cell |
| Lighting.Occupants | src/lightning.cc:82-97 | lists exactly the entities standing on lighted points |
| Lighting.OccupantsInRowMajorOrder | src/lightning.cc:82-97 | for a row-major point set, those entities come in row-major order of their points |
| Lighting.Shade | src/lightning.cc:63-77 | a previously visible entity now on an unlit point adds a shadow entry there. Entries not overwritten are kept |
| Lighting.LightPointsErases | src/lightning.cc:84 | the lit loop erases exactly the shadow entries on lighted points |
| Lighting.UpdateHide | src/lightning.cc:59-99 | hide mode paints the lighted tiles and makes the visible list the ids on lighted points, in point order. Shadows are kept or added for darkened entities off the lighted points and erased on them |
| Lighting.DarkenedLeaveShadows | src/lightning.cc:63-77 | a visible entity that is now in the dark leaves a shadow entry with its type |
| Lighting.UpdateShow | src/lightning.cc:27-57 | show mode makes the visible list the live entities on lighted points. Shadows are exactly the occupied unlit points |
| Lighting.ShowModeSight | src/lightning.cc:27-57 | in show mode an id is visible exactly when it is live on a lighted point |
| Lighting.ShowModeShadows | src/lightning.cc:27-57 | in show mode every shadow carries the type of a live entity standing there |
| Lighting.Update | src/lightning.cc:15-25 | dispatches on the hide flag and records the lighted set that `getLighted` returns |
| Lighting.ShadowEntities | src/lightning.cc:126-136 | the shadow entities are exactly the shadow map's entries |
| Lighting.VisibleAreLit | src/lightning.cc:82-97 | with unique ids every visible entity stands on a lighted point, so none of them is darkened |
| Lighting.PaintTwice | src/lightning.cc:82-90 | painting the same points twice is painting them once |
| Lighting.UpdateIsIdempotent | src/lightning.cc:15-104 | repeating an update with the same lighted set on an unchanged world changes nothing |
| Observer.Empty | include/observer.hh:56-68 | a new notifier has no listeners |
| Observer.Listen | include/observer.hh:70-77 | the new id is the listener count, modulo 2^32. It stores the callback there, overwriting, and keeps every other id |
| Observer.Detach | include/observer.hh:79-83 | removes exactly that id, keeps the others, and changes nothing for an unknown id |
| Observer.Invoke | include/observer.hh:62-128 | calls every stored listener exactly once with the argument unchanged |
| Observer.DetachDropsOneCall | include/observer.hh:62-83 | after `detach(id)` an invoke makes exactly the earlier calls minus the one of that id |
| Observer.InvokeWithoutListeners | include/observer.hh:62-68 | an invoke with no listeners calls nothing |
| Observer.DestroyCookie | src/observer.cc:3-11 | a cookie whose notifier is alive detaches exactly its own id there. With the notifier gone it does nothing; other notifiers are untouched |
| Observer.ListenerFiresUntilCookieGoes | src/observer.cc:3-11 | a listener is called by every invoke until its cookie is destroyed, and not after |
| Observer.ListenAfterDetachOverwrites | include/observer.hh:70-83 | listening twice, detaching the first and listening again reuses id 1 and replaces the still-live second listener |
| Observer.ListenFresh | include/observer.hh:70-77 | listening under a fresh id adds exactly that id and keeps every other listener |
| Animation.New | src/animator.cc:12-23 | the pixel position starts at position times width, with no pending frames and frame 0 of the image |
| Animation.FromEntity | src/animator.cc:112-115 | the player's animator uses the tile width (as an int) and starts at position times width |
| Animation.MoveDirection | src/animator.cc:74-90 | for a one-cell orthogonal move the direction steps from the old cell to the new |
| Animation.HandleMovement | src/animator.cc:58-100 | a move resets the pixel to from*width. A jump queues exactly the target pixel; a one-cell move queues nFrames frames (nFrames taken as unsigned) |
| Animation.StepFrames | src/animator.cc:92-99 | the i-th queued frame of a one-cell move is from*width + dir*(i*(width/nFrames)) |
| Animation.LastFrameLandsOnTarget | src/animator.cc:92-99 | when width is a multiple of nFrames, the last queued frame is to*width |
| Animation.Animate | src/animator.cc:25-35 | pops the first queued frame into the pixel position, and changes nothing with an empty queue (the intended reading of the dangling reference, see Left out) |
| Animation.AnimateTimes | src/animator.cc:25-35 | n rounds consume the first n queued frames, showing the last one consumed; more rounds than frames leave the queue empty |
| Animation.AnimationEndsOnLastFrame | src/animator.cc:25-40 | animating as often as frames are queued empties the queue and ends on the last frame |
| Animation.FrameIsFixed | src/animator.cc:13-45 | whatever moves and rounds follow, `getFrame` is frame 0 of the constructor's image |
| LevelAnimation.TileToFrame | src/level-animator.cc:30-50 | frame 0 exactly for UNKNOWN; EMPTY is 1, DIRT 2 and STONE_WALL 13; no frame exceeds 21 |
| LevelAnimation.OnlyTeleporterAndExitShareAFrame | src/level-animator.cc:32-45 | the table is injective except that TELEPORTER and EXIT share a frame |
| LevelAnimation.GetImageEntryAt | src/level-animator.cc:16-27 | always the TILES image. Out of bounds gives frame 0; in bounds gives the frame of the tile the overlay shows |
| LevelAnimation.FreshLevelIsDrawnUnknown | src/level-animator.cc:16-27 | before anything is lit, every point is drawn as frame 0 of TILES |
| Split.Find | src/utils.cc:12-15 | finds the first separator, and none exactly when the string has none |
| Split.Split | src/utils.cc:6-18 | empty input gives no pieces, and no piece contains the separator |
| Split.JoinSplit | src/utils.cc:6-18 | joining the pieces with the separator restores the input, minus one trailing separator |
| Split.SplitTerminated | src/utils.cc:6-18 | splitting separator-free pieces each followed by the separator gives back those pieces |
| Split.AdjacentSeparators | src/utils.cc:12-28 | only the first delimiter separates, and adjacent separators give an empty piece |

## Left out

- Level `explode`, `ILevel::tileIsPassable`, the entity store and the level-string parser are not in the shown source. The first two are parameters. The store is modelled as a sequence of entity objects. Its collision and movement events are not modelled, so `CollisionTrait::onCollision` is modelled but never triggered by a move.
- `random()` is a natural-number parameter, used as an index modulo the list length.
- SDL I/O, resource loading, sound, `main`, `game.cc`, `level.cc`, and the stream and hash helpers are not part of this model. So are `string_is_integer` / `string_to_integer`, which only wrap `std::stoull`.
- `include/level.hh` and `src/level.cc` are an older API snapshot with stub bodies. `Tiles` models the `tileAt`/`setTile` behaviour the traits rely on: a bounds-checked grid. The tile enum is taken from the tile-to-frame table, since the header that declares it is not part of this model.
- Integers are unbounded except where 32-bit behaviour is modelled: the fuse and burn countdowns, the teleporter timeout, `Inc`, the listener id, and the animator's width and frame conversions. Overflow in point arithmetic, in Bresenham and in the animator's pixel products (undefined behaviour for signed int in C++) is not modelled.
- GhostWalking.Select: visit counts are unbounded naturals. The source's `0xffffffff` sentinel for "no least count" only matters after 2^32-1 revisits of one cell.
- GhostWalking.SortByCount: `std::sort` with a `>=` comparator fixes no order among equal counts. The model uses one admissible order (a stable insertion) and states only "permutation, sorted by non-increasing count".
- The five-step corridor run from the test suite is not restated as a concrete lemma over the test's level. Each of its steps follows from the general lemmas. `GhostWalking.RunFollowsCorridor`: with exactly one free neighbour not yet visited, the ghost steps onto it. At the dead end, `GhostWalking.RunWithoutPlayer` ties the move to `GhostWalking.Select`, whose least-count rule sends the ghost back along the corridor.
- Teleporting.Run: requires that the retry loop can end, that is, at least one other location exists when an entity is serviced. With a single teleporter the source loops forever.
- Behaviors.Step: requires that `explode` keeps every entity object (it may take entities out of the store). This is needed to keep the entity being run addressable.
- `locateBands`' check for an out-of-range tile cannot fire inside the grid and is left out.
- `player::Operate` is modelled but not attached to any entity type, as in the source's trait table.
- The player's property record (`m_props`) is passed in and returned by `PlayerOperate.Run`; its declaration is not part of this model.
- The lighting overlay must have the level's size (a precondition of the `Lighting` operations); the source creates it from the level's size.
- The lighted `std::set<point>` is modelled as a strictly row-major sorted sequence, the set's iteration order.
- `getShadowEntities` returns a vector in hash-map order; the model returns a set.
- `getImageEntryAt` returns `Image::TILES`, which the shown `image.hh` does not declare; `Images` adds it.
- `tileToFrame` has no end check for tiles missing from its table. The model's tile enum is exactly the table's domain, so the lookup is total.
- Listener call order within `invoke` is unspecified (a hash map), so the result of an invoke is a map from id to call. `NotifierContainer` uses the same `listen`/`detach` logic and shares this model.
- The animator's subscription to the entity's movement notifier is left to the caller (`Animation.Feed`).
- Animation.HandleMovement: requires, for a one-cell move, `nFrames` other than 0 and -1. Zero divides by zero (undefined); with -1 the frame count, compared against an unsigned loop counter at src/animator.cc:93, becomes 2^32 - 1 and the loop never ends. `Animation.Feed` and `Animation.FrameIsFixed` carry the same requirement.
- Animation.Animate: src/animator.cc:31-34 binds a reference to the front of the queue, pops it, and then reads the destination through the dangling reference, which is undefined behaviour. The model takes the evidently intended reading: the pixel position becomes the popped entry's position.

Behaviour the model takes from the code as written:

- a player walking onto a diamond removes it without counting it;
- a PLAYER gets only the Walk trait;
- the falling side-spill looks at tiles only, not at entities beside or below;
- transporter moves check occupancy at the moment of each move;
- the bomb fuse has no once-only guard.

## Findings

| source | as written | input that shows it | evidently intended | confidence | as-written member | corrected member |
|---|---|---|---|---|---|---|
| include/observer.hh:70-77 | `listen` takes the current number of listeners as the new id and assigns into the map | listen a (id 0), listen b (id 1), detach 0, listen c: c gets id 1 and replaces b, which was never detached | every listener gets an id not in use, so detaching one listener never silences another | not executed | Observer.ListenAfterDetachOverwrites | Observer.ListenFresh |

=== FILE: animator.dfy ===
/** The per-entity sprite animator (`src/animator.cc`): a pixel position and
    a queue of pixel positions still to be shown, refilled on every
    movement of the entity. The subscription to the entity's movement
    events is left to the caller, which passes each movement to
    `HandleMovement`. */
module Animation {
  import opened CInt
  import opened Geometry
  import Images

  datatype Animator = Animator(frame: Images.ImageEntry, pixel: Point, width: Int32, nFrames: Int32, pending: seq<Point>)

  /** The constructor: the pixel position is the cell times the cell width,
      nothing is queued, and the frame is frame 0 of the given image. */
  function New(image: Images.Image, pos: Point, width: Int32, nFrames: Int32): (r: Animator)
    ensures r.pixel == Scale(pos, width) && r.pending == []
    ensures r.frame == Images.ImageEntry(image, 0)
    ensures r.width == width && r.nFrames == nFrames
  {
    Animator(Images.ImageEntry(image, 0), Scale(pos, width), width, nFrames, [])
  }

  /** `IAnimator::fromEntity`: the player image, with the unsigned extents
      width converted to `int`. */
  function FromEntity(pos: Point, size: Extents, nFrames: Int32): (r: Animator)
    ensures r.frame == Images.ImageEntry(Images.PLAYER, 0)
    ensures size.width < TWO_TO_THE_31 ==> r.width == size.width && r.pixel == Scale(pos, size.width)
  {
    New(Images.PLAYER, pos, ToInt32(size.width % TWO_TO_THE_32), nFrames)
  }

  /** A move that is longer than one cell, or diagonal. */
  predicate Jump(from: Point, to: Point) {
    var dx := to.x - from.x;
    var dy := to.y - from.y;
    Abs(dx) > 1 || Abs(dy) > 1 || (dx != 0 && dy != 0)
  }

  /** The direction of a move of at most one cell. */
  function MoveDirection(from: Point, to: Point): (d: Direction)
    requires !Jump(from, to)
    ensures Step(from, d) == to
  {
    if from.x < to.x && from.y == to.y then RIGHT
    else if from.x > to.x && from.y == to.y then LEFT
    else if from.x == to.x && from.y > to.y then UP
    else if from.x == to.x && from.y < to.y then DOWN
    else NONE
  }

  /** The loop `for (unsigned i = 1; i <= m_nFrames; i++)` compares with
      `m_nFrames` converted to unsigned. */
  function FrameCount(nFrames: Int32): nat {
    nFrames % TWO_TO_THE_32
  }

  /** `i * pixelsPerFrame` with `unsigned i`: computed in unsigned
      arithmetic and passed on as an `int`. */
  function Offset(i: nat, perFrame: int): Int32 {
    ToInt32((i * perFrame) % TWO_TO_THE_32)
  }

  /** `handleMovement`: drop what is queued, jump back to the start cell, and
      queue either the target (for a jump) or `nFrames` evenly spaced steps
      towards it. Dividing by a zero `nFrames` is undefined, and with
      `nFrames == -1` the unsigned loop bound is 2^32 - 1, which `i <=`
      never exceeds, so the loop never ends: a step needs neither. */
  function HandleMovement(a: Animator, from: Point, to: Point): (r: Animator)
    requires !Jump(from, to) ==> a.nFrames != 0 && a.nFrames != -1
    ensures r.frame == a.frame && r.width == a.width && r.nFrames == a.nFrames
    ensures r.pixel == Scale(from, a.width)
    ensures Jump(from, to) ==> r.pending == [Scale(to, a.width)]
    ensures !Jump(from, to) ==> |r.pending| == FrameCount(a.nFrames)
  {
    var start := Scale(from, a.width);
    if Jump(from, to) then a.(pixel := start, pending := [Scale(to, a.width)])
    else
      var unit := Step(Point(0, 0), MoveDirection(from, to));
      var perFrame := Div(a.width, a.nFrames);
      var frames := seq(FrameCount(a.nFrames), k requires 0 <= k => Add(start, Scale(unit, Offset(k + 1, perFrame))));
      a.(pixel := start, pending := frames)
  }

  /** With a positive frame count and a non-negative width, the `i`-th queued
      position lies `i * (width / nFrames)` pixels from the start, along the
      move. */
  lemma StepFrames(a: Animator, from: Point, to: Point, i: nat)
    requires !Jump(from, to) && a.nFrames > 0 && a.width >= 0
    requires 1 <= i <= a.nFrames
    ensures HandleMovement(a, from, to).pending[i - 1] ==
              Add(Scale(from, a.width), Scale(Sub(to, from), i * (a.width / a.nFrames)))
  {
    var perFrame := a.width / a.nFrames;
    OffsetWithinWidth(i, a.width, a.nFrames);
    assert Step(Point(0, 0), MoveDirection(from, to)) == Sub(to, from);
    assert HandleMovement(a, from, to).pending[i - 1] ==
             Add(Scale(from, a.width), Scale(Step(Point(0, 0), MoveDirection(from, to)), Offset(i, perFrame)));
  }

  /** Up to `nFrames` steps of `width / nFrames` pixels stay within the
      width, so the unsigned product does not wrap. */
  lemma OffsetWithinWidth(i: nat, width: Int32, nFrames: Int32)
    requires nFrames > 0 && width >= 0 && i <= nFrames
    ensures Offset(i, width / nFrames) == i * (width / nFrames)
  {
    var perFrame := width / nFrames;
    assert nFrames * perFrame <= width;
    assert 0 <= i * perFrame <= nFrames * perFrame by {
      MulMonotone(i, nFrames, perFrame);
    }
  }

  lemma MulMonotone(i: nat, n: nat, k: nat)
    requires i <= n
    ensures i * k <= n * k
  {
    assert n * k == i * k + (n - i) * k;
  }

  /** When the width is a multiple of the frame count, the last queued
      position is exactly the target cell. */
  lemma LastFrameLandsOnTarget(a: Animator, from: Point, to: Point)
    requires !Jump(from, to) && a.nFrames > 0 && a.width >= 0
    requires a.width % a.nFrames == 0
    ensures var r := HandleMovement(a, from, to);
            |r.pending| > 0 && r.pending[|r.pending| - 1] == Scale(to, a.width)
  {
    StepFrames(a, from, to, a.nFrames);
    var perFrame := a.width / a.nFrames;
    assert a.nFrames * perFrame == a.width;
    var d := Sub(to, from);
    assert Add(Scale(from, a.width), Scale(d, a.width)) == Scale(to, a.width) by {
      assert from.x * a.width + d.x * a.width == (from.x + d.x) * a.width;
      assert from.y * a.width + d.y * a.width == (from.y + d.y) * a.width;
    }
  }

  /** `animate`: show the next queued position, if any. */
  function Animate(a: Animator, round: UInt32): (r: Animator)
    ensures |a.pending| == 0 ==> r == a
    ensures |a.pending| > 0 ==> r.pixel == a.pending[0] && r.pending == a.pending[1..]
    ensures r.frame == a.frame && r.width == a.width && r.nFrames == a.nFrames
  {
    if |a.pending| == 0 then a else a.(pixel := a.pending[0], pending := a.pending[1..])
  }

  /** `n` display rounds: the first `n` queued positions are consumed, and
      the animator shows the last one consumed. */
  function AnimateTimes(a: Animator, n: nat): (r: Animator)
    ensures r.frame == a.frame
    ensures n <= |a.pending| ==> r.pending == a.pending[n..]
    ensures n >= |a.pending| ==> r.pending == []
    ensures 0 < n <= |a.pending| ==> r.pixel == a.pending[n - 1]
    ensures n == 0 ==> r == a
    decreases n
  {
    if n == 0 then a else AnimateTimes(Animate(a, 0), n - 1)
  }

  /** After as many rounds as there are queued positions, the animator rests
      on the last of them with nothing left queued. */
  lemma {:induction false} AnimationEndsOnLastFrame(a: Animator)
    requires |a.pending| > 0
    ensures AnimateTimes(a, |a.pending|).pixel == a.pending[|a.pending| - 1]
    ensures AnimateTimes(a, |a.pending|).pending == []
    decreases |a.pending|
  {
    if |a.pending| > 1 {
      AnimationEndsOnLastFrame(Animate(a, 0));
    }
  }

  /** What the animator is told: a movement of its entity or a display round. */
  datatype Event = Moved(from: Point, to: Point) | Round(round: UInt32)

  function Feed(a: Animator, events: seq<Event>): (r: Animator)
    requires a.nFrames != 0 && a.nFrames != -1
    ensures r.frame == a.frame && r.width == a.width && r.nFrames == a.nFrames
    decreases |events|
  {
    if |events| == 0 then a
    else
      var next := match events[0]
        case Moved(from, to) => HandleMovement(a, from, to)
        case Round(round) => Animate(a, round);
      Feed(next, events[1..])
  }

  /** `getFrame` is frame 0 of the constructor's image, whatever happens. */
  lemma FrameIsFixed(image: Images.Image, pos: Point, width: Int32, nFrames: Int32, events: seq<Event>)
    requires nFrames != 0 && nFrames != -1
    ensures Feed(New(image, pos, width, nFrames), events).frame == Images.ImageEntry(image, 0)
  {
  }
}

=== FILE: behavior.dfy ===
/** `Behavior` and `LevelBehavior` (`src/behavior.cc`): which traits an
    entity or the level gets, and running them once per tick. */
module Behaviors {
  import opened Wrappers
  import opened CInt
  import opened Geometry
  import opened Tiles
  import opened Entities
  import opened Worlds
  import Falling
  import Exploding
  import Disappearing
  import GhostWalking
  import PlayerBase
  import PlayerWalk
  import Colliding
  import Transporter
  import Teleporting

  /** A trait bound to one entity, with its mutable state. */
  datatype EntityTrait =
    | Fall(falling: bool)
    | ExplodeAfter(timeLeft: Int32)
    | DisappearAfter(timeLeft: Int32)
    | GhostWalk(visited: seq<GhostWalking.Visit>)
    | Walk

  /** A trait of the level. */
  datatype LevelTrait =
    | Collision
    | Transport(bands: seq<Transporter.Band>)
    | Teleport(teleporter: Teleporting.Teleporter)

  /** What a tick supplies from outside: the elapsed time, the level's
      explosion and passability rules, the player's keys for this tick and
      the value `random()` returns. */
  datatype Env = Env(ms: UInt32, explode: Blast, passable: TileType -> bool, keys: PlayerBase.Keys, rnd: nat)

  const TELEPORTER_DELAY_MS: Int32 := 1500

  /** The trait table of the `Behavior` constructor. */
  function TraitsFor(kind: EntityType): (r: seq<EntityTrait>)
    ensures kind == BOULDER || kind == DIAMOND ==> r == [Fall(false)]
    ensures kind == BOMB ==> r == [Fall(false), ExplodeAfter(Exploding.BOMB_FUSE_MS)]
    ensures kind == FIREBALL ==> r == [Fall(false), DisappearAfter(Disappearing.FIREBALL_BURN_MS)]
    ensures kind == GHOST ==> r == [GhostWalk([])]
    ensures kind == PLAYER ==> r == [Walk]
    ensures kind !in {BOULDER, DIAMOND, BOMB, FIREBALL, GHOST, PLAYER} ==> r == []
  {
    match kind
    case BOULDER => [Fall(false)]
    case DIAMOND => [Fall(false)]
    case BOMB => [Fall(false), ExplodeAfter(Exploding.BOMB_FUSE_MS)]
    case FIREBALL => [Fall(false), DisappearAfter(Disappearing.FIREBALL_BURN_MS)]
    case GHOST => [GhostWalk([])]
    case PLAYER => [Walk]
    case _ => []
  }

  /** Only a player walks, and only falling things fall. */
  lemma TraitTableRoles(kind: EntityType)
    ensures Walk in TraitsFor(kind) <==> kind == PLAYER
    ensures Fall(false) in TraitsFor(kind) <==> kind in {BOULDER, DIAMOND, BOMB, FIREBALL}
    ensures |TraitsFor(kind)| <= 2
  {
  }

  /** The `Behavior` constructor. A player's `Walk` trait throws when the
      entity has no input source; that is `None` here. */
  function NewBehavior(kind: EntityType, input: Option<PlayerBase.Input>): (r: Option<seq<EntityTrait>>)
    ensures r.None? <==> kind == PLAYER && input.None?
    ensures r.Some? ==> r.value == TraitsFor(kind)
  {
    if kind == PLAYER && PlayerBase.Attach(input).None? then None else Some(TraitsFor(kind))
  }

  /** Same trait, possibly different state. */
  predicate SameTrait(a: EntityTrait, b: EntityTrait) {
    a.Fall? == b.Fall? && a.ExplodeAfter? == b.ExplodeAfter? && a.DisappearAfter? == b.DisappearAfter? &&
    a.GhostWalk? == b.GhostWalk? && a.Walk? == b.Walk?
  }

  datatype Stepped = Stepped(after: EntityTrait, world: World)

  /** One `trait->run(ms)`: the trait's own `run` with this tick's
      environment; its return value is dropped. */
  function Step(t: EntityTrait, env: Env, w: World, self: Id): (r: Stepped)
    requires Has(w, self) && KeepsEntities(env.explode)
    ensures SameTrait(r.after, t)
    ensures forall q: Id :: Has(w, q) ==> Has(r.world, q)
    ensures t.Fall? ==>
              var f := Falling.Run(t.falling, w, self, env.explode);
              r == Stepped(Fall(f.falling), f.world)
    ensures t.ExplodeAfter? ==>
              var e := Exploding.Run(t.timeLeft, env.ms, w, self, env.explode);
              r == Stepped(ExplodeAfter(e.timeLeft), e.world)
    ensures t.DisappearAfter? ==>
              var d := Disappearing.Run(t.timeLeft, env.ms, w, self);
              r == Stepped(DisappearAfter(d.timeLeft), d.world)
    ensures t.GhostWalk? ==>
              var g := GhostWalking.Run(t.visited, w, self, env.explode, env.rnd);
              r == Stepped(GhostWalk(g.visited), g.world)
    ensures t.Walk? ==> r == Stepped(Walk, PlayerWalk.Run(w, self, env.keys, env.passable).world)
  {
    match t
    case Fall(falling) =>
      var f := Falling.Run(falling, w, self, env.explode);
      Stepped(Fall(f.falling), f.world)
    case ExplodeAfter(timeLeft) =>
      var e := Exploding.Run(timeLeft, env.ms, w, self, env.explode);
      Stepped(ExplodeAfter(e.timeLeft), e.world)
    case DisappearAfter(timeLeft) =>
      var d := Disappearing.Run(timeLeft, env.ms, w, self);
      Stepped(DisappearAfter(d.timeLeft), d.world)
    case GhostWalk(visited) =>
      var pos := PositionOf(w, self);
      var scan := GhostWalking.ScanCells(GhostWalking.Scan(w, []), GhostWalking.Neighbours(pos), env.explode);
      assert forall q: Id :: Has(w, q) ==> Has(scan.world, q) by {
        forall q: Id | Has(w, q) ensures Has(scan.world, q) {
          GhostWalking.ScanKeepsEntities(GhostWalking.Scan(w, []), GhostWalking.Neighbours(pos), env.explode, q);
        }
      }
      var g := GhostWalking.Run(visited, w, self, env.explode, env.rnd);
      Stepped(GhostWalk(g.visited), g.world)
    case Walk =>
      Stepped(Walk, PlayerWalk.Run(w, self, env.keys, env.passable).world)
  }

  datatype Ran = Ran(traits: seq<EntityTrait>, world: World)

  /** `Behavior::run`: every trait once, in list order, with the same
      environment. */
  function Run(traits: seq<EntityTrait>, env: Env, w: World, self: Id): (r: Ran)
    requires Has(w, self) && KeepsEntities(env.explode)
    ensures |r.traits| == |traits|
    ensures forall i :: 0 <= i < |traits| ==> SameTrait(r.traits[i], traits[i])
    ensures forall q: Id :: Has(w, q) ==> Has(r.world, q)
    decreases |traits|
  {
    if |traits| == 0 then Ran([], w)
    else
      var s := Step(traits[0], env, w, self);
      var rest := Run(traits[1..], env, s.world, self);
      Ran([s.after] + rest.traits, rest.world)
  }

  /** Running a list is running its first part, then the rest on the world
      that leaves. */
  lemma {:induction false} RunConcat(a: seq<EntityTrait>, b: seq<EntityTrait>, env: Env, w: World, self: Id)
    requires Has(w, self) && KeepsEntities(env.explode)
    ensures var first := Run(a, env, w, self);
            var second := Run(b, env, first.world, self);
            Run(a + b, env, w, self) == Ran(first.traits + second.traits, second.world)
    decreases |a|
  {
    if |a| == 0 {
      assert a + b == b;
    } else {
      var s := Step(a[0], env, w, self);
      ConsOfConcat(a, b);
      RunConcat(a[1..], b, env, s.world, self);
      var tail := Run(a[1..], env, s.world, self);
      var second := Run(b, env, tail.world, self);
      assert Run(a, env, w, self) == Ran([s.after] + tail.traits, tail.world);
      calc {
        Run(a + b, env, w, self);
        Ran([s.after] + Run(a[1..] + b, env, s.world, self).traits, Run(a[1..] + b, env, s.world, self).world);
        Ran([s.after] + (tail.traits + second.traits), second.world);
        { ConcatAssoc([s.after], tail.traits, second.traits); }
        Ran(Run(a, env, w, self).traits + second.traits, second.world);
      }
    }
  }

  /** A one-trait list runs exactly that trait's step. */
  lemma RunOne(t: EntityTrait, env: Env, w: World, self: Id)
    requires Has(w, self) && KeepsEntities(env.explode)
    ensures var s := Step(t, env, w, self);
            Run([t], env, w, self) == Ran([s.after], s.world)
  {
    assert [t][1..] == [];
  }

  /** Trait `i` runs once, with the world the traits before it leave: its
      new state is what its step returns on that world, and the world after
      the first `i + 1` traits is the world that step leaves. */
  lemma {:induction false} RunEachInOrder(traits: seq<EntityTrait>, env: Env, w: World, self: Id, i: nat)
    requires Has(w, self) && KeepsEntities(env.explode)
    requires i < |traits|
    ensures var before := Run(traits[..i], env, w, self);
            var s := Step(traits[i], env, before.world, self);
            Has(before.world, self) &&
            Run(traits, env, w, self).traits[i] == s.after &&
            Run(traits[..i + 1], env, w, self).world == s.world
  {
    var before := Run(traits[..i], env, w, self);
    var s := Step(traits[i], env, before.world, self);
    SplitAt(traits, i);
    RunConcat(traits[..i], traits[i..], env, w, self);
    assert Run(traits[i..], env, before.world, self).traits[0] == s.after;
    RunConcat(traits[..i], [traits[i]], env, w, self);
    RunOne(traits[i], env, before.world, self);
  }

  /** Cutting a sequence at `i`, and extending the prefix by one element. */
  lemma SplitAt<T>(s: seq<T>, i: nat)
    requires i < |s|
    ensures s[..i] + s[i..] == s && s[..i] + [s[i]] == s[..i + 1] && s[i..][0] == s[i]
    ensures forall x :: x in s[..i] || x in s[i..] ==> x in s
  {
  }

  lemma ConsOfConcat<T>(a: seq<T>, b: seq<T>)
    requires |a| > 0
    ensures (a + b)[0] == a[0] && (a + b)[1..] == a[1..] + b
  {
  }

  lemma ConcatAssoc<T>(a: seq<T>, b: seq<T>, c: seq<T>)
    ensures a + (b + c) == (a + b) + c
  {
  }

  /** `LevelBehavior`'s constructor. */
  function NewLevelBehavior(g: Grid): (r: seq<LevelTrait>)
    ensures |r| == 3 && r[0] == Collision && r[1].Transport? && r[2].Teleport?
    ensures forall b :: b in r[1].bands <==> Transporter.IsBand(g, b.start.y, b)
    ensures r[2].teleporter.delay == r[2].teleporter.timeout == TELEPORTER_DELAY_MS
    ensures forall p :: p in r[2].teleporter.locations <==> TileAt(g, p) == Some(TELEPORTER)
  {
    var bands := Transporter.LocateBands(g);
    forall b ensures b in bands <==> Transporter.IsBand(g, b.start.y, b) {
      Transporter.LocateBandsIsExact(g, b);
    }
    [Collision, Transport(bands), Teleport(Teleporting.New(g, TELEPORTER_DELAY_MS))]
  }

  /** What keeps the level traits runnable: bands have cells, and the
      teleporter retry loop can always end. */
  predicate RunnableLevel(t: LevelTrait) {
    match t
    case Collision => true
    case Transport(bands) => forall b :: b in bands ==> Transporter.Proper(b)
    case Teleport(tp) => Teleporting.Distinct(tp.locations) && |tp.locations| != 1
  }

  datatype LevelStepped = LevelStepped(after: LevelTrait, world: World)

  /** Same level trait, possibly different state. */
  predicate SameLevelTrait(a: LevelTrait, b: LevelTrait) {
    a.Collision? == b.Collision? && a.Transport? == b.Transport? && a.Teleport? == b.Teleport?
  }

  /** One level `trait->run(ms)`: the trait's own `run`. Collision and
      transport keep no state between ticks; the teleporter keeps its
      countdown and locations. */
  function LevelStep(t: LevelTrait, env: Env, w: World): (r: LevelStepped)
    requires RunnableLevel(t)
    ensures RunnableLevel(r.after)
    ensures SameLevelTrait(r.after, t)
    ensures t.Collision? ==> r == LevelStepped(t, Colliding.Run(w).world)
    ensures t.Transport? ==> r == LevelStepped(t, Transporter.Run(t.bands, w).world)
    ensures t.Teleport? ==>
              Teleporting.Terminates(t.teleporter, env.ms, w) &&
              var tr := Teleporting.Run(t.teleporter, env.ms, w, env.explode, env.rnd);
              r == LevelStepped(Teleport(tr.teleporter), tr.world)
  {
    match t
    case Collision => LevelStepped(t, Colliding.Run(w).world)
    case Transport(bands) => LevelStepped(t, Transporter.Run(bands, w).world)
    case Teleport(tp) =>
      Teleporting.TwoLocationsTerminate(tp, env.ms, w);
      var r := Teleporting.Run(tp, env.ms, w, env.explode, env.rnd);
      LevelStepped(Teleport(r.teleporter), r.world)
  }

  datatype LevelRan = LevelRan(traits: seq<LevelTrait>, world: World)

  /** `LevelBehavior::run`: every level trait once, in list order, with the
      same environment. */
  function RunLevel(traits: seq<LevelTrait>, env: Env, w: World): (r: LevelRan)
    requires forall t :: t in traits ==> RunnableLevel(t)
    ensures |r.traits| == |traits|
    ensures forall i :: 0 <= i < |traits| ==> SameLevelTrait(r.traits[i], traits[i])
    ensures forall t :: t in r.traits ==> RunnableLevel(t)
    decreases |traits|
  {
    if |traits| == 0 then LevelRan([], w)
    else
      var s := LevelStep(traits[0], env, w);
      var rest := RunLevel(traits[1..], env, s.world);
      LevelRan([s.after] + rest.traits, rest.world)
  }

  /** Running a list of level traits is running its first part, then the
      rest on the world that leaves. */
  lemma {:induction false} RunLevelConcat(a: seq<LevelTrait>, b: seq<LevelTrait>, env: Env, w: World)
    requires forall t :: t in a ==> RunnableLevel(t)
    requires forall t :: t in b ==> RunnableLevel(t)
    ensures forall t :: t in a + b ==> RunnableLevel(t)
    ensures var first := RunLevel(a, env, w);
            var second := RunLevel(b, env, first.world);
            RunLevel(a + b, env, w) == LevelRan(first.traits + second.traits, second.world)
    decreases |a|
  {
    if |a| == 0 {
      assert a + b == b;
    } else {
      var s := LevelStep(a[0], env, w);
      ConsOfConcat(a, b);
      assert forall t :: t in a[1..] ==> t in a;
      RunLevelConcat(a[1..], b, env, s.world);
      var tail := RunLevel(a[1..], env, s.world);
      var second := RunLevel(b, env, tail.world);
      assert RunLevel(a, env, w) == LevelRan([s.after] + tail.traits, tail.world);
      assert RunLevel(a + b, env, w) == LevelRan([s.after] + (tail.traits + second.traits), second.world);
      ConcatAssoc([s.after], tail.traits, second.traits);
    }
  }

  /** A one-trait level list runs exactly that trait's step. */
  lemma RunLevelOne(t: LevelTrait, env: Env, w: World)
    requires RunnableLevel(t)
    ensures var s := LevelStep(t, env, w);
            RunLevel([t], env, w) == LevelRan([s.after], s.world)
  {
    assert [t][1..] == [];
  }

  /** Level trait `i` runs once, on the world the traits before it leave. */
  lemma {:induction false} RunLevelEachInOrder(traits: seq<LevelTrait>, env: Env, w: World, i: nat)
    requires forall t :: t in traits ==> RunnableLevel(t)
    requires i < |traits|
    ensures forall t :: t in traits[..i] ==> RunnableLevel(t)
    ensures var before := RunLevel(traits[..i], env, w);
            var s := LevelStep(traits[i], env, before.world);
            RunLevel(traits, env, w).traits[i] == s.after &&
            RunLevel(traits[..i + 1], env, w).world == s.world
  {
    SplitAt(traits, i);
    var before := RunLevel(traits[..i], env, w);
    var s := LevelStep(traits[i], env, before.world);
    RunLevelConcat(traits[..i], traits[i..], env, w);
    assert RunLevel(traits[i..], env, before.world).traits[0] == s.after;
    RunLevelConcat(traits[..i], [traits[i]], env, w);
    RunLevelOne(traits[i], env, before.world);
  }

  /** A freshly built level can run as long as it does not have exactly one
      teleporter. */
  lemma NewLevelIsRunnable(g: Grid)
    requires |NewLevelBehavior(g)[2].teleporter.locations| != 1
    ensures forall t :: t in NewLevelBehavior(g) ==> RunnableLevel(t)
  {
    var r := NewLevelBehavior(g);
    assert forall b :: b in r[1].bands ==> Transporter.Proper(b);
  }
}

=== FILE: bresenham.dfy ===
/** The integer line walker `bresenham` of `legacy/lib/utils/utils.c`. */
module Bresenham {
  import opened CInt
  import opened Geometry

  /** The C callback with its `void *` argument. Whatever state the argument
      carries is a function of the points handed over so far, so the callback
      is modelled as a decision on (earlier points, current point); `true`
      stands for a nonzero return, which aborts the walk. */
  type Callback = (seq<Point>, Point) -> bool

  /** `(d > 0) ? 1 : -1`: zero counts as negative. */
  function StepSign(d: int): int {
    if d > 0 then 1 else -1
  }

  function Max(a: nat, b: nat): nat {
    if a < b then b else a
  }

  /** The walk follows x unless the line is strictly steeper than 45 degrees. */
  predicate XMajor(x0: int, y0: int, x1: int, y1: int) {
    Abs(y1 - y0) <= Abs(x1 - x0)
  }

  function Major(p: Point, xMajor: bool): int {
    if xMajor then p.x else p.y
  }

  function Minor(p: Point, xMajor: bool): int {
    if xMajor then p.y else p.x
  }

  /** The coordinate `j` unit steps from `from` in the direction of `to`
      (downwards when they are equal, as `StepSign` has it). */
  function Toward(from: int, to: int, j: nat): int {
    if to > from then from + j else from - j
  }

  /** Points handed to the callback before it aborted (or all of them). */
  predicate NoneAborted(callback: Callback, visited: seq<Point>, n: nat)
    requires n <= |visited|
  {
    forall j :: 0 <= j < n ==> !callback(visited[..j], visited[j])
  }

  /** Appending a point does not change the verdicts on the earlier ones. */
  lemma NoneAbortedExtend(callback: Callback, visited: seq<Point>, pt: Point, n: nat)
    requires n <= |visited| && NoneAborted(callback, visited, n)
    ensures NoneAborted(callback, visited + [pt], n)
    ensures n == |visited| && !callback(visited, pt) ==> NoneAborted(callback, visited + [pt], n + 1)
  {
    forall j | 0 <= j < n
      ensures !callback((visited + [pt])[..j], (visited + [pt])[j])
    {
      assert (visited + [pt])[..j] == visited[..j];
    }
    assert (visited + [pt])[..|visited|] == visited;
  }

  /** The point with major coordinate `a` and minor coordinate `b`. */
  function Orient(a: int, b: int, xMajor: bool): (p: Point)
    ensures Major(p, xMajor) == a && Minor(p, xMajor) == b
  {
    if xMajor then Point(a, b) else Point(b, a)
  }

  /** `bresenham(x0, y0, x1, y1, callback, arg)`: returns the C result and the
      points handed to the callback, in order. The C code swaps the two axes
      of a steep line before the loop and swaps them back for each callback;
      here the loop runs on (major, minor) coordinates and `Orient` does the
      swapping back. */
  method Walk(x0: int, y0: int, x1: int, y1: int, callback: Callback)
    returns (r: int, visited: seq<Point>)
    // the result code: 1 exactly when the last point handed over aborted
    ensures r == 0 || r == 1
    ensures |visited| <= Max(Abs(x1 - x0), Abs(y1 - y0))
    ensures |visited| > 0 ==> NoneAborted(callback, visited, |visited| - 1)
    ensures r == 1 <==> |visited| > 0 && callback(visited[..|visited| - 1], visited[|visited| - 1])
    ensures r == 0 ==> |visited| == Max(Abs(x1 - x0), Abs(y1 - y0)) && NoneAborted(callback, visited, |visited|)
    // the geometry of the points handed over
    ensures |visited| > 0 ==> visited[0] == Point(x0, y0)
    ensures forall j :: 0 <= j < |visited| ==> visited[j] != Point(x1, y1)
    ensures var xm := XMajor(x0, y0, x1, y1);
            var a0 := if xm then x0 else y0;
            var a1 := if xm then x1 else y1;
            forall j :: 0 <= j < |visited| ==> Major(visited[j], xm) == Toward(a0, a1, j)
    ensures var xm := XMajor(x0, y0, x1, y1);
            var b0 := if xm then y0 else x0;
            var b1 := if xm then y1 else x1;
            forall j :: 0 <= j < |visited| - 1 ==>
              var d := Minor(visited[j + 1], xm) - Minor(visited[j], xm);
              d == 0 || (b1 != b0 && d == StepSign(b1 - b0))
  {
    var xMajor := XMajor(x0, y0, x1, y1);
    if xMajor {
      r, visited := WalkMajor(x0, y0, x1, y1, xMajor, callback);
    } else {
      // steep: swap the axes
      r, visited := WalkMajor(y0, x0, y1, x1, xMajor, callback);
    }
  }

  /** The loop of `bresenham` on major coordinate `a` and minor coordinate `b`. */
  method WalkMajor(a0: int, b0: int, a1: int, b1: int, xMajor: bool, callback: Callback)
    returns (r: int, visited: seq<Point>)
    requires Abs(b1 - b0) <= Abs(a1 - a0)
    ensures r == 0 || r == 1
    ensures |visited| <= Abs(a1 - a0)
    ensures |visited| > 0 ==> NoneAborted(callback, visited, |visited| - 1)
    ensures r == 1 <==> |visited| > 0 && callback(visited[..|visited| - 1], visited[|visited| - 1])
    ensures r == 0 ==> |visited| == Abs(a1 - a0) && NoneAborted(callback, visited, |visited|)
    ensures |visited| > 0 ==> visited[0] == Orient(a0, b0, xMajor)
    ensures forall j :: 0 <= j < |visited| ==> Major(visited[j], xMajor) == Toward(a0, a1, j)
    ensures forall j :: 0 <= j < |visited| - 1 ==>
              var d := Minor(visited[j + 1], xMajor) - Minor(visited[j], xMajor);
              d == 0 || (b1 != b0 && d == StepSign(b1 - b0))
  {
    var dx: int := Abs(a1 - a0);
    var sx := StepSign(a1 - a0);
    var dy: int := Abs(b1 - b0);
    var sy := StepSign(b1 - b0);
    r, visited := Loop(a0, b0, a1, b1, xMajor, callback, dx, dy, sx, sy);
  }

  /** The loop itself, once the deltas and step signs are known. */
  method Loop(a0: int, b0: int, a1: int, b1: int, xMajor: bool, callback: Callback,
              dx: nat, dy: nat, sx: int, sy: int)
    returns (r: int, visited: seq<Point>)
    requires dy <= dx && (dy > 0 <==> b1 != b0)
    requires sx == StepSign(a1 - a0) && sy == StepSign(b1 - b0)
    ensures r == 0 || r == 1
    ensures |visited| <= dx
    ensures |visited| > 0 ==> NoneAborted(callback, visited, |visited| - 1)
    ensures r == 1 <==> |visited| > 0 && callback(visited[..|visited| - 1], visited[|visited| - 1])
    ensures r == 0 ==> |visited| == dx && NoneAborted(callback, visited, |visited|)
    ensures |visited| > 0 ==> visited[0] == Orient(a0, b0, xMajor)
    ensures MajorsFollow(visited, xMajor, a0, a1)
    ensures MinorsStep(visited, xMajor, b1 != b0, sy)
  {
    var a, b := a0, b0;
    var e: int := 2 * dy - dx;
    var i := 0;
    var last := b0;  // the minor coordinate of the last point handed over
    visited := [];
    while i < dx
      invariant 0 <= i <= dx
      invariant |visited| == i
      invariant a == Toward(a0, a1, i)
      invariant dx > 0 ==> e < 2 * dy
      invariant i > 0 ==> Minor(visited[i - 1], xMajor) == last
      invariant b == last || (i > 0 && dy > 0 && b == last + sy)
      invariant i == 0 ==> last == b0
      invariant i > 0 ==> visited[0] == Orient(a0, b0, xMajor)
      invariant MajorsFollow(visited, xMajor, a0, a1)
      invariant MinorsStep(visited, xMajor, b1 != b0, sy)
      invariant NoneAborted(callback, visited, i)
    {
      var pt := Orient(a, b, xMajor);
      var stop := callback(visited, pt);
      NoneAbortedExtend(callback, visited, pt, i);
      MajorsFollowExtend(visited, xMajor, a0, a1, pt);
      MinorsStepExtend(visited, xMajor, b1 != b0, sy, pt);
      visited := visited + [pt];
      last := b;
      if stop {
        return 1, visited;
      }
      b, e := MinorSteps(b, e, sy, dx, dy);
      TowardNext(a0, a1, i);
      a := a + sx;
      e := e + 2 * dy;
      i := i + 1;
    }
    return 0, visited;
  }

  lemma TowardNext(from: int, to: int, j: nat)
    ensures Toward(from, to, j + 1) == Toward(from, to, j) + StepSign(to - from)
  {
  }

  /** The `j`-th point has major coordinate `j` steps along from `a0`. */
  predicate MajorsFollow(visited: seq<Point>, xMajor: bool, a0: int, a1: int) {
    forall j :: 0 <= j < |visited| ==> Major(visited[j], xMajor) == Toward(a0, a1, j)
  }

  /** Consecutive points keep their minor coordinate or move it by `sy`,
      the latter only when `moves`. */
  predicate MinorsStep(visited: seq<Point>, xMajor: bool, moves: bool, sy: int) {
    forall j :: 0 <= j < |visited| - 1 ==>
      var d := Minor(visited[j + 1], xMajor) - Minor(visited[j], xMajor);
      d == 0 || (moves && d == sy)
  }

  lemma MajorsFollowExtend(visited: seq<Point>, xMajor: bool, a0: int, a1: int, pt: Point)
    requires MajorsFollow(visited, xMajor, a0, a1)
    requires Major(pt, xMajor) == Toward(a0, a1, |visited|)
    ensures MajorsFollow(visited + [pt], xMajor, a0, a1)
  {
  }

  lemma MinorsStepExtend(visited: seq<Point>, xMajor: bool, moves: bool, sy: int, pt: Point)
    requires MinorsStep(visited, xMajor, moves, sy)
    requires |visited| > 0 ==>
               var d := Minor(pt, xMajor) - Minor(visited[|visited| - 1], xMajor);
               d == 0 || (moves && d == sy)
    ensures MinorsStep(visited + [pt], xMajor, moves, sy)
  {
    var v := visited + [pt];
    forall j | 0 <= j < |v| - 1
      ensures var d := Minor(v[j + 1], xMajor) - Minor(v[j], xMajor); d == 0 || (moves && d == sy)
    {
      if j < |visited| - 1 {
        assert v[j] == visited[j] && v[j + 1] == visited[j + 1];
      }
    }
  }

  /** The inner `while (e >= 0)` loop: with the error term below `2 * dy`
      (and `dy <= dx`) it moves the minor coordinate at most once. */
  method MinorSteps(b: int, e: int, sy: int, dx: int, dy: int) returns (b': int, e': int)
    requires 0 <= dy <= dx && 0 < dx
    requires e < 2 * dy
    ensures e' < 0
    ensures (b' == b && e' == e) || (dy > 0 && b' == b + sy && e' == e - 2 * dx)
  {
    b', e' := b, e;
    while e' >= 0
      invariant (b' == b && e' == e) || (dy > 0 && b' == b + sy && e' == e - 2 * dx && e' < 0)
      decreases e'
    {
      b' := b' + sy;
      e' := e' - 2 * dx;
    }
  }
}

=== FILE: colliding.dfy ===
/** `CollisionTrait` (`src/traits/colliding.cc`): the level's reaction to the
    store reporting that two entities met. The store's collision events are
    not part of this model; `OnCollision` is the handler they would call. */
module Colliding {
  import opened Wrappers
  import opened Entities
  import opened Worlds

  /** The party of a collision a rule acts on. */
  datatype Party = One | Other

  /** `ifOne`: when either party has `kind`, act on the other one; the first
      party is checked first. */
  function IfOne(one: EntityType, other: EntityType, kind: EntityType): (r: Option<Party>)
    ensures r == Some(Other) <==> one == kind
    ensures r == Some(One) <==> one != kind && other == kind
    ensures r == None <==> one != kind && other != kind
  {
    if one == kind then Some(Other)
    else if other == kind then Some(One)
    else None
  }

  /** `ifPair`: when the parties are `kind` and `kind2`, in either order,
      act on the party of `kind2`. */
  function IfPair(one: EntityType, other: EntityType, kind: EntityType, kind2: EntityType): (r: Option<Party>)
    ensures r.Some? <==> (one == kind && other == kind2) || (other == kind && one == kind2)
    ensures r == Some(Other) ==> other == kind2
    ensures r == Some(One) ==> one == kind2
  {
    if one == kind && other == kind2 then Some(Other)
    else if other == kind && one == kind2 then Some(One)
    else None
  }

  /** `onCollision`: a fireball destroys what it meets. */
  function OnCollision(w: World, one: Id, other: Id): (r: World)
    requires Has(w, one) && Has(w, other)
    ensures Kind(w, one) == FIREBALL ==> r == Remove(w, other)
    ensures Kind(w, one) != FIREBALL && Kind(w, other) == FIREBALL ==> r == Remove(w, one)
    ensures Kind(w, one) != FIREBALL && Kind(w, other) != FIREBALL ==> r == w
  {
    match IfOne(Kind(w, one), Kind(w, other), FIREBALL)
    case Some(One) => Remove(w, one)
    case Some(Other) => Remove(w, other)
    case None => w
  }

  /** At most one entity leaves the store per collision, and only one of the
      two parties. */
  lemma AtMostOneRemoved(w: World, one: Id, other: Id, a: Id, b: Id)
    requires Has(w, one) && Has(w, other)
    requires EntityById(w, a).Some? && EntityById(OnCollision(w, one, other), a).None?
    requires EntityById(w, b).Some? && EntityById(OnCollision(w, one, other), b).None?
    ensures a == b
    ensures a == one || a == other
  {
  }

  /** Two fireballs: the second party goes, the first stays. */
  lemma TwoFireballs(w: World, one: Id, other: Id)
    requires Has(w, one) && Has(w, other) && one != other
    requires Kind(w, one) == FIREBALL && Kind(w, other) == FIREBALL
    ensures Lookup(OnCollision(w, one, other), one) == Lookup(w, one)
    ensures EntityById(OnCollision(w, one, other), other).None?
  {
  }

  datatype CollisionResult = CollisionResult(world: World, result: bool)

  /** `CollisionTrait::run`: all work happens in the handler. */
  function Run(w: World): (r: CollisionResult)
    ensures r.world == w && !r.result
  {
    CollisionResult(w, false)
  }
}

=== FILE: disappear.dfy ===
/** `DisappearAfterTrait` (`src/traits/disappear-after.cc`): a fireball
    burning out. */
module Disappearing {
  import opened CInt
  import opened Worlds
  import opened Timers

  const FIREBALL_BURN_MS: Int32 := 1000

  datatype TimerResult = TimerResult(timeLeft: Int32, world: World, result: bool)

  /** `DisappearAfterTrait::run`: count down; once the time is up, remove the
      entity. Tiles are never touched and nothing explodes. */
  function Run(timeLeft: Int32, ms: UInt32, w: World, self: Id): (r: TimerResult)
    ensures -TWO_TO_THE_31 <= timeLeft - ms ==> r.timeLeft == timeLeft - ms
    ensures r.timeLeft > 0 ==> r.world == w
    ensures r.timeLeft <= 0 ==> r.world == Remove(w, self)
    ensures r.world.grid == w.grid
    ensures !r.result
  {
    var t := Tick(timeLeft, ms);
    if t <= 0 then TimerResult(t, Remove(w, self), false) else TimerResult(t, w, false)
  }

  /** The fireball scenario: after 100 ms of falling a 1000 ms fireball is
      still there; 1000 ms more remove it from the store. */
  lemma FireballScenario(w: World, self: Id)
    ensures Run(FIREBALL_BURN_MS, 100, w, self).world == w
    ensures Run(900, 1000, w, self).world == Remove(w, self)
    ensures EntityById(Run(900, 1000, w, self).world, self).None?
  {
  }
}

=== FILE: entities.dfy ===
/** Game entities and their factory (`src/entity.cc`). */
module Entities {
  import opened Wrappers
  import opened Geometry

  datatype EntityType =
    | BOULDER
    | BLOCK
    | GHOST
    | PLAYER
    | DIAMOND
    | BOMB
    | FIREBALL
    | IRON_KEY
    | GOLD_KEY
    | RED_KEY

  /** An entity object: a fixed type and a mutable position. */
  datatype Entity = Entity(kind: EntityType, pos: Point)

  /** `Entity::getPosition` */
  function GetPosition(e: Entity): Point {
    e.pos
  }

  /** `Entity::setPosition` */
  function SetPosition(e: Entity, dst: Point): Entity {
    e.(pos := dst)
  }

  /** Moving an entity never changes its type, and the position read back is
      the one written. */
  lemma SetThenGet(e: Entity, dst: Point)
    ensures GetPosition(SetPosition(e, dst)) == dst
    ensures SetPosition(e, dst).kind == e.kind
    ensures SetPosition(SetPosition(e, dst), GetPosition(e)) == e
  {
  }

  /** The `charToEntity` table: only 'o' and 'p' are entity characters. */
  function CharToEntity(c: char): Option<EntityType> {
    if c == 'o' then Some(BOULDER)
    else if c == 'p' then Some(PLAYER)
    else None
  }

  /** `IEntity::isValid`: the character is a key of the table. */
  predicate IsValid(c: char) {
    CharToEntity(c).Some?
  }

  /** `IEntity::createFromType`: only boulders and players can be built. */
  function CreateFromType(t: EntityType, where: Point): (r: Option<Entity>)
    ensures r.Some? <==> t == BOULDER || t == PLAYER
    ensures r.Some? ==> r.value.kind == t && r.value.pos == where
  {
    match t
    case BOULDER => Some(Entity(BOULDER, where))
    case PLAYER => Some(Entity(PLAYER, where))
    case _ => None
  }

  /** `IEntity::createFromChar`: table lookup, then `createFromType`. */
  function CreateFromChar(c: char, where: Point): Option<Entity> {
    match CharToEntity(c)
    case None => None
    case Some(t) => CreateFromType(t, where)
  }

  /** Exactly 'o' and 'p' are valid; they create a boulder and a player at the
      given point, and every other character (such as '.') creates nothing. */
  lemma CreateFromCharMatchesIsValid(c: char, where: Point)
    ensures IsValid(c) <==> c == 'o' || c == 'p'
    ensures CreateFromChar(c, where).Some? <==> IsValid(c)
    ensures c == 'o' ==> CreateFromChar(c, where) == Some(Entity(BOULDER, where))
    ensures c == 'p' ==> CreateFromChar(c, where) == Some(Entity(PLAYER, where))
  {
  }
}

=== FILE: exploding.dfy ===
/** `ExplodeAfterTrait` (`src/traits/exploding.cc`): a bomb's fuse. */
module Exploding {
  import opened CInt
  import opened Geometry
  import opened Worlds
  import opened Timers

  const BOMB_FUSE_MS: Int32 := 2000

  datatype TimerResult = TimerResult(timeLeft: Int32, world: World, result: bool)

  /** `ExplodeAfterTrait::run`: count down; once the time is up, remove the
      entity and then explode where it stood. There is no once-only guard. */
  function Run(timeLeft: Int32, ms: UInt32, w: World, self: Id, explode: Blast): (r: TimerResult)
    requires Has(w, self)
    ensures -TWO_TO_THE_31 <= timeLeft - ms ==> r.timeLeft == timeLeft - ms
    ensures r.timeLeft > 0 ==> r.world == w
    ensures r.timeLeft <= 0 ==> r.world == explode(Remove(w, self), PositionOf(w, self))
    ensures !r.result
  {
    var t := Tick(timeLeft, ms);
    if t <= 0 then
      var where := PositionOf(w, self);
      TimerResult(t, explode(Remove(w, self), where), false)
    else
      TimerResult(t, w, false)
  }

  /** Once the fuse has burnt down, every further run explodes again. */
  lemma FiresAgainAfterExpiry(timeLeft: Int32, ms: UInt32, w: World, self: Id, explode: Blast)
    requires Has(w, self)
    requires timeLeft <= 0 && timeLeft - ms >= -TWO_TO_THE_31
    ensures Run(timeLeft, ms, w, self, explode).world == explode(Remove(w, self), PositionOf(w, self))
  {
  }

  /** The bomb scenario: 100 ms of falling and 1899 ms more leave a 2000 ms
      fuse at 1 ms (no explosion); a further 2 ms set it off. */
  lemma {:induction false} BombScenario(w: World, self: Id, explode: Blast)
    requires Has(w, self)
    ensures Elapse(BOMB_FUSE_MS, [100, 1899]) == 1
    ensures Run(1, 2, w, self, explode).world == explode(Remove(w, self), PositionOf(w, self))
  {
    ElapseSubtractsSum(BOMB_FUSE_MS, [100, 1899]);
    assert Sum([100, 1899]) == 1999 by {
      assert [100, 1899][1..] == [1899];
      assert [1899][1..] == [];
    }
  }
}

=== FILE: falling.dfy ===
/** `FallTrait` (`src/traits/falling.cc`): gravity for boulders, diamonds,
    bombs and fireballs. */
module Falling {
  import opened Wrappers
  import opened Geometry
  import opened Tiles
  import opened Entities
  import opened Worlds

  /** The state a run leaves behind, and its return value. */
  datatype FallResult = FallResult(falling: bool, world: World, result: bool)

  /** `entityShouldBeDestroyed`: what a falling object crushes. */
  predicate Crushable(t: EntityType) {
    t == PLAYER || t == GHOST || t == BOMB
  }

  /** `FallTrait::run`. `falling` is `m_falling`; `self` is the entity the
      trait is bound to. */
  function Run(falling: bool, w: World, self: Id, explode: Blast): (r: FallResult)
    requires Has(w, self)
    // falling onto something crushable: both leave the store, the cell below
    // explodes, and the run still counts as falling
    ensures var cur := PositionOf(w, self);
            var below := EntityAt(w, Step(cur, DOWN));
            falling && below.Some? && Crushable(below.value.entity.kind) ==>
              r == FallResult(true, explode(Remove(Remove(w, self), below.value.id), Step(cur, DOWN)), true)
    // resting on an entity (crushable or not): spill sideways, judged on the
    // tiles alone, left before right
    ensures var cur := PositionOf(w, self);
            var below := EntityAt(w, Step(cur, DOWN));
            below.Some? && !(falling && Crushable(below.value.entity.kind)) ==>
              if IsEmptyTile(w, Step(cur, LEFT)) && IsEmptyTile(w, Step(Step(cur, LEFT), DOWN)) then
                r.result && r.world == Move(w, self, Step(cur, LEFT))
              else if IsEmptyTile(w, Step(cur, RIGHT)) && IsEmptyTile(w, Step(Step(cur, RIGHT), DOWN)) then
                r.result && r.world == Move(w, self, Step(cur, RIGHT))
              else
                !r.result
    // nothing below: drop one cell onto an EMPTY tile
    ensures var cur := PositionOf(w, self);
            EntityAt(w, Step(cur, DOWN)).None? ==>
              (r.result <==> IsEmptyTile(w, Step(cur, DOWN))) &&
              (r.result ==> r.world == Move(w, self, Step(cur, DOWN)))
    // every run that returns true leaves the entity falling; every other run
    // changes nothing and clears the flag
    ensures r.result ==> r.falling
    ensures !r.result ==> !r.falling && r.world == w
  {
    var cur := PositionOf(w, self);
    var below := Step(cur, DOWN);
    var entityBelow := EntityAt(w, below);
    if falling && entityBelow.Some? && Crushable(entityBelow.value.entity.kind) then
      FallResult(true, explode(Remove(Remove(w, self), entityBelow.value.id), below), true)
    else if entityBelow.Some? then
      if IsEmptyTile(w, Step(cur, LEFT)) && IsEmptyTile(w, Step(Step(cur, LEFT), DOWN)) then
        FallResult(true, Move(w, self, Step(cur, LEFT)), true)
      else if IsEmptyTile(w, Step(cur, RIGHT)) && IsEmptyTile(w, Step(Step(cur, RIGHT), DOWN)) then
        FallResult(true, Move(w, self, Step(cur, RIGHT)), true)
      else
        FallResult(false, w, false)
    else if IsEmptyTile(w, below) then
      FallResult(true, Move(w, self, below), true)
    else
      FallResult(false, w, false)
  }

  /** A move always lands on an in-bounds EMPTY tile next to the start, so a
      falling object never leaves the grid. */
  lemma MoveStaysInGrid(falling: bool, w: World, self: Id, explode: Blast)
    requires Has(w, self)
    requires var below := EntityAt(w, Step(PositionOf(w, self), DOWN));
             !(falling && below.Some? && Crushable(below.value.entity.kind))
    requires Run(falling, w, self, explode).result
    ensures var r := Run(falling, w, self, explode);
            var cur := PositionOf(w, self);
            Has(r.world, self) &&
            InBounds(r.world.grid, PositionOf(r.world, self)) &&
            IsEmptyTile(w, PositionOf(r.world, self)) &&
            (PositionOf(r.world, self) == Step(cur, LEFT) ||
             PositionOf(r.world, self) == Step(cur, RIGHT) ||
             PositionOf(r.world, self) == Step(cur, DOWN))
  {
  }

  /** A settled object stays settled: running the trait again on an unchanged
      world does nothing again. */
  lemma SettledIsStable(falling: bool, w: World, self: Id, explode: Blast)
    requires Has(w, self)
    requires !Run(falling, w, self, explode).result
    ensures var r := Run(falling, w, self, explode);
            Run(r.falling, r.world, self, explode) == r
  {
  }
}

=== FILE: geometry.dfy ===
/** Grid coordinates and directions (`include/point.hh`). */
module Geometry {

  datatype Direction = UP | DOWN | LEFT | RIGHT | NONE

  /** A grid coordinate; `y` grows downwards. */
  datatype Point = Point(x: int, y: int)

  datatype Extents = Extents(width: nat, height: nat)

  /** `point + Direction`: the neighbouring cell, or the point itself for NONE. */
  function Step(p: Point, d: Direction): Point {
    match d
    case UP => Point(p.x, p.y - 1)
    case DOWN => Point(p.x, p.y + 1)
    case LEFT => Point(p.x - 1, p.y)
    case RIGHT => Point(p.x + 1, p.y)
    case NONE => p
  }

  /** UP and DOWN change only `y`, LEFT and RIGHT only `x`, each by one; NONE
      changes nothing. */
  lemma StepCoordinates(p: Point, d: Direction)
    ensures d == UP ==> Step(p, d).x == p.x && Step(p, d).y == p.y - 1
    ensures d == DOWN ==> Step(p, d).x == p.x && Step(p, d).y == p.y + 1
    ensures d == LEFT ==> Step(p, d).x == p.x - 1 && Step(p, d).y == p.y
    ensures d == RIGHT ==> Step(p, d).x == p.x + 1 && Step(p, d).y == p.y
    ensures d == NONE <==> Step(p, d) == p
  {
  }

  function Opposite(d: Direction): Direction {
    match d
    case UP => DOWN
    case DOWN => UP
    case LEFT => RIGHT
    case RIGHT => LEFT
    case NONE => NONE
  }

  /** Taking a step and then the opposite step returns to the start. */
  lemma StepBack(p: Point, d: Direction)
    ensures Step(Step(p, d), Opposite(d)) == p
  {
  }

  /** Every real direction moves to a different, orthogonally adjacent cell. */
  lemma StepIsAdjacent(p: Point, d: Direction)
    requires d != NONE
    ensures Adjacent(p, Step(p, d))
    ensures Step(p, d) != p
  {
  }

  predicate Adjacent(p: Point, q: Point) {
    (p.x == q.x && (p.y - q.y == 1 || q.y - p.y == 1)) ||
    (p.y == q.y && (p.x - q.x == 1 || q.x - p.x == 1))
  }

  function Add(p: Point, q: Point): Point {
    Point(p.x + q.x, p.y + q.y)
  }

  function Sub(p: Point, q: Point): Point {
    Point(p.x - q.x, p.y - q.y)
  }

  /** `point * int` */
  function Scale(p: Point, k: int): Point {
    Point(p.x * k, p.y * k)
  }

  /** Subtraction undoes addition. */
  lemma AddSubInverse(p: Point, q: Point)
    ensures Sub(Add(p, q), q) == p
    ensures Add(Sub(p, q), q) == p
  {
  }

  /** Scaling distributes over addition, which the animator relies on. */
  lemma ScaleDistributes(p: Point, q: Point, k: int)
    ensures Scale(Add(p, q), k) == Add(Scale(p, k), Scale(q, k))
  {
  }

  /** `operator==` as written, coordinate by coordinate. */
  predicate Equal(p: Point, q: Point) {
    p.x == q.x && p.y == q.y
  }

  /** `operator!=` */
  predicate NotEqual(p: Point, q: Point) {
    !Equal(p, q)
  }

  /** The hand-written equality is exactly value equality, and `!=` its negation. */
  lemma EqualIsIdentity(p: Point, q: Point)
    ensures Equal(p, q) <==> p == q
    ensures NotEqual(p, q) <==> p != q
  {
  }

  /** `operator<`: rows first, then columns (row-major). */
  predicate Less(p: Point, q: Point) {
    if p.y < q.y then true
    else if p.y > q.y then false
    else p.x < q.x
  }

  /** `Less` is a strict total order: irreflexive, transitive and total on
      distinct points, and it agrees with comparing `y * width + x` inside a grid. */
  lemma LessIsStrictTotalOrder(p: Point, q: Point, s: Point)
    ensures !Less(p, p)
    ensures Less(p, q) && Less(q, s) ==> Less(p, s)
    ensures p != q ==> (Less(p, q) <==> !Less(q, p))
    ensures Less(p, q) <==> (p.y < q.y || (p.y == q.y && p.x < q.x))
  {
  }

  /** Within a grid of width `w`, row-major order is the order of the cell index. */
  lemma LessIsIndexOrder(p: Point, q: Point, w: nat)
    requires 0 <= p.x < w && 0 <= q.x < w
    ensures Less(p, q) <==> p.y * w + p.x < q.y * w + q.x
  {
    if p.y < q.y {
      RowsApart(p.y, q.y, w);
    } else if p.y > q.y {
      RowsApart(q.y, p.y, w);
    }
  }

  lemma RowsApart(a: int, b: int, w: nat)
    requires a < b
    ensures a * w + w <= b * w
  {
    var k := b - a;
    assert b * w == a * w + k * w;
    assert k * w >= w by {
      assert k * w == (k - 1) * w + w;
    }
  }

  /** `extents::operator==` */
  predicate ExtentsEqual(a: Extents, b: Extents) {
    a.width == b.width && a.height == b.height
  }

  lemma ExtentsEqualIsIdentity(a: Extents, b: Extents)
    ensures ExtentsEqual(a, b) <==> a == b
    ensures !ExtentsEqual(a, b) <==> a != b
  {
  }
}

=== FILE: ghost.dfy ===
/** `GhostWalkingTrait` (`src/traits/ghost-exploring.cc`): a ghost wanders
    towards cells it has not seen, remembering a bounded list of visits. */
module GhostWalking {
  import opened Wrappers
  import opened Geometry
  import opened Tiles
  import opened Entities
  import opened Worlds

  /** `m_visitLimit` */
  const VISIT_LIMIT: nat := 20

  /** An entry of `m_visitedPositions`. */
  datatype Visit = Visit(where: Point, count: nat)

  /** What scanning the neighbours leaves: the world (an explosion may have
      happened) and the walkable cells found, in scan order. */
  datatype Scan = Scan(world: World, candidates: seq<Point>)

  datatype GhostResult = GhostResult(visited: seq<Visit>, world: World, result: bool)

  /** The cells examined, in the fixed order UP, DOWN, LEFT, RIGHT. */
  function Neighbours(pos: Point): seq<Point> {
    [Step(pos, UP), Step(pos, DOWN), Step(pos, LEFT), Step(pos, RIGHT)]
  }

  predicate GhostTile(t: Option<TileType>) {
    t == Some(EMPTY) || t == Some(TELEPORTER)
  }

  /** The `walkable` lambda for one cell: an occupied cell is never a
      candidate, and a player on it makes the level explode there; a free
      cell is a candidate when its tile is EMPTY or TELEPORTER. */
  function Walkable(s: Scan, where: Point, explode: Blast): (r: Scan)
    ensures r.candidates == s.candidates || r.candidates == s.candidates + [where]
    ensures r.candidates == s.candidates + [where] <==>
              EntityAt(s.world, where).None? && GhostTile(Tile(s.world, where))
    ensures var e := EntityAt(s.world, where);
            r.world == if e.Some? && e.value.entity.kind == PLAYER then explode(s.world, where) else s.world
  {
    match EntityAt(s.world, where)
    case Some(ent) =>
      if ent.entity.kind == PLAYER then Scan(explode(s.world, where), s.candidates) else s
    case None =>
      if GhostTile(Tile(s.world, where)) then Scan(s.world, s.candidates + [where]) else s
  }

  /** `walkable` applied to each cell of `cells` in turn. */
  function ScanCells(s: Scan, cells: seq<Point>, explode: Blast): (r: Scan)
    ensures s.candidates <= r.candidates
    ensures forall c :: c in r.candidates[|s.candidates|..] ==> c in cells
    decreases |cells|
  {
    if |cells| == 0 then s else ScanCells(Walkable(s, cells[0], explode), cells[1..], explode)
  }

  /** Scanning keeps every entity object when explosions do. */
  lemma {:induction false} ScanKeepsEntities(s: Scan, cells: seq<Point>, explode: Blast, q: Id)
    requires KeepsEntities(explode) && Has(s.world, q)
    ensures Has(ScanCells(s, cells, explode).world, q)
    decreases |cells|
  {
    if |cells| > 0 {
      ScanKeepsEntities(Walkable(s, cells[0], explode), cells[1..], explode, q);
    }
  }

  /** A cell the ghost may enter: free, with an EMPTY or TELEPORTER tile. */
  predicate Free(w: World, c: Point) {
    EntityAt(w, c).None? && GhostTile(Tile(w, c))
  }

  /** The free cells among `cells`, in order. */
  function FreeCells(w: World, cells: seq<Point>): (r: seq<Point>)
    ensures forall c :: c in r <==> c in cells && Free(w, c)
  {
    if |cells| == 0 then []
    else (if Free(w, cells[0]) then [cells[0]] else []) + FreeCells(w, cells[1..])
  }

  /** With no player next to the ghost nothing explodes, and the candidates
      are exactly the free cells, in scan order. */
  lemma {:induction false} ScanWithoutPlayer(s: Scan, cells: seq<Point>, explode: Blast)
    requires forall c :: c in cells ==> EntityAt(s.world, c).None? || EntityAt(s.world, c).value.entity.kind != PLAYER
    ensures ScanCells(s, cells, explode).world == s.world
    ensures ScanCells(s, cells, explode).candidates == s.candidates + FreeCells(s.world, cells)
    decreases |cells|
  {
    if |cells| > 0 {
      var s' := Walkable(s, cells[0], explode);
      WalkableWithoutPlayer(s, cells[0], explode);
      assert forall c :: c in cells[1..] ==> c in cells;
      ScanWithoutPlayer(s', cells[1..], explode);
      FreeCellsCons(s.world, cells);
      ConcatAssoc(s.candidates, if Free(s.world, cells[0]) then [cells[0]] else [], FreeCells(s.world, cells[1..]));
    }
  }

  lemma WalkableWithoutPlayer(s: Scan, c: Point, explode: Blast)
    requires EntityAt(s.world, c).None? || EntityAt(s.world, c).value.entity.kind != PLAYER
    ensures Walkable(s, c, explode) == Scan(s.world, s.candidates + if Free(s.world, c) then [c] else [])
  {
  }

  lemma FreeCellsCons(w: World, cells: seq<Point>)
    requires |cells| > 0
    ensures FreeCells(w, cells) == (if Free(w, cells[0]) then [cells[0]] else []) + FreeCells(w, cells[1..])
  {
  }

  lemma ConcatAssoc<T>(a: seq<T>, b: seq<T>, c: seq<T>)
    ensures a + b + c == a + (b + c)
  {
  }

  /** The `lookup` lambda: index of the entry for `where`. */
  function IndexOf(visited: seq<Visit>, where: Point): (r: Option<nat>)
    ensures r.Some? ==> r.value < |visited| && visited[r.value].where == where
    ensures r.Some? ==> forall j :: 0 <= j < r.value ==> visited[j].where != where
    ensures r.None? <==> forall j :: 0 <= j < |visited| ==> visited[j].where != where
  {
    if |visited| == 0 then None
    else if visited[0].where == where then Some(0)
    else match IndexOf(visited[1..], where)
      case None => None
      case Some(k) => Some(k + 1)
  }

  predicate Known(visited: seq<Visit>, where: Point) {
    IndexOf(visited, where).Some?
  }

  /** The `intersection` lambda: the positions not in the visited list, in
      their original order. */
  function Unvisited(visited: seq<Visit>, positions: seq<Point>): (r: seq<Point>)
    ensures forall c :: c in r <==> c in positions && !Known(visited, c)
  {
    if |positions| == 0 then []
    else (if Known(visited, positions[0]) then [] else [positions[0]]) + Unvisited(visited, positions[1..])
  }

  /** The count recorded for a known cell. */
  function CountOf(visited: seq<Visit>, where: Point): nat
    requires Known(visited, where)
  {
    visited[IndexOf(visited, where).value].count
  }

  /** The loop over `positions` in `select`: the index (into `positions`) of
      the first position with the strictly smallest count. */
  function Least(visited: seq<Visit>, positions: seq<Point>): (k: nat)
    requires |positions| > 0
    requires forall c :: c in positions ==> Known(visited, c)
    ensures k < |positions|
    ensures forall j :: 0 <= j < k ==> CountOf(visited, positions[j]) > CountOf(visited, positions[k])
    ensures forall j :: k < j < |positions| ==> CountOf(visited, positions[j]) >= CountOf(visited, positions[k])
  {
    if |positions| == 1 then 0
    else
      var rest := Least(visited, positions[1..]);
      if CountOf(visited, positions[1 + rest]) < CountOf(visited, positions[0]) then 1 + rest else 0
  }

  predicate SortedByCount(visited: seq<Visit>) {
    forall i, j :: 0 <= i < j < |visited| ==> visited[i].count >= visited[j].count
  }

  /** Insert one entry into a list ordered by non-increasing count. */
  function Insert(v: Visit, sorted: seq<Visit>): (r: seq<Visit>)
    ensures multiset(r) == multiset(sorted) + multiset{v}
  {
    if |sorted| == 0 then [v]
    else if sorted[0].count <= v.count then [v] + sorted
    else
      assert sorted == [sorted[0]] + sorted[1..];
      [sorted[0]] + Insert(v, sorted[1..])
  }

  lemma {:induction false} InsertSorted(v: Visit, sorted: seq<Visit>)
    requires SortedByCount(sorted)
    ensures SortedByCount(Insert(v, sorted))
  {
    if |sorted| > 0 && sorted[0].count > v.count {
      InsertSorted(v, sorted[1..]);
      var tail := Insert(v, sorted[1..]);
      forall x | x in tail ensures sorted[0].count >= x.count {
        assert x in multiset(tail);
      }
    }
  }

  /** The `std::sort` by count, highest first. The source's comparator (`>=`)
      fixes no order among equal counts; this is one admissible order. */
  function SortByCount(visited: seq<Visit>): (r: seq<Visit>)
    ensures multiset(r) == multiset(visited)
  {
    if |visited| == 0 then []
    else
      assert visited == [visited[0]] + visited[1..];
      Insert(visited[0], SortByCount(visited[1..]))
  }

  lemma {:induction false} SortByCountSorts(visited: seq<Visit>)
    ensures SortedByCount(SortByCount(visited))
  {
    if |visited| > 0 {
      SortByCountSorts(visited[1..]);
      InsertSorted(visited[0], SortByCount(visited[1..]));
    }
  }

  lemma {:induction false} InsertKeepsPointsDistinct(v: Visit, sorted: seq<Visit>)
    requires ValidPoints(sorted)
    requires forall x :: x in sorted ==> x.where != v.where
    ensures ValidPoints(Insert(v, sorted))
  {
    if |sorted| > 0 && sorted[0].count > v.count {
      InsertKeepsPointsDistinct(v, sorted[1..]);
      var tail := Insert(v, sorted[1..]);
      forall x | x in tail ensures x.where != sorted[0].where {
        assert x in multiset(tail);
      }
    }
  }

  lemma {:induction false} SortKeepsPointsDistinct(visited: seq<Visit>)
    requires ValidPoints(visited)
    ensures ValidPoints(SortByCount(visited))
  {
    if |visited| > 0 {
      var rest := SortByCount(visited[1..]);
      SortKeepsPointsDistinct(visited[1..]);
      forall x | x in rest ensures x.where != visited[0].where {
        assert x in multiset(visited[1..]);
      }
      InsertKeepsPointsDistinct(visited[0], rest);
    }
  }

  predicate ValidPoints(visited: seq<Visit>) {
    forall i, j :: 0 <= i < j < |visited| ==> visited[i].where != visited[j].where
  }

  /** The visited list's invariant: bounded and free of duplicate cells. */
  predicate ValidVisits(visited: seq<Visit>) {
    |visited| <= VISIT_LIMIT && ValidPoints(visited)
  }

  datatype Choice = Choice(which: Point, visited: seq<Visit>)

  /** `after` holds the entries of `visited`, with the count of `which`
      raised by one. */
  predicate Bumped(visited: seq<Visit>, after: seq<Visit>, which: Point)
    requires Known(visited, which)
  {
    multiset(after) == multiset(visited) - multiset{Visit(which, CountOf(visited, which))}
                                         + multiset{Visit(which, CountOf(visited, which) + 1)}
  }

  /** `select`: prefer a cell not in the list (chosen by `rnd`), evicting the
      last entry of a full list; otherwise take the first cell with the
      smallest count, bump it and re-sort the list. */
  function Select(visited: seq<Visit>, positions: seq<Point>, rnd: nat): (r: Choice)
    requires |positions| > 0
    ensures r.which in positions
    ensures |Unvisited(visited, positions)| > 0 ==>
              !Known(visited, r.which) &&
              r.visited == (if |visited| >= VISIT_LIMIT then visited[..|visited| - 1] else visited) + [Visit(r.which, 1)]
    ensures |Unvisited(visited, positions)| == 0 ==>
              Known(visited, r.which) &&
              (forall c :: c in positions ==> CountOf(visited, c) >= CountOf(visited, r.which)) &&
              SortedByCount(r.visited) &&
              Bumped(visited, r.visited, r.which)
  {
    var unique := Unvisited(visited, positions);
    if |unique| > 0 then
      SelectNew(visited, unique, rnd)
    else
      assert forall c :: c in positions ==> Known(visited, c);
      SelectLeast(visited, positions)
  }

  /** The branch of `select` with unvisited candidates. */
  function SelectNew(visited: seq<Visit>, unique: seq<Point>, rnd: nat): (r: Choice)
    requires |unique| > 0
    ensures r.which in unique
    ensures r.visited == (if |visited| >= VISIT_LIMIT then visited[..|visited| - 1] else visited) + [Visit(r.which, 1)]
  {
    var which := unique[rnd % |unique|];
    var kept := if |visited| >= VISIT_LIMIT then visited[..|visited| - 1] else visited;
    Choice(which, kept + [Visit(which, 1)])
  }

  /** The branch of `select` where every candidate was visited before. */
  function SelectLeast(visited: seq<Visit>, positions: seq<Point>): (r: Choice)
    requires |positions| > 0
    requires forall c :: c in positions ==> Known(visited, c)
    ensures r.which in positions && Known(visited, r.which)
    ensures forall c :: c in positions ==> CountOf(visited, c) >= CountOf(visited, r.which)
    ensures SortedByCount(r.visited)
    ensures Bumped(visited, r.visited, r.which)
  {
    var k := Least(visited, positions);
    var which := positions[k];
    assert forall c :: c in positions ==> CountOf(visited, c) >= CountOf(visited, which) by {
      forall c | c in positions ensures CountOf(visited, c) >= CountOf(visited, which) {
        var j :| 0 <= j < |positions| && positions[j] == c;
      }
    }
    var bumped := Bump(visited, which);
    SortByCountSorts(bumped);
    Choice(which, SortByCount(bumped))
  }

  /** The visited list with the count of `which` raised by one. */
  function Bump(visited: seq<Visit>, which: Point): (r: seq<Visit>)
    requires Known(visited, which)
    ensures Bumped(visited, r, which)
    ensures |r| == |visited| && forall j :: 0 <= j < |r| ==> r[j].where == visited[j].where
  {
    var idx := IndexOf(visited, which).value;
    visited[idx := visited[idx].(count := visited[idx].count + 1)]
  }

  /** Whatever `select` chooses, the list stays bounded and duplicate-free. */
  lemma SelectKeepsVisitsValid(visited: seq<Visit>, positions: seq<Point>, rnd: nat)
    requires |positions| > 0
    requires ValidVisits(visited)
    ensures ValidVisits(Select(visited, positions, rnd).visited)
  {
    var unique := Unvisited(visited, positions);
    if |unique| > 0 {
      SelectNewKeepsVisitsValid(visited, unique, rnd);
    } else {
      assert forall c :: c in positions ==> Known(visited, c);
      SelectLeastKeepsVisitsValid(visited, positions);
    }
  }

  lemma SelectNewKeepsVisitsValid(visited: seq<Visit>, unique: seq<Point>, rnd: nat)
    requires |unique| > 0 && ValidVisits(visited)
    requires forall c :: c in unique ==> !Known(visited, c)
    ensures ValidVisits(SelectNew(visited, unique, rnd).visited)
  {
  }

  lemma SelectLeastKeepsVisitsValid(visited: seq<Visit>, positions: seq<Point>)
    requires |positions| > 0 && ValidVisits(visited)
    requires forall c :: c in positions ==> Known(visited, c)
    ensures ValidVisits(SelectLeast(visited, positions).visited)
  {
    var which := SelectLeast(visited, positions).which;
    var bumped := Bump(visited, which);
    assert SelectLeast(visited, positions).visited == SortByCount(bumped);
    assert ValidPoints(bumped);
    SortKeepsPointsDistinct(bumped);
    assert |SortByCount(bumped)| == |bumped| by {
      assert |multiset(SortByCount(bumped))| == |multiset(bumped)|;
    }
  }

  /** `GhostWalkingTrait::run`: scan the four neighbours, move to the chosen
      cell if there is any; never asks to be run again. Whatever the scan's
      explosions did, the ghost either stays put with its list unchanged, or
      steps onto a neighbour the scan found walkable, which the list then
      remembers; a valid list stays valid. */
  function Run(visited: seq<Visit>, w: World, self: Id, explode: Blast, rnd: nat): (r: GhostResult)
    requires Has(w, self)
    ensures !r.result
    ensures var scan := ScanCells(Scan(w, []), Neighbours(PositionOf(w, self)), explode);
            |scan.candidates| == 0 ==> r.world == scan.world && r.visited == visited
    ensures var scan := ScanCells(Scan(w, []), Neighbours(PositionOf(w, self)), explode);
            |scan.candidates| > 0 ==>
              exists c :: c in scan.candidates && c in Neighbours(PositionOf(w, self)) &&
                r.world == Move(scan.world, self, c) && Known(r.visited, c)
    ensures var scan := ScanCells(Scan(w, []), Neighbours(PositionOf(w, self)), explode);
            |scan.candidates| > 0 ==>
              var ch := Select(visited, scan.candidates, rnd);
              r.world == Move(scan.world, self, ch.which) && r.visited == ch.visited
    ensures ValidVisits(visited) ==> ValidVisits(r.visited)
  {
    var scan := ScanCells(Scan(w, []), Neighbours(PositionOf(w, self)), explode);
    if |scan.candidates| == 0 then GhostResult(visited, scan.world, false)
    else
      var choice := Select(visited, scan.candidates, rnd);
      SelectRemembers(visited, scan.candidates, rnd);
      assert ValidVisits(visited) ==> ValidVisits(choice.visited) by {
        if ValidVisits(visited) { SelectKeepsVisitsValid(visited, scan.candidates, rnd); }
      }
      assert choice.which in scan.candidates[0..];
      GhostResult(choice.visited, Move(scan.world, self, choice.which), false)
  }

  /** With no player next to it, a ghost either stays put (and forgets
      nothing) when no neighbour is free, or moves one step onto a free
      neighbour, which the visited list then remembers. */
  lemma RunWithoutPlayer(visited: seq<Visit>, w: World, self: Id, explode: Blast, rnd: nat)
    requires Has(w, self)
    requires forall c :: c in Neighbours(PositionOf(w, self)) ==> EntityAt(w, c).None? || EntityAt(w, c).value.entity.kind != PLAYER
    ensures var r := Run(visited, w, self, explode, rnd);
            var pos := PositionOf(w, self);
            ((forall c :: c in Neighbours(pos) ==> !Free(w, c)) && r.world == w && r.visited == visited) ||
            (exists d :: d != NONE && Free(w, Step(pos, d)) && r.world == Move(w, self, Step(pos, d)) && Known(r.visited, Step(pos, d)))
    ensures var r := Run(visited, w, self, explode, rnd);
            var free := FreeCells(w, Neighbours(PositionOf(w, self)));
            |free| > 0 ==>
              var ch := Select(visited, free, rnd);
              r.world == Move(w, self, ch.which) && r.visited == ch.visited
  {
    var pos := PositionOf(w, self);
    var cells := Neighbours(pos);
    ScanWithoutPlayer(Scan(w, []), cells, explode);
    var scan := ScanCells(Scan(w, []), cells, explode);
    assert scan.candidates == FreeCells(w, cells);
    var r := Run(visited, w, self, explode, rnd);
    if |scan.candidates| == 0 {
      assert r.world == w && r.visited == visited;
    } else {
      var choice := Select(visited, scan.candidates, rnd);
      assert r.world == Move(w, self, choice.which) && r.visited == choice.visited;
      SelectRemembers(visited, scan.candidates, rnd);
      assert choice.which in cells && Free(w, choice.which);
      var d := DirectionTo(pos, choice.which);
      assert Free(w, Step(pos, d)) && r.world == Move(w, self, Step(pos, d)) && Known(r.visited, Step(pos, d));
    }
  }

  /** With no player next to it and some free neighbour it has not visited,
      a ghost steps onto one such neighbour and appends it to its list with
      count 1 (dropping the oldest entry of a full list). */
  lemma RunExploresUnvisited(visited: seq<Visit>, w: World, self: Id, explode: Blast, rnd: nat)
    requires Has(w, self)
    requires forall c :: c in Neighbours(PositionOf(w, self)) ==> EntityAt(w, c).None? || EntityAt(w, c).value.entity.kind != PLAYER
    requires exists c :: c in Neighbours(PositionOf(w, self)) && Free(w, c) && !Known(visited, c)
    ensures var r := Run(visited, w, self, explode, rnd);
            exists c :: c in Neighbours(PositionOf(w, self)) && Free(w, c) && !Known(visited, c) &&
              r.world == Move(w, self, c) &&
              r.visited == (if |visited| >= VISIT_LIMIT then visited[..|visited| - 1] else visited) + [Visit(c, 1)]
  {
    var free := FreeCells(w, Neighbours(PositionOf(w, self)));
    var c0 :| c0 in Neighbours(PositionOf(w, self)) && Free(w, c0) && !Known(visited, c0);
    assert c0 in Unvisited(visited, free);
    RunWithoutPlayer(visited, w, self, explode, rnd);
    var ch := Select(visited, free, rnd);
    assert ch.which in free;
  }

  /** In a corridor, where exactly one free neighbour is new to the ghost,
      that is where it goes, whatever `rnd` is. */
  lemma RunFollowsCorridor(visited: seq<Visit>, w: World, self: Id, explode: Blast, rnd: nat, next: Point)
    requires Has(w, self)
    requires forall c :: c in Neighbours(PositionOf(w, self)) ==> EntityAt(w, c).None? || EntityAt(w, c).value.entity.kind != PLAYER
    requires next in Neighbours(PositionOf(w, self)) && Free(w, next) && !Known(visited, next)
    requires forall c :: c in Neighbours(PositionOf(w, self)) && Free(w, c) && c != next ==> Known(visited, c)
    ensures Run(visited, w, self, explode, rnd).world == Move(w, self, next)
  {
    RunExploresUnvisited(visited, w, self, explode, rnd);
  }

  /** The direction of a neighbour. */
  function DirectionTo(pos: Point, c: Point): (d: Direction)
    requires c in Neighbours(pos)
    ensures d != NONE && Step(pos, d) == c
  {
    if c == Step(pos, UP) then UP
    else if c == Step(pos, DOWN) then DOWN
    else if c == Step(pos, LEFT) then LEFT
    else RIGHT
  }

  /** The chosen cell is in the list `select` leaves behind. */
  lemma SelectRemembers(visited: seq<Visit>, positions: seq<Point>, rnd: nat)
    requires |positions| > 0
    ensures Known(Select(visited, positions, rnd).visited, Select(visited, positions, rnd).which)
  {
    var r := Select(visited, positions, rnd);
    if |Unvisited(visited, positions)| > 0 {
      AppendedIsKnown(if |visited| >= VISIT_LIMIT then visited[..|visited| - 1] else visited, r.which);
    } else {
      BumpedIsKnown(visited, r.visited, r.which);
    }
  }

  lemma AppendedIsKnown(kept: seq<Visit>, which: Point)
    ensures Known(kept + [Visit(which, 1)], which)
  {
    ListedIsKnown(kept + [Visit(which, 1)], |kept|);
  }

  lemma BumpedIsKnown(visited: seq<Visit>, after: seq<Visit>, which: Point)
    requires Known(visited, which) && Bumped(visited, after, which)
    ensures Known(after, which)
  {
    var v := Visit(which, CountOf(visited, which) + 1);
    assert v in multiset(after);
    var i :| 0 <= i < |after| && after[i] == v;
    ListedIsKnown(after, i);
  }

  lemma ListedIsKnown(visited: seq<Visit>, i: nat)
    requires i < |visited|
    ensures Known(visited, visited[i].where)
  {
  }
}

=== FILE: images.dfy ===
/** Image identifiers and the frame entries the display draws
    (`include/image.hh`). The tile sheet `TILES` that the level animator
    draws from is not listed in that header; it is added here without a
    number. */
module Images {
  import opened CInt

  datatype Image =
    | PLAYER | BOULDER | GEM | BOMB | GHOST | FIREBALL | KEY | BLOCK | LEVER
    | GRAY | BLACK | DIRT | BOMB_CRATE | MAGIC_WALL | LEFT_TRANSPORT | RIGHT_TRANSPORT
    | DOOR | WALL | TELEPORTER | EXIT | TRANSPORTER
    | TILES

  /** `ImageEntry`: an image and a frame within it. Its `operator==` compares
      both fields, which is datatype equality here. */
  datatype ImageEntry = ImageEntry(image: Image, frame: UInt32)
}

=== FILE: level-animator.dfy ===
/** The level's tile sprites (`src/level-animator.cc`): which frame of the
    tile sheet to draw at a point, as fog of war shows it. */
module LevelAnimation {
  import opened Wrappers
  import opened Geometry
  import opened Tiles
  import Worlds
  import Lighting
  import Images

  /** `tileToFrame`. The C++ lookup table has an entry for every tile type
      this model defines, so the unchecked `find` always hits. */
  function TileToFrame(t: TileType): (frame: nat)
    ensures frame == 0 <==> t == UNKNOWN
    ensures t == EMPTY ==> frame == 1
    ensures t == DIRT ==> frame == 2
    ensures t == STONE_WALL ==> frame == 13
    ensures frame <= 21
  {
    match t
    case UNKNOWN => 0
    case EMPTY => 1
    case DIRT => 2
    case MAGIC_WALL => 4
    case LEFT_TRANSPORT => 5
    case RIGHT_TRANSPORT => 6
    case STONE_WALL => 13
    case WEAK_STONE_WALL => 14
    case TELEPORTER => 15
    case CONVEYOR => 21
    case EXIT => 15
  }

  /** Two different tiles share a frame only when they are the teleporter and
      the exit: the table is not injective. */
  lemma OnlyTeleporterAndExitShareAFrame(a: TileType, b: TileType)
    ensures a != b && TileToFrame(a) == TileToFrame(b) <==> {a, b} == {TELEPORTER, EXIT}
  {
    if {a, b} == {TELEPORTER, EXIT} {
      assert a in {TELEPORTER, EXIT} && b in {TELEPORTER, EXIT};
    }
  }

  /** `getImageEntryAt`: the tile sheet, at the frame of the tile fog of war
      shows there, or of UNKNOWN where there is none. */
  function GetImageEntryAt(l: Lighting.Light, w: Worlds.World, p: Point): (r: Images.ImageEntry)
    requires Size(l.overlay) == Size(w.grid)
    ensures r.image == Images.TILES
    ensures !InBounds(w.grid, p) ==> r.frame == 0
    ensures InBounds(w.grid, p) ==> r.frame == TileToFrame(Lighting.ShownTile(l, w, p).value)
  {
    Images.ImageEntry(Images.TILES, TileToFrame(Lighting.ShownTile(l, w, p).GetOr(UNKNOWN)))
  }

  /** Before any lighting update, every cell is drawn as unknown. */
  lemma FreshLevelIsDrawnUnknown(w: Worlds.World, p: Point)
    ensures GetImageEntryAt(Lighting.New(Size(w.grid)), w, p) == Images.ImageEntry(Images.TILES, 0)
  {
    Lighting.FreshOverlayIsUnknown(w, p);
  }
}

=== FILE: lightning.dfy ===
/** Fog of war (`src/lightning.cc`): an overlay of the tiles the player has
    seen, the entities currently in sight and the remembered positions of
    entities that went out of sight. */
module Lighting {
  import opened Wrappers
  import opened Geometry
  import opened Tiles
  import opened Entities
  import opened Worlds

  /** `ILightning::ShadowEntity` */
  datatype ShadowEntity = ShadowEntity(pt: Point, kind: EntityType)

  /** The state of a `Lightning`. `lighted` is the last `std::set<point>`
      passed in, listed in its iteration order (row-major, see `PointSet`). */
  datatype Light = Light(overlay: Grid, visible: seq<Id>, shadow: map<Point, EntityType>, lighted: seq<Point>, hiding: bool)

  /** A `std::set<point>` listed in order: strictly increasing row-major. */
  predicate PointSet(s: seq<Point>) {
    forall i, j :: 0 <= i < j < |s| ==> Less(s[i], s[j])
  }

  function Points(s: seq<Point>): set<Point> {
    set p | p in s
  }

  /** The constructor: everything unknown, nothing in sight, hiding on. */
  function New(size: Extents): (r: Light)
    ensures Size(r.overlay) == size
    ensures forall p :: InBounds(r.overlay, p) ==> TileAt(r.overlay, p) == Some(UNKNOWN)
    ensures r.visible == [] && r.shadow == map[] && r.lighted == [] && r.hiding
  {
    Light(Filled(size, UNKNOWN), [], map[], [], true)
  }

  /** `Lightning::tileAt`: nothing outside the level; the remembered tile
      when hiding, the live tile otherwise. */
  function ShownTile(l: Light, w: World, p: Point): (r: Option<TileType>)
    requires Size(l.overlay) == Size(w.grid)
    ensures r.None? <==> Tile(w, p).None?
    ensures !l.hiding ==> r == Tile(w, p)
    ensures l.hiding ==> r == TileAt(l.overlay, p)
  {
    if Tile(w, p).None? then None
    else if l.hiding then TileAt(l.overlay, p)
    else Tile(w, p)
  }

  /** Before the first update every cell of the level shows as UNKNOWN. */
  lemma FreshOverlayIsUnknown(w: World, p: Point)
    ensures ShownTile(New(Size(w.grid)), w, p) == if InBounds(w.grid, p) then Some(UNKNOWN) else None
  {
  }

  /** The overlay with the live tile copied in at every lit in-bounds point. */
  function Paint(overlay: Grid, g: Grid, pts: seq<Point>): (r: Grid)
    requires Size(overlay) == Size(g)
    ensures Size(r) == Size(g)
    ensures forall p :: TileAt(r, p) == if p in pts && InBounds(g, p) then TileAt(g, p) else TileAt(overlay, p)
    decreases |pts|
  {
    if |pts| == 0 then overlay
    else
      var next := match TileAt(g, pts[0]) case Some(t) => SetTile(overlay, pts[0], t) case None => overlay;
      Paint(next, g, pts[1..])
  }

  /** The live records standing on the given points, one per occupied point,
      in the order of the points (`getEntityByPoint` for each). */
  function Occupants(w: World, pts: seq<Point>): (r: seq<Record>)
    ensures |r| <= |pts|
    ensures forall rec :: rec in r <==> exists p :: p in pts && EntityAt(w, p) == Some(rec)
    decreases |pts|
  {
    if |pts| == 0 then []
    else
      var rest := Occupants(w, pts[1..]);
      match EntityAt(w, pts[0])
      case Some(rec) => [rec] + rest
      case None => rest
  }

  function Ids(rs: seq<Record>): (r: seq<Id>)
    ensures |r| == |rs| && forall i :: 0 <= i < |rs| ==> r[i] == rs[i].id
  {
    seq(|rs|, i requires 0 <= i < |rs| => rs[i].id)
  }

  /** Lit points in row-major order give the entities on them in row-major
      order of their positions. */
  lemma {:induction false} OccupantsInRowMajorOrder(w: World, pts: seq<Point>)
    requires PointSet(pts)
    ensures forall i, j :: 0 <= i < j < |Occupants(w, pts)| ==> Less(Occupants(w, pts)[i].entity.pos, Occupants(w, pts)[j].entity.pos)
    decreases |pts|
  {
    if |pts| > 0 {
      OccupantsInRowMajorOrder(w, pts[1..]);
      var rest := Occupants(w, pts[1..]);
      OccupantsAfterFirst(w, pts);
      match EntityAt(w, pts[0])
      case None =>
        assert Occupants(w, pts) == rest;
      case Some(rec) =>
        assert Occupants(w, pts) == [rec] + rest;
        ConsInRowMajorOrder(rec, rest);
    }
  }

  /** The entities on the later points of a row-major point set stand after
      the first point. */
  lemma OccupantsAfterFirst(w: World, pts: seq<Point>)
    requires PointSet(pts) && |pts| > 0
    ensures forall rec :: rec in Occupants(w, pts[1..]) ==> Less(pts[0], rec.entity.pos)
  {
    forall rec | rec in Occupants(w, pts[1..]) ensures Less(pts[0], rec.entity.pos) {
      var p :| p in pts[1..] && EntityAt(w, p) == Some(rec);
      var m :| 0 <= m < |pts[1..]| && pts[1..][m] == p;
      assert pts[m + 1] == p;
    }
  }

  lemma ConsInRowMajorOrder(rec: Record, rest: seq<Record>)
    requires forall i, j :: 0 <= i < j < |rest| ==> Less(rest[i].entity.pos, rest[j].entity.pos)
    requires forall x :: x in rest ==> Less(rec.entity.pos, x.entity.pos)
    ensures var r := [rec] + rest;
            forall i, j :: 0 <= i < j < |r| ==> Less(r[i].entity.pos, r[j].entity.pos)
  {
    var r := [rec] + rest;
    forall i, j | 0 <= i < j < |r| ensures Less(r[i].entity.pos, r[j].entity.pos) {
      assert r[j] == rest[j - 1];
      if i > 0 {
        assert r[i] == rest[i - 1];
      } else {
        assert rest[j - 1] in rest;
      }
    }
  }

  lemma IdsConcat(a: seq<Record>, b: seq<Record>)
    ensures Ids(a + b) == Ids(a) + Ids(b)
  {
  }

  /** Entity `id` is still in the store and now stands on an unlit point `p`. */
  predicate Darkened(w: World, id: Id, lighted: seq<Point>, p: Point) {
    EntityById(w, id).Some? && EntityById(w, id).value.entity.pos == p && p !in lighted
  }

  predicate DarkenedAny(w: World, ids: seq<Id>, lighted: seq<Point>, p: Point) {
    exists id :: id in ids && Darkened(w, id, lighted, p)
  }

  lemma DarkenedAnySplit(w: World, ids: seq<Id>, lighted: seq<Point>, p: Point)
    requires |ids| > 0
    ensures DarkenedAny(w, ids, lighted, p) <==> Darkened(w, ids[0], lighted, p) || DarkenedAny(w, ids[1..], lighted, p)
  {
    assert forall id :: id in ids <==> id == ids[0] || id in ids[1..];
  }

  /** The first loop of `updateLightningHideUnknown`: each entity that was in
      sight and now stands in the dark leaves a shadow where it stands; a
      later one on the same point overwrites an earlier one. */
  function Shade(shadow: map<Point, EntityType>, w: World, ids: seq<Id>, lighted: seq<Point>): (r: map<Point, EntityType>)
    ensures forall p :: p in r <==> p in shadow || DarkenedAny(w, ids, lighted, p)
    ensures forall p :: p in shadow && !DarkenedAny(w, ids, lighted, p) ==> r[p] == shadow[p]
    decreases |ids|
  {
    if |ids| == 0 then shadow
    else
      var next := ShadeOne(shadow, w, ids[0], lighted);
      var r := Shade(next, w, ids[1..], lighted);
      forall p ensures DarkenedAny(w, ids, lighted, p) <==> Darkened(w, ids[0], lighted, p) || DarkenedAny(w, ids[1..], lighted, p) {
        DarkenedAnySplit(w, ids, lighted, p);
      }
      r
  }

  /** One step of the first loop of `updateLightningHideUnknown`. */
  function ShadeOne(shadow: map<Point, EntityType>, w: World, id: Id, lighted: seq<Point>): (r: map<Point, EntityType>)
    ensures forall p :: p in r <==> p in shadow || Darkened(w, id, lighted, p)
    ensures forall p :: Darkened(w, id, lighted, p) ==> r[p] == EntityById(w, id).value.entity.kind
    ensures forall p :: p in shadow && !Darkened(w, id, lighted, p) ==> r[p] == shadow[p]
  {
    match EntityById(w, id)
    case Some(rec) => if rec.entity.pos !in lighted then shadow[rec.entity.pos := rec.entity.kind] else shadow
    case None => shadow
  }

  /** A darkened point's shadow names the type of one of the entities that
      went dark there (the last one in the list). */
  lemma {:induction false} ShadeRecordsType(shadow: map<Point, EntityType>, w: World, ids: seq<Id>, lighted: seq<Point>, p: Point)
    requires DarkenedAny(w, ids, lighted, p)
    ensures exists id :: id in ids && Darkened(w, id, lighted, p) && Shade(shadow, w, ids, lighted)[p] == EntityById(w, id).value.entity.kind
    decreases |ids|
  {
    DarkenedAnySplit(w, ids, lighted, p);
    var next := ShadeOne(shadow, w, ids[0], lighted);
    if DarkenedAny(w, ids[1..], lighted, p) {
      ShadeRecordsType(next, w, ids[1..], lighted, p);
      var id :| id in ids[1..] && Darkened(w, id, lighted, p) && Shade(next, w, ids[1..], lighted)[p] == EntityById(w, id).value.entity.kind;
      assert id in ids;
    } else {
      assert ids[0] in ids;
    }
  }

  /** What the second loop of the hide-mode update accumulates. */
  datatype Pass = Pass(overlay: Grid, visible: seq<Id>, shadow: map<Point, EntityType>)

  /** The second loop of `updateLightningHideUnknown`, point by point: forget
      the shadow there, copy the live tile, and record the entity there as
      in sight. */
  function LightPoints(s: Pass, w: World, pts: seq<Point>): (r: Pass)
    requires Size(s.overlay) == Size(w.grid)
    ensures Size(r.overlay) == Size(w.grid)
    decreases |pts|
  {
    if |pts| == 0 then s
    else LightPoints(LightOne(s, w, pts[0]), w, pts[1..])
  }

  function LightOne(s: Pass, w: World, pt: Point): (r: Pass)
    requires Size(s.overlay) == Size(w.grid)
    ensures Size(r.overlay) == Size(w.grid)
  {
    var overlay := match Tile(w, pt) case Some(t) => SetTile(s.overlay, pt, t) case None => s.overlay;
    var visible := match EntityAt(w, pt) case Some(rec) => s.visible + [rec.id] case None => s.visible;
    Pass(overlay, visible, s.shadow - {pt})
  }

  /** The point-by-point loop paints the overlay as `Paint` does. */
  lemma {:induction false} LightPointsPaints(s: Pass, w: World, pts: seq<Point>)
    requires Size(s.overlay) == Size(w.grid)
    ensures LightPoints(s, w, pts).overlay == Paint(s.overlay, w.grid, pts)
    decreases |pts|
  {
    if |pts| > 0 {
      LightPointsPaints(LightOne(s, w, pts[0]), w, pts[1..]);
    }
  }

  /** The point-by-point loop lists the occupants of the points in order. */
  lemma {:induction false} LightPointsLists(s: Pass, w: World, pts: seq<Point>)
    requires Size(s.overlay) == Size(w.grid)
    ensures LightPoints(s, w, pts).visible == s.visible + Ids(Occupants(w, pts))
    decreases |pts|
  {
    if |pts| == 0 {
      assert s.visible + Ids(Occupants(w, pts)) == s.visible;
    } else {
      LightPointsLists(LightOne(s, w, pts[0]), w, pts[1..]);
      LightOneLists(s, w, pts);
    }
  }

  lemma LightOneLists(s: Pass, w: World, pts: seq<Point>)
    requires Size(s.overlay) == Size(w.grid) && |pts| > 0
    ensures LightOne(s, w, pts[0]).visible + Ids(Occupants(w, pts[1..])) == s.visible + Ids(Occupants(w, pts))
  {
    var rest := Occupants(w, pts[1..]);
    match EntityAt(w, pts[0])
    case None =>
      assert Occupants(w, pts) == rest;
    case Some(rec) =>
      assert Occupants(w, pts) == [rec] + rest;
      IdsConcat([rec], rest);
      assert Ids([rec]) == [rec.id];
      assert (s.visible + [rec.id]) + Ids(rest) == s.visible + ([rec.id] + Ids(rest));
  }

  /** The point-by-point loop erases the shadow of every lit point. */
  lemma {:induction false} LightPointsErases(s: Pass, w: World, pts: seq<Point>)
    requires Size(s.overlay) == Size(w.grid)
    ensures LightPoints(s, w, pts).shadow == s.shadow - Points(pts)
    decreases |pts|
  {
    if |pts| == 0 {
      assert s.shadow - Points(pts) == s.shadow;
    } else {
      var next := LightOne(s, w, pts[0]);
      LightPointsErases(next, w, pts[1..]);
      assert Points(pts) == {pts[0]} + Points(pts[1..]);
      assert (s.shadow - {pts[0]}) - Points(pts[1..]) == s.shadow - Points(pts);
    }
  }

  /** `updateLightningHideUnknown`. */
  function UpdateHide(l: Light, w: World, lighted: seq<Point>): (r: Light)
    requires Size(l.overlay) == Size(w.grid)
    ensures r.lighted == lighted && r.hiding == l.hiding && Size(r.overlay) == Size(w.grid)
    ensures forall p :: TileAt(r.overlay, p) == if p in lighted && InBounds(w.grid, p) then Tile(w, p) else TileAt(l.overlay, p)
    ensures r.visible == Ids(Occupants(w, lighted))
    ensures forall p :: p in r.shadow <==> p !in lighted && (p in l.shadow || DarkenedAny(w, l.visible, lighted, p))
    ensures forall p :: p in r.shadow && !DarkenedAny(w, l.visible, lighted, p) ==> r.shadow[p] == l.shadow[p]
    ensures r.shadow == Shade(l.shadow, w, l.visible, lighted) - Points(lighted)
  {
    var shadow := Shade(l.shadow, w, l.visible, lighted);
    var start := Pass(l.overlay, [], shadow);
    var pass := LightPoints(start, w, lighted);
    LightPointsPaints(start, w, lighted);
    LightPointsLists(start, w, lighted);
    LightPointsErases(start, w, lighted);
    assert [] + Ids(Occupants(w, lighted)) == Ids(Occupants(w, lighted));
    Light(pass.overlay, pass.visible, pass.shadow, lighted, l.hiding)
  }

  /** An entity in sight that went dark leaves a shadow of its type where it
      now stands (of the last such entity, when several went dark on one
      point), and shadows on other unlit points stay as they were. */
  lemma DarkenedLeaveShadows(l: Light, w: World, lighted: seq<Point>, p: Point)
    requires Size(l.overlay) == Size(w.grid)
    requires DarkenedAny(w, l.visible, lighted, p)
    ensures p in UpdateHide(l, w, lighted).shadow
    ensures exists id :: id in l.visible && Darkened(w, id, lighted, p) &&
              UpdateHide(l, w, lighted).shadow[p] == EntityById(w, id).value.entity.kind
  {
    ShadeRecordsType(l.shadow, w, l.visible, lighted, p);
  }

  /** What the store loop of the show-mode update accumulates. */
  datatype Sorted = Sorted(visible: seq<Id>, shadow: map<Point, EntityType>)

  predicate StandsOn(recs: seq<Record>, p: Point) {
    exists rec :: rec in recs && rec.entity.pos == p
  }

  lemma StandsOnSplit(recs: seq<Record>, p: Point)
    requires |recs| > 0
    ensures StandsOn(recs, p) <==> recs[0].entity.pos == p || StandsOn(recs[1..], p)
  {
    assert forall x :: x in recs <==> x == recs[0] || x in recs[1..];
  }

  /** The records standing on lit points, in store order. */
  function Lit(recs: seq<Record>, lighted: seq<Point>): (r: seq<Record>)
    ensures forall rec :: rec in r <==> rec in recs && rec.entity.pos in lighted
    decreases |recs|
  {
    if |recs| == 0 then []
    else (if recs[0].entity.pos in lighted then [recs[0]] else []) + Lit(recs[1..], lighted)
  }

  /** The loop over `getEntities()` in `updateLightningShowUnknown`: lit
      entities are in sight, the others leave a shadow. */
  function SortEntities(s: Sorted, recs: seq<Record>, lighted: seq<Point>): (r: Sorted)
    ensures forall p :: p in r.shadow <==> p in s.shadow || (p !in lighted && StandsOn(recs, p))
    decreases |recs|
  {
    if |recs| == 0 then s
    else
      var r := SortEntities(SortOne(s, recs[0], lighted), recs[1..], lighted);
      forall p ensures StandsOn(recs, p) <==> recs[0].entity.pos == p || StandsOn(recs[1..], p) {
        StandsOnSplit(recs, p);
      }
      r
  }

  function SortOne(s: Sorted, rec: Record, lighted: seq<Point>): (r: Sorted)
    ensures rec.entity.pos in lighted ==> r == Sorted(s.visible + [rec.id], s.shadow)
    ensures rec.entity.pos !in lighted ==> r.visible == s.visible && r.shadow == s.shadow[rec.entity.pos := rec.entity.kind]
  {
    if rec.entity.pos !in lighted then Sorted(s.visible, s.shadow[rec.entity.pos := rec.entity.kind])
    else Sorted(s.visible + [rec.id], s.shadow)
  }

  /** The store loop lists the lit entities in store order. */
  lemma {:induction false} SortEntitiesLists(s: Sorted, recs: seq<Record>, lighted: seq<Point>)
    ensures SortEntities(s, recs, lighted).visible == s.visible + Ids(Lit(recs, lighted))
    decreases |recs|
  {
    if |recs| == 0 {
      assert s.visible + Ids(Lit(recs, lighted)) == s.visible;
    } else {
      SortEntitiesLists(SortOne(s, recs[0], lighted), recs[1..], lighted);
      SortOneLists(s, recs, lighted);
    }
  }

  lemma SortOneLists(s: Sorted, recs: seq<Record>, lighted: seq<Point>)
    requires |recs| > 0
    ensures SortOne(s, recs[0], lighted).visible + Ids(Lit(recs[1..], lighted)) == s.visible + Ids(Lit(recs, lighted))
  {
    var rest := Lit(recs[1..], lighted);
    if recs[0].entity.pos in lighted {
      assert Lit(recs, lighted) == [recs[0]] + rest;
      IdsConcat([recs[0]], rest);
      assert Ids([recs[0]]) == [recs[0].id];
      assert (s.visible + [recs[0].id]) + Ids(rest) == s.visible + ([recs[0].id] + Ids(rest));
    } else {
      assert Lit(recs, lighted) == [] + rest;
    }
  }

  /** Each unlit point with an entity on it gets the type of one of them
      (the last in store order). */
  lemma {:induction false} SortEntitiesRecordsType(s: Sorted, recs: seq<Record>, lighted: seq<Point>, p: Point)
    requires p !in lighted && StandsOn(recs, p)
    ensures exists rec :: rec in recs && rec.entity.pos == p && SortEntities(s, recs, lighted).shadow[p] == rec.entity.kind
    decreases |recs|
  {
    StandsOnSplit(recs, p);
    var next := SortOne(s, recs[0], lighted);
    if StandsOn(recs[1..], p) {
      SortEntitiesRecordsType(next, recs[1..], lighted, p);
      var rec :| rec in recs[1..] && rec.entity.pos == p && SortEntities(next, recs[1..], lighted).shadow[p] == rec.entity.kind;
      assert rec in recs;
    } else {
      SortEntitiesKeeps(next, recs[1..], lighted, p);
      assert recs[0] in recs;
    }
  }

  /** Entries for points no later entity stands on are left alone. */
  lemma {:induction false} SortEntitiesKeeps(s: Sorted, recs: seq<Record>, lighted: seq<Point>, p: Point)
    requires p in s.shadow && !StandsOn(recs, p)
    ensures SortEntities(s, recs, lighted).shadow[p] == s.shadow[p]
    decreases |recs|
  {
    if |recs| > 0 {
      StandsOnSplit(recs, p);
      SortEntitiesKeeps(SortOne(s, recs[0], lighted), recs[1..], lighted, p);
    }
  }

  /** The live records are the stored records whose entity is alive. */
  lemma LiveStandsOn(w: World, p: Point)
    ensures StandsOn(LiveEntities(w.records), p) <==> Occupied(w, p)
  {
    var live := LiveEntities(w.records);
    if StandsOn(live, p) {
      var rec :| rec in live && rec.entity.pos == p;
      var j :| 0 <= j < |w.records| && w.records[j] == rec;
    }
    if Occupied(w, p) {
      assert EntityAt(w, p).value in live;
    }
  }

  /** `updateLightningShowUnknown`. Its shadow erasure removes nothing the
      store loop just built, since only unlit points get shadows. */
  function UpdateShow(l: Light, w: World, lighted: seq<Point>): (r: Light)
    requires Size(l.overlay) == Size(w.grid)
    ensures r.lighted == lighted && r.hiding == l.hiding && Size(r.overlay) == Size(w.grid)
    ensures forall p :: TileAt(r.overlay, p) == if p in lighted && InBounds(w.grid, p) then Tile(w, p) else TileAt(l.overlay, p)
    ensures r.visible == Ids(Lit(LiveEntities(w.records), lighted))
    ensures forall p :: p in r.shadow <==> p !in lighted && Occupied(w, p)
  {
    var live := LiveEntities(w.records);
    var s := SortEntities(Sorted([], map[]), live, lighted);
    SortEntitiesLists(Sorted([], map[]), live, lighted);
    assert [] + Ids(Lit(live, lighted)) == Ids(Lit(live, lighted));
    forall p ensures StandsOn(live, p) <==> Occupied(w, p) {
      LiveStandsOn(w, p);
    }
    Light(Paint(l.overlay, w.grid, lighted), s.visible, s.shadow - Points(lighted), lighted, l.hiding)
  }

  /** In show mode exactly the live entities on lit points are in sight. */
  lemma ShowModeSight(l: Light, w: World, lighted: seq<Point>)
    requires Size(l.overlay) == Size(w.grid)
    ensures var r := UpdateShow(l, w, lighted);
            forall id :: id in r.visible <==> exists rec :: rec in w.records && rec.alive && rec.id == id && rec.entity.pos in lighted
  {
    var lit := Lit(LiveEntities(w.records), lighted);
    assert UpdateShow(l, w, lighted).visible == Ids(lit);
    forall id ensures id in Ids(lit) <==> exists rec :: rec in w.records && rec.alive && rec.id == id && rec.entity.pos in lighted {
      IdsOfRecords(lit, id);
    }
  }

  /** An id is listed exactly when some record carries it. */
  lemma IdsOfRecords(rs: seq<Record>, id: Id)
    ensures id in Ids(rs) <==> exists rec :: rec in rs && rec.id == id
  {
    if id in Ids(rs) {
      var i :| 0 <= i < |rs| && Ids(rs)[i] == id;
      assert rs[i] in rs;
    }
    if exists rec :: rec in rs && rec.id == id {
      var rec :| rec in rs && rec.id == id;
      var i :| 0 <= i < |rs| && rs[i] == rec;
      assert Ids(rs)[i] == id;
    }
  }

  /** In show mode each shadow names the type of a live entity standing
      there. */
  lemma ShowModeShadows(l: Light, w: World, lighted: seq<Point>)
    requires Size(l.overlay) == Size(w.grid)
    ensures var r := UpdateShow(l, w, lighted);
            forall p :: p in r.shadow ==> exists rec :: rec in w.records && rec.alive && rec.entity.pos == p && r.shadow[p] == rec.entity.kind
  {
    var r := UpdateShow(l, w, lighted);
    var live := LiveEntities(w.records);
    forall p | p in r.shadow ensures exists rec :: rec in w.records && rec.alive && rec.entity.pos == p && r.shadow[p] == rec.entity.kind {
      LiveStandsOn(w, p);
      SortEntitiesRecordsType(Sorted([], map[]), live, lighted, p);
    }
  }

  /** `updateLightning`: the mode picks the update. */
  function Update(l: Light, w: World, lighted: seq<Point>): (r: Light)
    requires Size(l.overlay) == Size(w.grid)
    ensures Size(r.overlay) == Size(w.grid)
    ensures r.lighted == lighted && r.hiding == l.hiding
    ensures l.hiding ==> r == UpdateHide(l, w, lighted)
    ensures !l.hiding ==> r == UpdateShow(l, w, lighted)
  {
    if l.hiding then UpdateHide(l, w, lighted) else UpdateShow(l, w, lighted)
  }

  /** `getLighted`: the set of the last update. */
  function GetLighted(l: Light): seq<Point> {
    l.lighted
  }

  /** `getShadowEntities`: the shadow map as entries; the vector's order
      follows an `unordered_map` and is not modelled. */
  function ShadowEntities(l: Light): (r: set<ShadowEntity>)
    ensures forall s :: s in r <==> s.pt in l.shadow && l.shadow[s.pt] == s.kind
  {
    set p | p in l.shadow :: ShadowEntity(p, l.shadow[p])
  }

  /** `setUnknownBehavior` */
  function SetUnknownBehavior(l: Light, hiding: bool): Light {
    Light(l.overlay, l.visible, l.shadow, l.lighted, hiding)
  }

  /** Everything in sight after a hide-mode update is still in the store and
      stands on a lit point, so it cannot be in the dark. */
  lemma VisibleAreLit(w: World, lighted: seq<Point>, id: Id)
    requires UniqueIds(w)
    requires id in Ids(Occupants(w, lighted))
    ensures EntityById(w, id).Some? && EntityById(w, id).value.entity.pos in lighted
    ensures forall p :: !Darkened(w, id, lighted, p)
  {
    var occ := Occupants(w, lighted);
    var i :| 0 <= i < |occ| && Ids(occ)[i] == id;
    assert occ[i] in occ;
    var p :| p in lighted && EntityAt(w, p) == Some(occ[i]);
    LookupOfRecord(w, occ[i]);
  }

  /** Painting the same points twice paints them once. */
  lemma PaintTwice(overlay: Grid, g: Grid, pts: seq<Point>)
    requires Size(overlay) == Size(g)
    ensures Paint(Paint(overlay, g, pts), g, pts) == Paint(overlay, g, pts)
  {
    SameTilesSameGrid(Paint(Paint(overlay, g, pts), g, pts), Paint(overlay, g, pts));
  }

  /** With nothing newly dark, the first loop changes no shadow. */
  lemma ShadeNothingDark(shadow: map<Point, EntityType>, w: World, ids: seq<Id>, lighted: seq<Point>)
    requires forall p :: !DarkenedAny(w, ids, lighted, p)
    ensures Shade(shadow, w, ids, lighted) == shadow
  {
  }

  /** A second hide-mode update with the same lit points on an unchanged
      world finds nothing newly dark and changes nothing. */
  lemma HideUpdateIsIdempotent(l: Light, w: World, lighted: seq<Point>)
    requires Size(l.overlay) == Size(w.grid)
    requires UniqueIds(w)
    ensures UpdateHide(UpdateHide(l, w, lighted), w, lighted) == UpdateHide(l, w, lighted)
  {
    var once := UpdateHide(l, w, lighted);
    var twice := UpdateHide(once, w, lighted);
    SameTilesSameGrid(twice.overlay, once.overlay);
    NothingNewlyDark(w, lighted);
    ShadeNothingDark(once.shadow, w, once.visible, lighted);
    assert once.shadow - Points(lighted) == once.shadow;
  }

  /** Right after a hide-mode update, no entity in sight is dark. */
  lemma NothingNewlyDark(w: World, lighted: seq<Point>)
    requires UniqueIds(w)
    ensures forall p :: !DarkenedAny(w, Ids(Occupants(w, lighted)), lighted, p)
  {
    forall p ensures !DarkenedAny(w, Ids(Occupants(w, lighted)), lighted, p) {
      forall id | id in Ids(Occupants(w, lighted)) ensures !Darkened(w, id, lighted, p) {
        VisibleAreLit(w, lighted, id);
      }
    }
  }

  /** A second show-mode update rebuilds the same state. */
  lemma ShowUpdateIsIdempotent(l: Light, w: World, lighted: seq<Point>)
    requires Size(l.overlay) == Size(w.grid)
    ensures UpdateShow(UpdateShow(l, w, lighted), w, lighted) == UpdateShow(l, w, lighted)
  {
    PaintTwice(l.overlay, w.grid, lighted);
  }

  /** Updating twice with the same lit points on an unchanged world is the
      same as updating once. */
  lemma UpdateIsIdempotent(l: Light, w: World, lighted: seq<Point>)
    requires Size(l.overlay) == Size(w.grid)
    requires UniqueIds(w)
    ensures Update(Update(l, w, lighted), w, lighted) == Update(l, w, lighted)
  {
    if l.hiding {
      HideUpdateIsIdempotent(l, w, lighted);
    } else {
      ShowUpdateIsIdempotent(l, w, lighted);
    }
  }
}

=== FILE: observer.dfy ===
/** Notifiers and their cookies (`include/observer.hh`, `src/observer.cc`).
    `Notifier0`, `Notifier1<A0>`, `Notifier2<A0, A1>` and
    `NotifierContainer<FN>` share one shape; here the listener type `L` and
    the argument type `A` are parameters (`()` for `Notifier0`, a pair for
    `Notifier2`). A listener's own effect is the caller's business: invoking
    yields the calls that are made. */
module Observer {
  import opened CInt

  type ListenerId = UInt32

  /** A notifier: its listeners keyed by id (`std::unordered_map`, so the
      call order is unspecified). */
  datatype Notifier<L> = Notifier(listeners: map<ListenerId, L>)

  /** One call made by `invoke`. */
  datatype Call<L, A> = Call(listener: L, arg: A)

  /** A notifier object as a cookie's weak pointer sees it. */
  type NotifierRef = nat

  /** `ObserverCookie`: the id it was given and a weak link to its notifier. */
  datatype Cookie = Cookie(id: ListenerId, parent: NotifierRef)

  datatype Listened<L> = Listened(notifier: Notifier<L>, cookie: Cookie)

  function Empty<L>(): (r: Notifier<L>)
    ensures |r.listeners| == 0
  {
    Notifier(map[])
  }

  /** `listen`: the new id is the number of listeners, cast to `uint32_t`,
      and the listener is stored under it whether or not that id is taken. */
  function Listen<L>(n: Notifier<L>, self: NotifierRef, cb: L): (r: Listened<L>)
    ensures r.cookie == Cookie(|n.listeners| % TWO_TO_THE_32, self)
    ensures r.cookie.id in r.notifier.listeners && r.notifier.listeners[r.cookie.id] == cb
    ensures forall k :: k != r.cookie.id ==> (k in r.notifier.listeners <==> k in n.listeners)
    ensures forall k :: k != r.cookie.id && k in n.listeners ==> r.notifier.listeners[k] == n.listeners[k]
  {
    var id := |n.listeners| % TWO_TO_THE_32;
    Listened(Notifier(n.listeners[id := cb]), Cookie(id, self))
  }

  /** `detach`: only the listener under `id` goes; an unknown id changes
      nothing. */
  function Detach<L>(n: Notifier<L>, id: ListenerId): (r: Notifier<L>)
    ensures forall k :: k in r.listeners <==> k in n.listeners && k != id
    ensures forall k :: k in r.listeners ==> r.listeners[k] == n.listeners[k]
    ensures id !in n.listeners ==> r == n
  {
    Notifier(n.listeners - {id})
  }

  /** `invoke`: every listener is called once, with the arguments as given. */
  function Invoke<L, A>(n: Notifier<L>, arg: A): (r: map<ListenerId, Call<L, A>>)
    ensures forall k :: k in r <==> k in n.listeners
    ensures forall k :: k in r ==> r[k].listener == n.listeners[k] && r[k].arg == arg
    ensures |r| == |n.listeners|
  {
    var r := map k | k in n.listeners :: Call(n.listeners[k], arg);
    assert r.Keys == n.listeners.Keys;
    r
  }

  /** The live notifiers, by reference; a destroyed notifier is absent. */
  type Notifiers<L> = map<NotifierRef, Notifier<L>>

  /** `~ObserverCookie`: detach its id if the notifier still exists. */
  function DestroyCookie<L>(ns: Notifiers<L>, c: Cookie): (r: Notifiers<L>)
    ensures r.Keys == ns.Keys
    ensures c.parent !in ns ==> r == ns
    ensures c.parent in ns ==> r[c.parent] == Detach(ns[c.parent], c.id)
    ensures forall m :: m in ns && m != c.parent ==> r[m] == ns[m]
  {
    if c.parent in ns then ns[c.parent := Detach(ns[c.parent], c.id)] else ns
  }

  /** Invoking a notifier with no listeners makes no call. */
  lemma InvokeWithoutListeners<L, A>(arg: A)
    ensures Invoke(Empty<L>(), arg) == map[]
  {
    assert forall k :: k !in Invoke(Empty<L>(), arg);
  }

  /** Detaching one id drops exactly that listener's call; every other
      listener is still called, with the same arguments. */
  lemma DetachDropsOneCall<L, A>(n: Notifier<L>, id: ListenerId, arg: A)
    ensures Invoke(Detach(n, id), arg) == Invoke(n, arg) - {id}
  {
    assert Invoke(Detach(n, id), arg).Keys == (Invoke(n, arg) - {id}).Keys;
  }

  /** A listened callback is called on every invoke, with the invoke's
      arguments, until its cookie is destroyed; from then on it is not. */
  lemma ListenerFiresUntilCookieGoes<L, A>(ns: Notifiers<L>, self: NotifierRef, cb: L, arg: A)
    requires self in ns
    ensures var l := Listen(ns[self], self, cb);
            var live := ns[self := l.notifier];
            Invoke(l.notifier, arg)[l.cookie.id] == Call(cb, arg) &&
            l.cookie.id !in Invoke(DestroyCookie(live, l.cookie)[self], arg)
  {
  }

  /** Listening after a detach can reuse an id that is still in use: with
      listeners 0 and 1, detaching 0 and listening again gives id 1, so the
      listener under 1 is silently replaced and its cookie now detaches the
      new one. */
  lemma ListenAfterDetachOverwrites<L>(self: NotifierRef, a: L, b: L, c: L)
    requires b != c
    ensures var first := Listen(Empty<L>(), self, a);
            var second := Listen(first.notifier, self, b);
            var third := Listen(Detach(second.notifier, first.cookie.id), self, c);
            second.cookie.id == third.cookie.id == 1 &&
            third.notifier.listeners == map[1 := c]
  {
    var first := Listen(Empty<L>(), self, a);
    assert first.notifier.listeners == map[0 := a];
    assert |first.notifier.listeners| == 1 by { assert first.notifier.listeners.Keys == {0}; }
    var second := Listen(first.notifier, self, b);
    assert second.notifier.listeners == map[0 := a, 1 := b];
    var detached := Detach(second.notifier, first.cookie.id);
    assert detached.listeners == map[1 := b];
    assert |detached.listeners| == 1 by { assert detached.listeners.Keys == {1}; }
  }

  /** The smallest id not in use. */
  function FreshId<L>(n: Notifier<L>): (r: nat)
    ensures r !in n.listeners
    ensures r <= |n.listeners|
  {
    FreshFrom(n.listeners.Keys, 0)
  }

  function FreshFrom(used: set<int>, from: nat): (r: nat)
    requires forall k :: 0 <= k < from ==> k in used
    ensures r !in used && from <= r <= |used|
    decreases |used| - from
  {
    SubsetSize(Range(from), used);
    if from !in used then from
    else
      SubsetSize(Range(from + 1), used);
      FreshFrom(used, from + 1)
  }

  lemma SubsetSize(a: set<int>, b: set<int>)
    requires a <= b
    ensures |a| <= |b|
  {
    assert b == a + (b - a);
  }

  /** The integers `0 .. n-1`. */
  function Range(n: nat): (r: set<int>)
    ensures forall k :: k in r <==> 0 <= k < n
    ensures |r| == n
  {
    if n == 0 then {} else Range(n - 1) + {n - 1}
  }

  /** `listen` with a fresh id: as long as fewer than 2^32 listeners are
      registered, no listener is ever replaced. */
  function ListenFresh<L>(n: Notifier<L>, self: NotifierRef, cb: L): (r: Listened<L>)
    requires |n.listeners| < TWO_TO_THE_32
    ensures r.cookie.id !in n.listeners && r.cookie.parent == self
    ensures r.notifier.listeners.Keys == n.listeners.Keys + {r.cookie.id}
    ensures r.notifier.listeners[r.cookie.id] == cb
    ensures forall k :: k in n.listeners ==> r.notifier.listeners[k] == n.listeners[k]
  {
    var id := FreshId(n);
    Listened(Notifier(n.listeners[id := cb]), Cookie(id, self))
  }
}

=== FILE: player.dfy ===
/** The key bits of `IInput::getInput` (`include/input.hh`) and the shared
    part of the player traits (`src/traits/player-traits.hh`). */
module PlayerBase {
  import opened Wrappers
  import opened Geometry

  type Keys = bv32

  const UP_KEY: Keys := 1
  const DOWN_KEY: Keys := 2
  const LEFT_KEY: Keys := 4
  const RIGHT_KEY: Keys := 8
  const OPERATE_KEY: Keys := 16
  const BOMB_KEY: Keys := 32

  const DIRECTION_KEYS: Keys := 15

  /** `keysToDir`: LEFT wins over RIGHT, which wins over UP, which wins over
      DOWN; no direction bit gives NONE. */
  function KeysToDir(keys: Keys): (r: Direction)
    ensures r == LEFT <==> keys & LEFT_KEY != 0
    ensures r == RIGHT <==> keys & LEFT_KEY == 0 && keys & RIGHT_KEY != 0
    ensures r == UP <==> keys & (LEFT_KEY | RIGHT_KEY) == 0 && keys & UP_KEY != 0
    ensures r == DOWN <==> keys & (LEFT_KEY | RIGHT_KEY | UP_KEY) == 0 && keys & DOWN_KEY != 0
    ensures r == NONE <==> keys & DIRECTION_KEYS == 0
  {
    if keys & LEFT_KEY != 0 then LEFT
    else if keys & RIGHT_KEY != 0 then RIGHT
    else if keys & UP_KEY != 0 then UP
    else if keys & DOWN_KEY != 0 then DOWN
    else NONE
  }

  /** Only the four direction bits matter; OPERATE, BOMB and the unused
      bits are ignored. */
  lemma OnlyDirectionBitsMatter(keys: Keys)
    ensures KeysToDir(keys) == KeysToDir(keys & DIRECTION_KEYS)
  {
  }

  /** A single direction key gives its direction, and opposing keys resolve
      by precedence. */
  lemma SingleAndOpposingKeys()
    ensures KeysToDir(UP_KEY) == UP && KeysToDir(DOWN_KEY) == DOWN
    ensures KeysToDir(LEFT_KEY) == LEFT && KeysToDir(RIGHT_KEY) == RIGHT
    ensures KeysToDir(LEFT_KEY | RIGHT_KEY) == LEFT && KeysToDir(UP_KEY | DOWN_KEY) == UP
    ensures KeysToDir(OPERATE_KEY) == NONE && KeysToDir(BOMB_KEY) == NONE
  {
  }

  /** The entity's input source. Where it comes from (`IInput::fromEntity`)
      is not part of this model. */
  datatype Input = Input(keys: Keys)

  /** `PlayerTraitBase`: a player trait needs an input source. */
  datatype PlayerTrait = PlayerTrait(input: Input)

  /** The constructor, with its exception modelled as `None`. */
  function Attach(input: Option<Input>): (r: Option<PlayerTrait>)
    ensures r.None? <==> input.None?
    ensures r.Some? ==> r.value.input == input.value
  {
    match input
    case None => None
    case Some(i) => Some(PlayerTrait(i))
  }
}

/** `player::Walk` (`src/traits/player-walk.cc`): walking, digging through
    dirt, picking up diamonds and pushing boulders sideways. */
module PlayerWalk {
  import opened Wrappers
  import opened Geometry
  import opened Tiles
  import opened Entities
  import opened Worlds
  import opened PlayerBase

  datatype WalkResult = WalkResult(world: World, result: bool)

  /** A boulder on `dst` can be pushed along `dir`: only sideways, and only
      onto an EMPTY tile. Entities beyond the boulder are not checked. */
  predicate BoulderGivesWay(w: World, dst: Point, dir: Direction) {
    var e := EntityAt(w, dst);
    e.Some? && e.value.entity.kind == BOULDER ==>
      dir != UP && dir != DOWN && Tile(w, Step(dst, dir)) == Some(EMPTY)
  }

  /** When a walk happens at all. */
  predicate CanWalk(w: World, pos: Point, keys: Keys, passable: TileType -> bool) {
    var dir := KeysToDir(keys);
    var dst := Step(pos, dir);
    keys != 0 && keys & OPERATE_KEY == 0 &&
    Tile(w, dst).Some? && passable(Tile(w, dst).value) &&
    BoulderGivesWay(w, dst, dir)
  }

  /** What the entity on `dst` does to a walk: a diamond is taken, a
      boulder is pushed or blocks (`None`), anything else is ignored. */
  function MakeWay(w: World, dst: Point, dir: Direction): (r: Option<World>)
    ensures r.None? <==> !BoulderGivesWay(w, dst, dir)
    ensures r.Some? ==> r.value.grid == w.grid
    ensures r.Some? ==> forall q: Id :: Has(r.value, q) <==> Has(w, q)
    ensures var e := EntityAt(w, dst);
            r.Some? && e.Some? && e.value.entity.kind == DIAMOND ==> EntityById(r.value, e.value.id).None?
    ensures var e := EntityAt(w, dst);
            r.Some? && e.Some? && e.value.entity.kind == BOULDER ==> Has(r.value, e.value.id) && PositionOf(r.value, e.value.id) == Step(dst, dir)
    ensures var e := EntityAt(w, dst);
            r.Some? ==> forall q: Id :: (e.None? || q != e.value.id) ==> Lookup(r.value, q) == Lookup(w, q)
    ensures var e := EntityAt(w, dst);
            r.Some? && !(e.Some? && e.value.entity.kind in {DIAMOND, BOULDER}) ==> r.value == w
    ensures var e := EntityAt(w, dst);
            r.Some? && e.Some? && e.value.entity.kind == BOULDER ==>
              var b := Lookup(w, e.value.id).value;
              Lookup(r.value, e.value.id) == Some(b.(entity := Entity(b.entity.kind, Step(dst, dir))))
  {
    match EntityAt(w, dst)
    case None => Some(w)
    case Some(e) =>
      if e.entity.kind == DIAMOND then Some(Remove(w, e.id))
      else if e.entity.kind == BOULDER then
        if dir == UP || dir == DOWN then None
        else
          var afterBoulder := Step(dst, dir);
          match Tile(w, afterBoulder)
          case None => None
          case Some(t) => if t == EMPTY then Some(Move(w, e.id, afterBoulder)) else None
      else Some(w)
  }

  /** `Walk::run`. `passable` is `ILevel::tileIsPassable`, whose rule is not
      part of this model. */
  function Run(w: World, self: Id, keys: Keys, passable: TileType -> bool): (r: WalkResult)
    requires Has(w, self)
    ensures r.result <==> CanWalk(w, PositionOf(w, self), keys, passable)
    ensures !r.result ==> r.world == w
    ensures r.result ==> Has(r.world, self) && PositionOf(r.world, self) == Step(PositionOf(w, self), KeysToDir(keys))
    ensures forall q: Id :: Has(r.world, q) <==> Has(w, q)
    ensures var dst := Step(PositionOf(w, self), KeysToDir(keys));
            r.result ==> Tile(r.world, dst) == Some(if Tile(w, dst).value == DIRT then EMPTY else Tile(w, dst).value)
    ensures var dst := Step(PositionOf(w, self), KeysToDir(keys));
            var e := EntityAt(w, dst);
            r.result && e.Some? && e.value.entity.kind == DIAMOND ==> EntityById(r.world, e.value.id).None?
    ensures var dst := Step(PositionOf(w, self), KeysToDir(keys));
            forall q :: q != dst ==> Tile(r.world, q) == Tile(w, q)
    ensures var e := EntityAt(w, Step(PositionOf(w, self), KeysToDir(keys)));
            forall q: Id :: q != self && (e.None? || q != e.value.id) ==> Lookup(r.world, q) == Lookup(w, q)
    ensures var e := EntityAt(w, Step(PositionOf(w, self), KeysToDir(keys)));
            r.result && e.Some? && e.value.id != self && e.value.entity.kind !in {DIAMOND, BOULDER} ==>
              Lookup(r.world, e.value.id) == Lookup(w, e.value.id)
    ensures var dir := KeysToDir(keys);
            var dst := Step(PositionOf(w, self), dir);
            var e := EntityAt(w, dst);
            r.result && e.Some? && e.value.id != self && e.value.entity.kind == BOULDER ==>
              var b := Lookup(w, e.value.id).value;
              Lookup(r.world, e.value.id) == Some(b.(entity := Entity(b.entity.kind, Step(dst, dir))))
  {
    if keys == 0 || keys & OPERATE_KEY != 0 then WalkResult(w, false)
    else
      var dir := KeysToDir(keys);
      var dst := Step(PositionOf(w, self), dir);
      var tileAtDst := Tile(w, dst);
      if tileAtDst.None? then WalkResult(w, false)
      else if !passable(tileAtDst.value) then WalkResult(w, false)
      else
        match MakeWay(w, dst, dir)
        case None => WalkResult(w, false)
        case Some(w1) => WalkResult(Enter(w1, self, dst, tileAtDst.value == DIRT), true)
  }

  /** The player steps onto `dst`, digging it out first when `dig` is set. */
  function Enter(w: World, self: Id, dst: Point, dig: bool): (r: World)
    requires Has(w, self) && Tile(w, dst).Some?
    ensures Has(r, self) && PositionOf(r, self) == dst
    ensures forall q: Id :: Has(r, q) <==> Has(w, q)
    ensures Tile(r, dst) == if dig then Some(EMPTY) else Tile(w, dst)
    ensures forall q :: q != dst ==> Tile(r, q) == Tile(w, q)
    ensures forall q: Id :: q != self ==> Lookup(r, q) == Lookup(w, q)
    ensures forall q: Id :: EntityById(w, q).None? ==> EntityById(r, q).None?
  {
    var w2 := if dig then PutTile(w, dst, EMPTY) else w;
    Move(w2, self, dst)
  }

  /** A mask with no direction bit and no OPERATE, such as BOMB alone,
      walks in place: the player "moves" onto its own cell, digging it if it
      is DIRT, and the walk reports success. */
  lemma WalkInPlace(w: World, self: Id, keys: Keys, passable: TileType -> bool)
    requires Has(w, self) && Kind(w, self) == PLAYER && EntityAt(w, PositionOf(w, self)) == Lookup(w, self)
    requires keys != 0 && keys & OPERATE_KEY == 0 && keys & DIRECTION_KEYS == 0
    requires Tile(w, PositionOf(w, self)).Some? && passable(Tile(w, PositionOf(w, self)).value)
    ensures var r := Run(w, self, keys, passable);
            r.result && Has(r.world, self) && PositionOf(r.world, self) == PositionOf(w, self)
  {
  }

  /** A successful walk into a boulder pushes it one cell further along. */
  lemma WalkPushesBoulder(w: World, self: Id, keys: Keys, passable: TileType -> bool)
    requires Has(w, self) && Run(w, self, keys, passable).result
    requires var e := EntityAt(w, Step(PositionOf(w, self), KeysToDir(keys)));
             e.Some? && e.value.entity.kind == BOULDER && e.value.id != self
    ensures var dst := Step(PositionOf(w, self), KeysToDir(keys));
            var boulder := EntityAt(w, dst).value.id;
            var r := Run(w, self, keys, passable).world;
            Has(r, boulder) && PositionOf(r, boulder) == Step(dst, KeysToDir(keys))
  {
    var dir := KeysToDir(keys);
    var dst := Step(PositionOf(w, self), dir);
    var boulder := EntityAt(w, dst).value.id;
    var w1 := MakeWay(w, dst, dir).value;
    assert Run(w, self, keys, passable).world == Enter(w1, self, dst, Tile(w, dst).value == DIRT);
  }
}

/** `player::Operate` (`src/traits/player-operate.cc`): digging or taking a
    diamond next to the player without moving. This trait is not attached to
    any entity type by `Behavior`. */
module PlayerOperate {
  import opened Wrappers
  import opened CInt
  import opened Geometry
  import opened Tiles
  import opened Entities
  import opened Worlds
  import opened PlayerBase
  import EntityProperties

  /** The world, the player's own property record, and the return value. */
  datatype OperateResult = OperateResult(world: World, props: EntityProperties.Properties, result: bool)

  const DIAMONDS: string := "diamonds"

  /** `Operate::run`. `props` is the player's property record, which the
      trait reaches through a member the shown source does not declare. */
  function Run(w: World, self: Id, keys: Keys, props: EntityProperties.Properties): (r: OperateResult)
    requires Has(w, self)
    ensures var dst := Step(PositionOf(w, self), KeysToDir(keys));
            r.result <==> keys & OPERATE_KEY != 0 && keys & DIRECTION_KEYS != 0 && Tile(w, dst).Some?
    ensures !r.result ==> r.world == w && r.props == props
    ensures forall q: Id :: Has(r.world, q) <==> Has(w, q)
    ensures PositionOf(r.world, self) == PositionOf(w, self)
    ensures var dst := Step(PositionOf(w, self), KeysToDir(keys));
            r.result ==> Tile(r.world, dst) == Some(if Tile(w, dst).value == DIRT then EMPTY else Tile(w, dst).value)
    ensures var dst := Step(PositionOf(w, self), KeysToDir(keys));
            forall q :: q != dst ==> Tile(r.world, q) == Tile(w, q)
    ensures var dst := Step(PositionOf(w, self), KeysToDir(keys));
            var e := EntityAt(w, dst);
            r.result && e.Some? && e.value.entity.kind == DIAMOND ==>
              EntityById(r.world, e.value.id).None? &&
              EntityProperties.AsInt(r.props, DIAMONDS) == Inc(EntityProperties.AsInt(props, DIAMONDS))
    ensures var dst := Step(PositionOf(w, self), KeysToDir(keys));
            var e := EntityAt(w, dst);
            r.result && !(e.Some? && e.value.entity.kind == DIAMOND) ==> r.world.records == w.records && r.props == props
    ensures var e := EntityAt(w, Step(PositionOf(w, self), KeysToDir(keys)));
            forall q: Id :: (e.None? || q != e.value.id) ==> Lookup(r.world, q) == Lookup(w, q)
    ensures forall k :: k != DIAMONDS ==>
              (k in r.props.values <==> k in props.values) && EntityProperties.AsInt(r.props, k) == EntityProperties.AsInt(props, k)
  {
    if keys & OPERATE_KEY == 0 then OperateResult(w, props, false)
    else if keys & DIRECTION_KEYS == 0 then OperateResult(w, props, false)
    else
      var dst := Step(PositionOf(w, self), KeysToDir(keys));
      if Tile(w, dst).None? then OperateResult(w, props, false)
      else OperateAt(w, dst, props)
  }

  /** What operating on the in-bounds cell `dst` does: dirt there is dug
      out, and a diamond standing there is taken and counted. Nothing else
      changes. */
  function OperateAt(w: World, dst: Point, props: EntityProperties.Properties): (r: OperateResult)
    requires Tile(w, dst).Some?
    ensures r.result
    ensures Tile(r.world, dst) == Some(if Tile(w, dst).value == DIRT then EMPTY else Tile(w, dst).value)
    ensures forall q :: q != dst ==> Tile(r.world, q) == Tile(w, q)
    ensures forall q: Id :: Has(r.world, q) <==> Has(w, q)
    ensures var e := EntityAt(w, dst);
            e.Some? && e.value.entity.kind == DIAMOND ==>
              EntityById(r.world, e.value.id).None? &&
              EntityProperties.AsInt(r.props, DIAMONDS) == Inc(EntityProperties.AsInt(props, DIAMONDS))
    ensures var e := EntityAt(w, dst);
            !(e.Some? && e.value.entity.kind == DIAMOND) ==> r.world.records == w.records && r.props == props
    ensures var e := EntityAt(w, dst);
            forall q: Id :: (e.None? || q != e.value.id) ==> Lookup(r.world, q) == Lookup(w, q)
    ensures forall k :: k != DIAMONDS ==>
              (k in r.props.values <==> k in props.values) && EntityProperties.AsInt(r.props, k) == EntityProperties.AsInt(props, k)
  {
    var w1 := Dig(w, dst);
    match EntityAt(w, dst)
    case Some(e) =>
      if e.entity.kind == DIAMOND then
        var count := EntityProperties.AsInt(props, DIAMONDS);
        EntityProperties.AsIntAfterSet(props, DIAMONDS, Inc(count), DIAMONDS);
        OperateResult(Remove(w1, e.id), EntityProperties.Set(props, DIAMONDS, Inc(count)), true)
      else OperateResult(w1, props, true)
    case None => OperateResult(w1, props, true)
  }

  /** Operating twice in the same direction does nothing the second time:
      the cell is already dug out and no second diamond is counted, since no
      other live entity shared the taken diamond's cell. */
  lemma {:induction false} OperateAgainChangesNothing(w: World, self: Id, keys: Keys, props: EntityProperties.Properties)
    requires Has(w, self) && NoOverlap(w)
    requires Run(w, self, keys, props).result
    ensures var first := Run(w, self, keys, props);
            Has(first.world, self) &&
            Run(first.world, self, keys, first.props) == OperateResult(first.world, first.props, true)
  {
    var first := Run(w, self, keys, props);
    var dst := Step(PositionOf(w, self), KeysToDir(keys));
    assert first == OperateAt(w, dst, props);
    var e := EntityAt(w, dst);
    if e.Some? && e.value.entity.kind == DIAMOND {
      var dug := Dig(w, dst);
      assert dug.records == w.records;
      RemoveClearsCell(dug, dst);
    }
    OperateAtNothingLeft(first.world, dst, first.props);
    assert Run(first.world, self, keys, first.props) == OperateAt(first.world, dst, first.props);
  }

  /** Operating on a cell with no dirt and no diamond changes nothing. */
  lemma OperateAtNothingLeft(w: World, dst: Point, props: EntityProperties.Properties)
    requires Tile(w, dst).Some? && Tile(w, dst) != Some(DIRT)
    requires EntityAt(w, dst).None? || EntityAt(w, dst).value.entity.kind != DIAMOND
    ensures OperateAt(w, dst, props) == OperateResult(w, props, true)
  {
  }

  /** Digs `dst` out when it is DIRT. */
  function Dig(w: World, dst: Point): (r: World)
    ensures r.records == w.records
    ensures Tile(r, dst) == if Tile(w, dst) == Some(DIRT) then Some(EMPTY) else Tile(w, dst)
    ensures forall q :: q != dst ==> Tile(r, q) == Tile(w, q)
  {
    if Tile(w, dst) == Some(DIRT) then PutTile(w, dst, EMPTY) else w
  }
}

=== FILE: properties.dfy ===
/** `IEntityProperties` (`src/entity-properties.cc`): named integer values
    attached to entities, such as a player's diamond count. */
module EntityProperties {
  import opened CInt
  import opened Worlds

  /** `Properties`: key to `int`. */
  datatype Properties = Properties(values: map<string, Int32>)

  /** `EntityProperties`: one shared `Properties` record per entity id. */
  datatype PropertyStore = PropertyStore(records: map<Id, Properties>)

  const Empty: Properties := Properties(map[])

  /** `asInt`: the stored value, or 0 for a key never set. */
  function AsInt(p: Properties, key: string): (r: Int32)
    ensures key !in p.values ==> r == 0
    ensures key in p.values ==> r == p.values[key]
  {
    if key in p.values then p.values[key] else 0
  }

  /** `set`: store `value` under `key`. */
  function Set(p: Properties, key: string, value: Int32): (r: Properties)
    ensures key in r.values
    ensures r.values.Keys == p.values.Keys + {key}
  {
    Properties(p.values[key := value])
  }

  lemma AsIntAfterSet(p: Properties, key: string, value: Int32, other: string)
    ensures AsInt(Set(p, key, value), key) == value
    ensures other != key ==> AsInt(Set(p, key, value), other) == AsInt(p, other)
  {
  }

  datatype Fetched = Fetched(store: PropertyStore, props: Properties)

  /** `fromEntity`: the record of entity `id`, created empty on first use. */
  function FromEntity(s: PropertyStore, id: Id): (r: Fetched)
    ensures id in r.store.records && r.props == r.store.records[id]
    ensures id in s.records ==> r == Fetched(s, s.records[id])
    ensures id !in s.records ==> r.props == Empty
    ensures forall other :: other != id ==> (other in r.store.records <==> other in s.records)
    ensures forall other :: other != id && other in s.records ==> r.store.records[other] == s.records[other]
  {
    if id in s.records then Fetched(s, s.records[id])
    else
      var s' := PropertyStore(s.records[id := Empty]);
      Fetched(s', Empty)
  }

  /** `fromEntity(e)->set(key, value)`: the record is shared, so the store
      sees the write. */
  function SetFor(s: PropertyStore, id: Id, key: string, value: Int32): (r: PropertyStore)
    ensures id in r.records
  {
    var l := FromEntity(s, id);
    PropertyStore(l.store.records[id := Set(l.props, key, value)])
  }

  /** `fromEntity(e)->asInt(key)`; reading creates the record as a side
      effect, which does not change any value read. */
  function GetFor(s: PropertyStore, id: Id, key: string): (r: Int32)
    ensures id !in s.records ==> r == 0
  {
    AsInt(FromEntity(s, id).props, key)
  }

  /** Values persist: what is set through one `fromEntity` call is read back
      through a later one. */
  lemma ValuesPersist(s: PropertyStore, id: Id, key: string, value: Int32)
    ensures GetFor(SetFor(s, id, key, value), id, key) == value
  {
    AsIntAfterSet(FromEntity(s, id).props, key, value, key);
  }

  /** Different entities have independent records, and other keys of the
      same entity keep their values. */
  lemma RecordsAreIndependent(s: PropertyStore, id: Id, key: string, value: Int32, other: Id, otherKey: string)
    requires other != id || otherKey != key
    ensures GetFor(SetFor(s, id, key, value), other, otherKey) == GetFor(s, other, otherKey)
  {
    if other == id {
      AsIntAfterSet(FromEntity(s, id).props, key, value, otherKey);
    }
  }
}

=== FILE: split.dfy ===
/** `split_string` (`src/utils.cc`): cut a string at a separator the way
    repeated `std::getline` on a string stream does. */
module Split {

  /** Only the first delimiter is used. With no delimiters, `delims[0]` on a
      const `std::string` reads its terminating NUL. */
  function Separator(delims: string): char {
    if |delims| == 0 then '\0' else delims[0]
  }

  /** Where the first `sep` is, if anywhere. */
  function Find(s: string, sep: char): (r: Hit)
    ensures r.Found? ==> r.at < |s| && s[r.at] == sep && sep !in s[..r.at]
    ensures r.Absent? <==> sep !in s
  {
    if |s| == 0 then Absent
    else if s[0] == sep then Found(0)
    else match Find(s[1..], sep)
      case Absent => Absent
      case Found(k) =>
        assert s[..k + 1] == [s[0]] + s[1..][..k];
        Found(k + 1)
  }

  datatype Hit = Absent | Found(at: nat)

  /** The `getline` loop: each call takes the text up to the next separator
      and consumes the separator; a call at the end of the input fails, so a
      trailing separator adds no empty piece. */
  function Split(s: string, sep: char): (r: seq<string>)
    ensures r == [] <==> s == []
    ensures forall i :: 0 <= i < |r| ==> sep !in r[i]
    decreases |s|
  {
    if |s| == 0 then []
    else match Find(s, sep)
      case Absent => [s]
      case Found(k) => [s[..k]] + Split(s[k + 1..], sep)
  }

  function SplitString(s: string, delims: string): seq<string> {
    Split(s, Separator(delims))
  }

  /** The pieces glued back with the separator between them. */
  function Join(pieces: seq<string>, sep: char): string
    decreases |pieces|
  {
    if |pieces| == 0 then []
    else if |pieces| == 1 then pieces[0]
    else pieces[0] + [sep] + Join(pieces[1..], sep)
  }

  /** Each piece followed by the separator. */
  function Terminated(pieces: seq<string>, sep: char): string
    decreases |pieces|
  {
    if |pieces| == 0 then [] else pieces[0] + [sep] + Terminated(pieces[1..], sep)
  }

  /** Joining the pieces gives the input back, minus one trailing separator
      if it had one. */
  lemma {:induction false} JoinSplit(s: string, sep: char)
    ensures Join(Split(s, sep), sep) == if |s| > 0 && s[|s| - 1] == sep then s[..|s| - 1] else s
    decreases |s|
  {
    if |s| > 0 {
      match Find(s, sep)
      case Absent =>
        assert s[|s| - 1] in s;
      case Found(k) =>
        JoinSplit(s[k + 1..], sep);
        JoinSplitFound(s, sep, k);
    }
  }

  /** The inductive step of `JoinSplit`: a first piece cut off at a
      separator is glued back in front of the rest. */
  lemma JoinSplitFound(s: string, sep: char, k: nat)
    requires Find(s, sep) == Found(k)
    requires var rest := s[k + 1..];
             Join(Split(rest, sep), sep) == if |rest| > 0 && rest[|rest| - 1] == sep then rest[..|rest| - 1] else rest
    ensures Join(Split(s, sep), sep) == if s[|s| - 1] == sep then s[..|s| - 1] else s
  {
    var rest := s[k + 1..];
    SplitAtFound(s, sep, k);
    if |rest| == 0 {
      JoinOne(s[..k], sep);
      assert s[..|s| - 1] == s[..k];
    } else {
      JoinSplitMore(s, sep, k, Split(rest, sep));
    }
  }

  lemma SplitAtFound(s: string, sep: char, k: nat)
    requires Find(s, sep) == Found(k)
    ensures Split(s, sep) == [s[..k]] + Split(s[k + 1..], sep)
  {
  }

  lemma JoinOne(p: string, sep: char)
    ensures Join([p] + [], sep) == p
  {
  }

  lemma JoinSplitMore(s: string, sep: char, k: nat, pieces: seq<string>)
    requires k + 1 < |s| && s[k] == sep && pieces != []
    requires var rest := s[k + 1..];
             Join(pieces, sep) == if rest[|rest| - 1] == sep then rest[..|rest| - 1] else rest
    ensures Join([s[..k]] + pieces, sep) == if s[|s| - 1] == sep then s[..|s| - 1] else s
  {
    var rest := s[k + 1..];
    JoinCons(s[..k], pieces, sep);
    assert s[|s| - 1] == rest[|rest| - 1];
    if rest[|rest| - 1] == sep {
      assert s[..|s| - 1] == s[..k] + [sep] + rest[..|rest| - 1];
    } else {
      assert s == s[..k] + [sep] + rest;
    }
  }

  lemma JoinCons(first: string, pieces: seq<string>, sep: char)
    requires pieces != []
    ensures Join([first] + pieces, sep) == first + [sep] + Join(pieces, sep)
  {
    assert ([first] + pieces)[1..] == pieces;
  }

  /** Pieces free of the separator, each terminated by it, split back into
      exactly those pieces, empty ones included. */
  lemma {:induction false} SplitTerminated(pieces: seq<string>, sep: char)
    requires forall i :: 0 <= i < |pieces| ==> sep !in pieces[i]
    ensures Split(Terminated(pieces, sep), sep) == pieces
    decreases |pieces|
  {
    if |pieces| > 0 {
      SplitFound(pieces[0], sep, Terminated(pieces[1..], sep));
      SplitTerminated(pieces[1..], sep);
    }
  }

  lemma FindAfter(p: string, sep: char, rest: string)
    requires sep !in p
    ensures Find(p + [sep] + rest, sep) == Found(|p|)
  {
    var s := p + [sep] + rest;
    assert s[|p|] == sep;
    assert forall j :: 0 <= j < |p| ==> s[j] == p[j];
    var r := Find(s, sep);
    assert r.Found?;
    assert forall k :: |p| < k <= |s| ==> s[..k][|p|] == sep;
  }

  /** Text free of the separator, then the separator, splits off as the
      first piece. */
  lemma SplitFound(p: string, sep: char, rest: string)
    requires sep !in p
    ensures Split(p + [sep] + rest, sep) == [p] + Split(rest, sep)
  {
    var s := p + [sep] + rest;
    FindAfter(p, sep, rest);
    assert s[|p| + 1..] == rest;
    assert s[..|p|] == p;
  }

  /** Two separators in a row yield an empty piece between them. */
  lemma AdjacentSeparators()
    ensures SplitString("a,,b", ",;") == ["a", "", "b"]
  {
    assert Separator(",;") == ',';
    SplitEmptyFirst();
    SplitFound("a", ',', ",b");
    assert "a" + [','] + ",b" == "a,,b";
  }

  lemma SplitEmptyFirst()
    ensures Split(",b", ',') == ["", "b"]
  {
    SplitLast();
    SplitFound("", ',', "b");
    assert "" + [','] + "b" == ",b";
  }

  lemma SplitLast()
    ensures Split("b", ',') == ["b"]
  {
    assert Find("b", ',') == Absent;
  }
}

=== FILE: teleporter.dfy ===
/** `TeleporterTrait` (`src/traits/teleporting.cc`): an entity standing on a
    teleporter long enough is sent to another teleporter; if that one is
    taken, every teleporter blows up. */
module Teleporting {
  import opened Wrappers
  import opened CInt
  import opened Geometry
  import opened Tiles
  import opened Worlds
  import opened Timers

  /** `m_delay`, `m_timeout` and `m_teleporterLocations`. */
  datatype Teleporter = Teleporter(delay: Int32, timeout: Int32, locations: seq<Point>)

  datatype TeleportResult = TeleportResult(teleporter: Teleporter, world: World, result: bool)

  /** The TELEPORTER cells of row `y` from column `x` on. */
  function LocateInRow(g: Grid, y: nat, x: nat): (r: seq<Point>)
    requires y < g.height && x <= g.width
    ensures forall p :: p in r <==> p.y == y && x <= p.x < g.width && TileAt(g, p) == Some(TELEPORTER)
    ensures forall i, j :: 0 <= i < j < |r| ==> Less(r[i], r[j])
    decreases g.width - x
  {
    if x == g.width then []
    else
      var rest := LocateInRow(g, y, x + 1);
      if TileAt(g, Point(x, y)) == Some(TELEPORTER) then [Point(x, y)] + rest else rest
  }

  /** The TELEPORTER cells of rows `y` onwards, row by row. */
  function LocateFromRow(g: Grid, y: nat): (r: seq<Point>)
    requires y <= g.height
    ensures forall p :: p in r <==> y <= p.y && TileAt(g, p) == Some(TELEPORTER)
    ensures forall i, j :: 0 <= i < j < |r| ==> Less(r[i], r[j])
    decreases g.height - y
  {
    if y == g.height then []
    else
      var row := LocateInRow(g, y, 0);
      var rest := LocateFromRow(g, y + 1);
      assert forall i, j :: 0 <= i < |row| && 0 <= j < |rest| ==> row[i].y < rest[j].y by {
        forall i, j | 0 <= i < |row| && 0 <= j < |rest| ensures row[i].y < rest[j].y {
          assert row[i] in row && rest[j] in rest;
        }
      }
      row + rest
  }

  /** `locateTeleporters`: every TELEPORTER tile of the grid, once each, in
      row-major order. */
  function LocateTeleporters(g: Grid): (r: seq<Point>)
    ensures forall p :: p in r <==> TileAt(g, p) == Some(TELEPORTER)
    ensures forall i, j :: 0 <= i < j < |r| ==> Less(r[i], r[j])
  {
    LocateFromRow(g, 0)
  }

  /** The constructor: the countdown starts full. */
  function New(g: Grid, delay: Int32): (r: Teleporter)
    ensures r.timeout == r.delay == delay
    ensures forall p :: p in r.locations <==> TileAt(g, p) == Some(TELEPORTER)
    ensures Distinct(r.locations)
  {
    var locs := LocateTeleporters(g);
    forall i, j | 0 <= i < j < |locs| ensures locs[i] != locs[j] {
      LessIsStrictTotalOrder(locs[i], locs[j], locs[j]);
    }
    Teleporter(delay, delay, locs)
  }

  predicate Distinct(locs: seq<Point>) {
    forall i, j :: 0 <= i < j < |locs| ==> locs[i] != locs[j]
  }

  /** The first loop of `run`: the index of the first location some live
      entity stands on. */
  function FirstOccupied(w: World, locs: seq<Point>): (r: Option<nat>)
    ensures r.Some? ==> r.value < |locs| && Occupied(w, locs[r.value])
    ensures r.Some? ==> forall j :: 0 <= j < r.value ==> !Occupied(w, locs[j])
    ensures r.None? <==> forall j :: 0 <= j < |locs| ==> !Occupied(w, locs[j])
  {
    if |locs| == 0 then None
    else if Occupied(w, locs[0]) then Some(0)
    else match FirstOccupied(w, locs[1..])
      case None => None
      case Some(k) => Some(k + 1)
  }

  /** The locations other than `pos`, in order. */
  function Others(locs: seq<Point>, pos: Point): (r: seq<Point>)
    ensures forall p :: p in r <==> p in locs && p != pos
  {
    if |locs| == 0 then []
    else (if locs[0] == pos then [] else [locs[0]]) + Others(locs[1..], pos)
  }

  /** The `do … while` retry loop ends: some location differs from `pos`. */
  predicate CanLeave(locs: seq<Point>, pos: Point) {
    exists p :: p in locs && p != pos
  }

  /** The retry loop: `random()` is the index `rnd` into the locations that
      differ from the entity's position. */
  function Destination(locs: seq<Point>, pos: Point, rnd: nat): (r: Point)
    requires CanLeave(locs, pos)
    ensures r in locs && r != pos
  {
    OthersNonEmpty(locs, pos);
    var others := Others(locs, pos);
    others[rnd % |others|]
  }

  lemma OthersNonEmpty(locs: seq<Point>, pos: Point)
    requires CanLeave(locs, pos)
    ensures |Others(locs, pos)| > 0
  {
    var p :| p in locs && p != pos;
    assert p in Others(locs, pos);
  }

  /** Every other location is a possible destination. */
  lemma EveryOtherLocationReachable(locs: seq<Point>, pos: Point, dst: Point)
    requires dst in locs && dst != pos
    ensures CanLeave(locs, pos)
    ensures exists rnd: nat :: Destination(locs, pos, rnd) == dst
  {
    var others := Others(locs, pos);
    assert dst in others;
    var k :| 0 <= k < |others| && others[k] == dst;
    ModOfSmaller(k, |others|);
    assert Destination(locs, pos, k) == dst;
  }

  lemma ModOfSmaller(k: nat, n: nat)
    requires k < n
    ensures k % n == k
  {
  }

  /** The malfunction: explode at each location and clear its tile, in
      order. */
  function Malfunction(w: World, locs: seq<Point>, explode: Blast): (r: World)
    ensures (|locs| > 0 && InBounds(explode(Malfunction(w, locs[..|locs| - 1], explode), locs[|locs| - 1]).grid, locs[|locs| - 1]))
              ==> Tile(r, locs[|locs| - 1]) == Some(EMPTY)
    decreases |locs|
  {
    if |locs| == 0 then w
    else
      var before := Malfunction(w, locs[..|locs| - 1], explode);
      PutTile(explode(before, locs[|locs| - 1]), locs[|locs| - 1], EMPTY)
  }

  /** With an explosion that keeps the level's size and never fills an EMPTY
      cell, a malfunction clears every location in the grid. */
  lemma {:induction false} MalfunctionClearsAll(w: World, locs: seq<Point>, explode: Blast)
    requires forall v: World, p: Point :: Size(explode(v, p).grid) == Size(v.grid)
    requires forall v: World, p: Point, q: Point :: Tile(v, q) == Some(EMPTY) ==> Tile(explode(v, p), q) == Some(EMPTY)
    ensures forall p :: p in locs && InBounds(w.grid, p) ==> Tile(Malfunction(w, locs, explode), p) == Some(EMPTY)
    ensures Malfunction(w, locs, explode).grid.width == w.grid.width && Malfunction(w, locs, explode).grid.height == w.grid.height
    decreases |locs|
  {
    if |locs| > 0 {
      var init := locs[..|locs| - 1];
      MalfunctionClearsAll(w, init, explode);
      forall p | p in locs && InBounds(w.grid, p)
        ensures Tile(Malfunction(w, locs, explode), p) == Some(EMPTY)
      {
        var last := locs[|locs| - 1];
        var before := Malfunction(w, init, explode);
        if p != last {
          assert p in init;
          assert Tile(explode(before, last), p) == Some(EMPTY);
        }
      }
    }
  }

  /** When the retry loop can end for this call: no entity is serviced, the
      countdown has not run out, or another location exists. */
  predicate Terminates(t: Teleporter, ms: UInt32, w: World) {
    match FirstOccupied(w, t.locations)
    case None => true
    case Some(k) => Tick(t.timeout, ms) > 0 || CanLeave(t.locations, t.locations[k])
  }

  /** `TeleporterTrait::run`. */
  function Run(t: Teleporter, ms: UInt32, w: World, explode: Blast, rnd: nat): (r: TeleportResult)
    requires Terminates(t, ms, w)
    ensures !r.result
    ensures r.teleporter.delay == t.delay
    ensures FirstOccupied(w, t.locations).None? ==> r == TeleportResult(t.(timeout := t.delay), w, false)
    ensures FirstOccupied(w, t.locations).Some? && Tick(t.timeout, ms) > 0 ==>
              r == TeleportResult(t.(timeout := Tick(t.timeout, ms)), w, false)
    ensures FirstOccupied(w, t.locations).Some? && Tick(t.timeout, ms) <= 0 ==>
              r.teleporter.timeout == t.delay &&
              var pos := t.locations[FirstOccupied(w, t.locations).value];
              var traveller := EntityAt(w, pos).value.id;
              (r.teleporter.locations == [] && r.world == Malfunction(w, t.locations, explode)) ||
              (r.teleporter.locations == t.locations &&
               exists dst :: dst in t.locations && dst != pos && !Occupied(w, dst) && r.world == Move(w, traveller, dst))
  {
    match FirstOccupied(w, t.locations)
    case None => TeleportResult(t.(timeout := t.delay), w, false)
    case Some(k) =>
      var traveller := EntityAt(w, t.locations[k]).value;
      var timeout := Tick(t.timeout, ms);
      if timeout > 0 then TeleportResult(t.(timeout := timeout), w, false)
      else
        var dst := Destination(t.locations, traveller.entity.pos, rnd);
        if Occupied(w, dst) then
          TeleportResult(Teleporter(t.delay, t.delay, []), Malfunction(w, t.locations, explode), false)
        else
          TeleportResult(t.(timeout := t.delay), Move(w, traveller.id, dst), false)
  }

  /** A malfunction happens exactly when the drawn destination is taken. */
  lemma MalfunctionIffTaken(t: Teleporter, ms: UInt32, w: World, explode: Blast, rnd: nat)
    requires Terminates(t, ms, w)
    requires FirstOccupied(w, t.locations).Some? && Tick(t.timeout, ms) <= 0
    ensures var pos := t.locations[FirstOccupied(w, t.locations).value];
            Run(t, ms, w, explode, rnd).teleporter.locations == [] <==>
              |t.locations| > 0 && Occupied(w, Destination(t.locations, pos, rnd))
  {
  }

  /** With every teleporter gone, a run only refills the countdown. */
  lemma NoTeleportersOnlyResets(t: Teleporter, ms: UInt32, w: World, explode: Blast, rnd: nat)
    requires t.locations == []
    ensures Run(t, ms, w, explode, rnd) == TeleportResult(t.(timeout := t.delay), w, false)
  {
  }

  /** Distinct locations with more than one entry never hang the retry loop. */
  lemma TwoLocationsTerminate(t: Teleporter, ms: UInt32, w: World)
    requires Distinct(t.locations) && |t.locations| != 1
    ensures Terminates(t, ms, w)
  {
    match FirstOccupied(w, t.locations)
    case None =>
    case Some(k) =>
      var other := if k == 0 then 1 else 0;
      assert t.locations[other] in t.locations && t.locations[other] != t.locations[k];
  }

  /** The teleporter scenario: with teleporters at (0,0) and (8,0) and an
      entity on the first, 1499 ms leave it in place and 2 ms more send it
      to the other one, whatever `random()` yields. */
  lemma TeleportScenario(g: Grid, e: Entities.Entity, explode: Blast, rnd1: nat, rnd2: nat)
    requires e.pos == Point(0, 0)
    ensures var t := Teleporter(1500, 1500, [Point(0, 0), Point(8, 0)]);
            var w := World(g, [Record(0, e, true)]);
            Run(t, 1499, w, explode, rnd1) == TeleportResult(t.(timeout := 1), w, false) &&
            Terminates(t.(timeout := 1), 2, w) &&
            Run(t.(timeout := 1), 2, w, explode, rnd2) == TeleportResult(t, Move(w, 0, Point(8, 0)), false)
  {
    var t := Teleporter(1500, 1500, [Point(0, 0), Point(8, 0)]);
    var w := World(g, [Record(0, e, true)]);
    assert EntityAt(w, Point(0, 0)) == Some(Record(0, e, true));
    assert FirstOccupied(w, t.locations) == Some(0);
    assert Tick(1500, 1499) == 1;
    assert Tick(1, 2) == -1;
    assert Others(t.locations, Point(0, 0)) == [Point(8, 0)];
    assert EntityAt(w, Point(8, 0)) == None;
    assert Point(8, 0) in t.locations && Point(8, 0) != Point(0, 0);
    assert CanLeave(t.locations, Point(0, 0));
  }
}

=== FILE: tiles.dfy ===
/** The tile grid of a level: the part of `ILevel` the traits read and write
    (`tileAt`, `setTile`, `getSize`). The level itself, its parser and its
    `explode` are not part of this model. */
module Tiles {
  import opened Wrappers
  import opened Geometry

  datatype TileType =
    | UNKNOWN
    | EMPTY
    | DIRT
    | STONE_WALL
    | WEAK_STONE_WALL
    | TELEPORTER
    | LEFT_TRANSPORT
    | RIGHT_TRANSPORT
    | MAGIC_WALL
    | CONVEYOR
    | EXIT

  /** Tiles stored row by row; `rows[y][x]` is the tile at `Point(x, y)`. */
  datatype TileMap = TileMap(width: nat, height: nat, rows: seq<seq<TileType>>) {
    ghost predicate WellFormed() {
      |rows| == height && forall y :: 0 <= y < |rows| ==> |rows[y]| == width
    }
  }

  type Grid = g: TileMap | g.WellFormed() witness TileMap(0, 0, [])

  function Size(g: Grid): Extents {
    Extents(g.width, g.height)
  }

  predicate InBounds(g: Grid, p: Point) {
    0 <= p.x < g.width && 0 <= p.y < g.height
  }

  /** `tileAt`: none outside `[0, width) x [0, height)`. */
  function TileAt(g: Grid, p: Point): (r: Option<TileType>)
    ensures r.Some? <==> InBounds(g, p)
  {
    if InBounds(g, p) then Some(g.rows[p.y][p.x]) else None
  }

  /** `setTile`: writes one in-bounds cell; out of bounds it does nothing. */
  function SetTile(g: Grid, p: Point, t: TileType): (r: Grid)
    ensures Size(r) == Size(g)
    ensures InBounds(g, p) ==> TileAt(r, p) == Some(t)
    ensures !InBounds(g, p) ==> r == g
    ensures forall q :: q != p ==> TileAt(r, q) == TileAt(g, q)
  {
    if InBounds(g, p) then
      var row := g.rows[p.y][p.x := t];
      var r := TileMap(g.width, g.height, g.rows[p.y := row]);
      assert r.WellFormed();
      r
    else g
  }

  /** A grid of the given size holding `t` everywhere. */
  function Filled(size: Extents, t: TileType): (r: Grid)
    ensures Size(r) == size
    ensures forall p :: InBounds(r, p) ==> TileAt(r, p) == Some(t)
  {
    TileMap(size.width, size.height, seq(size.height, _ => seq(size.width, _ => t)))
  }

  /** Two grids of one size that agree on every cell are the same grid. */
  lemma SameTilesSameGrid(a: Grid, b: Grid)
    requires Size(a) == Size(b)
    requires forall p :: TileAt(a, p) == TileAt(b, p)
    ensures a == b
  {
    forall y | 0 <= y < a.height ensures a.rows[y] == b.rows[y] {
      forall x | 0 <= x < a.width ensures a.rows[y][x] == b.rows[y][x] {
        assert TileAt(a, Point(x, y)) == TileAt(b, Point(x, y));
      }
    }
  }
}

=== FILE: timers.dfy ===
/** The countdown shared by `ExplodeAfterTrait`, `DisappearAfterTrait` and
    `TeleporterTrait`: an `int` from which each run subtracts the elapsed
    (unsigned) milliseconds. */
module Timers {
  import opened CInt

  /** `m_timeLeft -= ms` */
  function Tick(timeLeft: Int32, ms: UInt32): Int32 {
    SubUnsigned(timeLeft, ms)
  }

  /** The timer after a series of runs. */
  function Elapse(timeLeft: Int32, runs: seq<UInt32>): Int32
    decreases |runs|
  {
    if |runs| == 0 then timeLeft else Elapse(Tick(timeLeft, runs[0]), runs[1..])
  }

  function Sum(runs: seq<UInt32>): nat {
    if |runs| == 0 then 0 else runs[0] + Sum(runs[1..])
  }

  /** As long as the total does not push the counter below the `int` range,
      a series of runs subtracts exactly its total. */
  lemma {:induction false} ElapseSubtractsSum(timeLeft: Int32, runs: seq<UInt32>)
    requires timeLeft - Sum(runs) >= -TWO_TO_THE_31
    ensures Elapse(timeLeft, runs) == timeLeft - Sum(runs)
    decreases |runs|
  {
    if |runs| > 0 {
      var t := Tick(timeLeft, runs[0]);
      assert t == timeLeft - runs[0];
      ElapseSubtractsSum(t, runs[1..]);
    }
  }
}

=== FILE: transporter.dfy ===
/** `TransporterTrait` (`src/traits/transporter-bands.cc`): horizontal
    conveyor bands found once when the level is built, each moving whatever
    stands on the row above it one cell along per run. */
module Transporter {
  import opened Wrappers
  import opened Geometry
  import opened Tiles
  import opened Entities
  import opened Worlds

  /** `Band`: cells `start.x .. end.x - 1` of one row; `end` is the first
      cell after the band. */
  datatype Band = Band(start: Point, end: Point, dir: Direction)

  predicate IsTransport(t: TileType) {
    t == LEFT_TRANSPORT || t == RIGHT_TRANSPORT
  }

  /** The tile of an in-grid cell. */
  function CellAt(g: Grid, x: int, y: int): TileType
    requires 0 <= x < g.width && 0 <= y < g.height
  {
    TileAt(g, Point(x, y)).value
  }

  /** The declarative description of a band: a maximal run of transport
      tiles on row `y` that is followed, inside the row, by a non-transport
      tile; its direction is fixed by the run's first tile. */
  predicate IsBand(g: Grid, y: int, b: Band) {
    0 <= y < g.height &&
    b.start.y == y && b.end.y == y &&
    0 <= b.start.x < b.end.x < g.width &&
    (forall x :: b.start.x <= x < b.end.x ==> IsTransport(CellAt(g, x, y))) &&
    !IsTransport(CellAt(g, b.end.x, y)) &&
    (b.start.x == 0 || !IsTransport(CellAt(g, b.start.x - 1, y))) &&
    b.dir == (if CellAt(g, b.start.x, y) == LEFT_TRANSPORT then LEFT else RIGHT)
  }

  /** What the scan of a row knows at column `x`: with a band open at `s`,
      the cells `s .. x - 1` are transport tiles, the cell before `s` is
      not, and `left` records the first tile; with none open, the cell
      before `x` is not a transport tile. */
  predicate ScanState(g: Grid, y: int, x: nat, open: Option<nat>, left: bool)
    requires 0 <= y < g.height && x <= g.width
  {
    match open
    case None => x == 0 || !IsTransport(CellAt(g, x - 1, y))
    case Some(s) =>
      s < x &&
      (forall i :: s <= i < x ==> IsTransport(CellAt(g, i, y))) &&
      (s == 0 || !IsTransport(CellAt(g, s - 1, y))) &&
      left == (CellAt(g, s, y) == LEFT_TRANSPORT)
  }

  /** The scan state after column `x`, given the state before it. */
  lemma ScanStateNext(g: Grid, y: int, x: nat, open: Option<nat>, left: bool)
    requires 0 <= y < g.height && x < g.width
    requires ScanState(g, y, x, open, left)
    ensures !IsTransport(CellAt(g, x, y)) ==> ScanState(g, y, x + 1, None, true)
    ensures IsTransport(CellAt(g, x, y)) && open.None? ==> ScanState(g, y, x + 1, Some(x), CellAt(g, x, y) == LEFT_TRANSPORT)
    ensures IsTransport(CellAt(g, x, y)) && open.Some? ==> ScanState(g, y, x + 1, open, left)
  {
  }

  /** The inner loop of `locateBands` from column `x` on. */
  function LocateRow(g: Grid, y: int, x: nat, open: Option<nat>, left: bool): (r: seq<Band>)
    requires 0 <= y < g.height && x <= g.width
    requires ScanState(g, y, x, open, left)
    ensures forall b :: b in r ==> IsBand(g, y, b)
    ensures forall b :: b in r ==> b.start.x >= if open.Some? then open.value else x
    decreases g.width - x
  {
    if x == g.width then []
    else
      var cur := CellAt(g, x, y);
      ScanStateNext(g, y, x, open, left);
      if !IsTransport(cur) then
        if open.Some? then
          [Band(Point(open.value, y), Point(x, y), if left then LEFT else RIGHT)] + LocateRow(g, y, x + 1, None, true)
        else
          LocateRow(g, y, x + 1, None, true)
      else if open.None? then
        LocateRow(g, y, x + 1, Some(x), cur == LEFT_TRANSPORT)
      else
        LocateRow(g, y, x + 1, open, left)
  }

  /** Every band of the row that the scan has not passed yet is found. */
  lemma {:induction false} LocateRowFindsEveryBand(g: Grid, y: int, x: nat, open: Option<nat>, left: bool, b: Band)
    requires 0 <= y < g.height && x <= g.width
    requires ScanState(g, y, x, open, left)
    requires IsBand(g, y, b)
    requires (open.Some? && b.start.x == open.value) || b.start.x >= x
    ensures b in LocateRow(g, y, x, open, left)
    decreases g.width - x
  {
    if x < g.width {
      var cur := CellAt(g, x, y);
      if !IsTransport(cur) && open.Some? && b.start.x == open.value {
        BandClosesAt(g, y, x, open.value, left, b);
      } else {
        var open' := if !IsTransport(cur) then None else if open.None? then Some(x) else open;
        var left' := if !IsTransport(cur) then true else if open.None? then cur == LEFT_TRANSPORT else left;
        LocateRowKeepsLater(g, y, x, open, left);
        if IsTransport(cur) && open.Some? {
          assert IsTransport(CellAt(g, x - 1, y));
        }
        LocateRowFindsEveryBand(g, y, x + 1, open', left', b);
      }
    }
  }

  /** One column on, the scan is in the next state, and what it finds from
      there is found from here too. */
  lemma LocateRowKeepsLater(g: Grid, y: int, x: nat, open: Option<nat>, left: bool)
    requires 0 <= y < g.height && x < g.width
    requires ScanState(g, y, x, open, left)
    ensures var cur := CellAt(g, x, y);
            var open' := if !IsTransport(cur) then None else if open.None? then Some(x) else open;
            var left' := if !IsTransport(cur) then true else if open.None? then cur == LEFT_TRANSPORT else left;
            ScanState(g, y, x + 1, open', left') &&
            forall b :: b in LocateRow(g, y, x + 1, open', left') ==> b in LocateRow(g, y, x, open, left)
  {
    ScanStateNext(g, y, x, open, left);
  }

  /** A band open since its first cell closes at the first non-transport
      tile, which is where it ends. */
  lemma BandClosesAt(g: Grid, y: int, x: nat, s: nat, left: bool, b: Band)
    requires 0 <= y < g.height && x < g.width
    requires ScanState(g, y, x, Some(s), left)
    requires IsBand(g, y, b) && b.start.x == s
    requires !IsTransport(CellAt(g, x, y))
    ensures b in LocateRow(g, y, x, Some(s), left)
  {
    assert b.end.x == x;
    assert b == Band(Point(s, y), Point(x, y), if left then LEFT else RIGHT);
  }

  /** `locateBands`: the rows from `y` downwards. */
  function LocateRows(g: Grid, y: nat): (r: seq<Band>)
    requires y <= g.height
    ensures forall b :: b in r ==> y <= b.start.y && IsBand(g, b.start.y, b)
    decreases g.height - y
  {
    if y == g.height then [] else LocateRow(g, y, 0, None, true) + LocateRows(g, y + 1)
  }

  function LocateBands(g: Grid): (r: seq<Band>)
    ensures forall b :: b in r ==> IsBand(g, b.start.y, b)
  {
    LocateRows(g, 0)
  }

  /** The bands found are exactly the bands of the grid. */
  lemma {:induction false} LocateRowsIsComplete(g: Grid, y: nat, b: Band)
    requires y <= b.start.y
    requires IsBand(g, b.start.y, b)
    ensures b in LocateRows(g, y)
    decreases g.height - y
  {
    if b.start.y == y {
      LocateRowFindsEveryBand(g, y, 0, None, true, b);
    } else {
      LocateRowsIsComplete(g, y + 1, b);
    }
  }

  lemma LocateBandsIsExact(g: Grid, b: Band)
    ensures b in LocateBands(g) <==> IsBand(g, b.start.y, b)
  {
    if IsBand(g, b.start.y, b) {
      LocateRowsIsComplete(g, 0, b);
    }
  }

  /** The first loop of `runBand`: the live entities standing on row `y`,
      columns `x .. endX - 1`, from left to right. */
  function Collect(w: World, y: int, x: int, endX: int): (r: seq<Record>)
    requires x <= endX
    ensures forall rec :: rec in r ==> rec in w.records && rec.alive && rec.entity.pos.y == y && x <= rec.entity.pos.x < endX
    ensures forall i, j :: 0 <= i < j < |r| ==> r[i].entity.pos.x < r[j].entity.pos.x
    ensures forall c :: x <= c < endX && Occupied(w, Point(c, y)) ==> EntityAt(w, Point(c, y)).value in r
    decreases endX - x
  {
    if x == endX then []
    else
      var rest := Collect(w, y, x + 1, endX);
      match EntityAt(w, Point(x, y))
      case None => rest
      case Some(rec) => [rec] + rest
  }

  lemma CollectedAreStored(w: World, y: int, x: int, endX: int)
    requires x <= endX
    ensures forall rec :: rec in Collect(w, y, x, endX) ==> Has(w, rec.id)
  {
    forall rec | rec in Collect(w, y, x, endX) ensures Has(w, rec.id) {
      assert rec in w.records;
    }
  }

  /** The body of the second loop: the entity moves one cell along `dir`
      when that cell is in the grid, EMPTY, and free at this moment. */
  function Carry(w: World, id: Id, dir: Direction): (r: World)
    requires Has(w, id)
    ensures r.grid == w.grid
    ensures forall q: Id :: Has(r, q) <==> Has(w, q)
    ensures forall q: Id :: q != id ==> Lookup(r, q) == Lookup(w, q)
    ensures var dst := Step(PositionOf(w, id), dir);
            PositionOf(r, id) == if IsEmptyTile(w, dst) && !Occupied(w, dst) then dst else PositionOf(w, id)
    ensures Lookup(r, id).value.alive == Lookup(w, id).value.alive && Kind(r, id) == Kind(w, id)
  {
    var dst := Step(PositionOf(w, id), dir);
    if Tile(w, dst).None? then w
    else if Tile(w, dst).value != EMPTY then w
    else if Occupied(w, dst) then w
    else Move(w, id, dst)
  }

  /** An entity whose next cell is not EMPTY or is taken stays put, and
      nothing else changes. */
  lemma CarryBlocked(w: World, id: Id, dir: Direction)
    requires Has(w, id)
    requires var dst := Step(PositionOf(w, id), dir);
             !IsEmptyTile(w, dst) || Occupied(w, dst)
    ensures Carry(w, id, dir) == w
  {
  }

  /** Carrying never puts two live entities on one cell. */
  lemma CarryKeepsEntitiesApart(w: World, id: Id, dir: Direction)
    requires Has(w, id) && UniqueIds(w) && NoOverlap(w)
    ensures UniqueIds(Carry(w, id, dir)) && NoOverlap(Carry(w, id, dir))
  {
    var dst := Step(PositionOf(w, id), dir);
    if IsEmptyTile(w, dst) && !Occupied(w, dst) {
      MoveToFreeCell(w, id, dst);
    }
  }

  predicate DistinctIds(recs: seq<Record>) {
    forall i, j :: 0 <= i < j < |recs| ==> recs[i].id != recs[j].id
  }

  /** The second loop of `runBand`, in collection order. */
  function CarryAll(w: World, recs: seq<Record>, dir: Direction): (r: World)
    requires forall rec :: rec in recs ==> Has(w, rec.id)
    ensures r.grid == w.grid
    ensures forall q: Id :: Has(r, q) <==> Has(w, q)
    ensures forall q: Id :: (forall rec :: rec in recs ==> rec.id != q) ==> Lookup(r, q) == Lookup(w, q)
    decreases |recs|
  {
    if |recs| == 0 then w
    else CarryAll(Carry(w, recs[0].id, dir), recs[1..], dir)
  }

  /** Each carried entity ends at most one cell further along `dir`. */
  lemma {:induction false} CarryAllStepsOnce(w: World, recs: seq<Record>, dir: Direction, q: Id)
    requires forall rec :: rec in recs ==> Has(w, rec.id)
    requires DistinctIds(recs) && Has(w, q)
    ensures var r := CarryAll(w, recs, dir);
            PositionOf(r, q) == PositionOf(w, q) || PositionOf(r, q) == Step(PositionOf(w, q), dir)
    decreases |recs|
  {
    if |recs| > 0 {
      var w' := Carry(w, recs[0].id, dir);
      if recs[0].id == q {
        assert forall rec :: rec in recs[1..] ==> rec.id != q;
      } else {
        CarryAllStepsOnce(w', recs[1..], dir, q);
      }
    }
  }

  lemma {:induction false} CarryAllKeepsEntitiesApart(w: World, recs: seq<Record>, dir: Direction)
    requires forall rec :: rec in recs ==> Has(w, rec.id)
    requires UniqueIds(w) && NoOverlap(w)
    ensures UniqueIds(CarryAll(w, recs, dir)) && NoOverlap(CarryAll(w, recs, dir))
    decreases |recs|
  {
    if |recs| > 0 {
      CarryKeepsEntitiesApart(w, recs[0].id, dir);
      CarryAllKeepsEntitiesApart(Carry(w, recs[0].id, dir), recs[1..], dir);
    }
  }

  /** A band with at least one cell, as every located band is. */
  predicate Proper(b: Band) {
    b.start.x < b.end.x
  }

  /** Entity `q` is live on the row above the band, within its columns. */
  predicate Above(w: World, b: Band, q: Id)
    requires Has(w, q)
  {
    var rec := Lookup(w, q).value;
    rec.alive && rec.entity.pos.y == b.start.y - 1 && b.start.x <= rec.entity.pos.x < b.end.x
  }

  /** `Band::runBand`: gather the entities above the band, then carry them.
      In a store with unique ids, entities not above the band stay as they
      are, every entity ends at most one cell along the band, and live
      entities never come to share a cell. */
  function RunBand(w: World, b: Band): (r: World)
    requires Proper(b)
    ensures r.grid == w.grid
    ensures forall q: Id :: Has(r, q) <==> Has(w, q)
    ensures UniqueIds(w) ==> forall q: Id :: Has(w, q) && !Above(w, b, q) ==> Lookup(r, q) == Lookup(w, q)
    ensures UniqueIds(w) ==> forall q: Id :: Has(w, q) ==> PositionOf(r, q) == PositionOf(w, q) || PositionOf(r, q) == Step(PositionOf(w, q), b.dir)
    ensures UniqueIds(w) && NoOverlap(w) ==> UniqueIds(r) && NoOverlap(r)
  {
    var recs := Collect(w, b.start.y - 1, b.start.x, b.end.x);
    CollectedAreStored(w, b.start.y - 1, b.start.x, b.end.x);
    if UniqueIds(w) then
      CollectedIdsDistinct(w, b.start.y - 1, b.start.x, b.end.x);
      CarryAllSteps(w, recs, b.dir);
      AboveIsCollected(w, b, recs);
      if NoOverlap(w) then
        CarryAllKeepsEntitiesApart(w, recs, b.dir);
        CarryAll(w, recs, b.dir)
      else
        CarryAll(w, recs, b.dir)
    else
      CarryAll(w, recs, b.dir)
  }

  lemma CarryAllSteps(w: World, recs: seq<Record>, dir: Direction)
    requires forall rec :: rec in recs ==> Has(w, rec.id)
    requires DistinctIds(recs)
    ensures forall q: Id :: Has(w, q) ==> PositionOf(CarryAll(w, recs, dir), q) == PositionOf(w, q) || PositionOf(CarryAll(w, recs, dir), q) == Step(PositionOf(w, q), dir)
  {
    forall q: Id | Has(w, q)
      ensures PositionOf(CarryAll(w, recs, dir), q) == PositionOf(w, q) || PositionOf(CarryAll(w, recs, dir), q) == Step(PositionOf(w, q), dir)
    {
      CarryAllStepsOnce(w, recs, dir, q);
    }
  }

  /** Only entities above the band are collected. */
  lemma AboveIsCollected(w: World, b: Band, recs: seq<Record>)
    requires forall rec :: rec in recs ==> rec.alive && rec.entity.pos.y == b.start.y - 1 && b.start.x <= rec.entity.pos.x < b.end.x
    requires forall rec :: rec in recs ==> Lookup(w, rec.id) == Some(rec)
    ensures forall q: Id :: Has(w, q) && !Above(w, b, q) ==> forall rec :: rec in recs ==> rec.id != q
  {
  }

  /** With unique ids, the collected entities are distinct and each is the
      record its id looks up. */
  lemma CollectedIdsDistinct(w: World, y: int, x: int, endX: int)
    requires x <= endX && UniqueIds(w)
    ensures DistinctIds(Collect(w, y, x, endX))
    ensures forall rec :: rec in Collect(w, y, x, endX) ==> Lookup(w, rec.id) == Some(rec)
  {
    var recs := Collect(w, y, x, endX);
    forall rec | rec in recs ensures Lookup(w, rec.id) == Some(rec) {
      LookupOfRecord(w, rec);
    }
    forall i, j | 0 <= i < j < |recs| ensures recs[i].id != recs[j].id {
      assert recs[i] in recs && recs[j] in recs;
      assert recs[i] != recs[j];
    }
  }

  /** Part way through a band's run, every record keeps its id and
      liveness and has moved at most one cell along `dir`. */
  predicate Drifted(w0: World, w: World, dir: Direction) {
    w.grid == w0.grid && |w.records| == |w0.records| &&
    forall j :: 0 <= j < |w.records| ==>
      w.records[j].id == w0.records[j].id && w.records[j].alive == w0.records[j].alive &&
      (w.records[j].entity.pos == w0.records[j].entity.pos || w.records[j].entity.pos == Step(w0.records[j].entity.pos, dir))
  }

  /** The records of `id` have not moved yet. */
  predicate Unmoved(w0: World, w: World, id: Id) {
    forall j :: 0 <= j < |w0.records| && j < |w.records| && w0.records[j].id == id ==>
      w.records[j].entity.pos == w0.records[j].entity.pos
  }

  /** The cell ahead of `q` along `dir` is EMPTY and no live entity is on it. */
  predicate FreeAhead(w: World, q: Id, dir: Direction)
    requires Has(w, q)
  {
    var dst := Step(PositionOf(w, q), dir);
    IsEmptyTile(w, dst) && !Occupied(w, dst)
  }

  lemma DriftedLookup(w0: World, w: World, dir: Direction, j: nat)
    requires UniqueIds(w0) && Drifted(w0, w, dir) && j < |w0.records|
    ensures UniqueIds(w) && Lookup(w, w0.records[j].id) == Some(w.records[j])
    ensures Lookup(w0, w0.records[j].id) == Some(w0.records[j])
  {
    LookupOfRecord(w, w.records[j]);
    LookupOfRecord(w0, w0.records[j]);
  }

  /** Carrying an entity that has not moved yet keeps the drift bounded. */
  lemma CarryDrifts(w0: World, w: World, id: Id, dir: Direction)
    requires UniqueIds(w0) && Drifted(w0, w, dir) && Has(w, id) && Unmoved(w0, w, id)
    ensures Drifted(w0, Carry(w, id, dir), dir)
    ensures forall other: Id :: other != id && Unmoved(w0, w, other) ==> Unmoved(w0, Carry(w, id, dir), other)
  {
    var k :| 0 <= k < |w.records| && w.records[k] == Lookup(w, id).value;
    DriftedLookup(w0, w, dir, k);
    var dst := Step(PositionOf(w, id), dir);
    if IsEmptyTile(w, dst) && !Occupied(w, dst) {
      assert Carry(w, id, dir) == Move(w, id, dst);
      MoveDrifts(w0, w, id, k, dir);
    } else {
      assert Carry(w, id, dir) == w;
    }
  }

  /** Moving the unmoved record `k` one cell along keeps the drift bounded
      and leaves other ids unmoved. */
  lemma MoveDrifts(w0: World, w: World, id: Id, k: nat, dir: Direction)
    requires UniqueIds(w0) && Drifted(w0, w, dir)
    requires k < |w.records| && w.records[k].id == id && w.records[k].entity.pos == w0.records[k].entity.pos
    ensures Drifted(w0, Move(w, id, Step(w0.records[k].entity.pos, dir)), dir)
    ensures forall other: Id :: other != id && Unmoved(w0, w, other) ==> Unmoved(w0, Move(w, id, Step(w0.records[k].entity.pos, dir)), other)
  {
    var r := Move(w, id, Step(w0.records[k].entity.pos, dir));
    forall j | 0 <= j < |r.records|
      ensures r.records[j].id == w0.records[j].id && r.records[j].alive == w0.records[j].alive
      ensures r.records[j].entity.pos == w0.records[j].entity.pos || r.records[j].entity.pos == Step(w0.records[j].entity.pos, dir)
    {
      if w.records[j].id == id {
        assert j == k by {
          if j < k { assert false; } else if j > k { assert false; }
        }
      }
    }
  }

  /** When an entity's turn comes, the cell that was free ahead of it when
      the band started is still free: nothing else can have moved onto it. */
  lemma CarryTakesFreeCell(w0: World, w: World, q: Id, dir: Direction)
    requires UniqueIds(w0) && NoOverlap(w0) && Drifted(w0, w, dir)
    requires Has(w0, q) && Lookup(w0, q).value.alive && FreeAhead(w0, q, dir)
    requires Has(w, q) && Unmoved(w0, w, q)
    ensures Has(Carry(w, q, dir), q) && PositionOf(Carry(w, q, dir), q) == Step(PositionOf(w0, q), dir)
  {
    var k :| 0 <= k < |w0.records| && w0.records[k] == Lookup(w0, q).value;
    DriftedLookup(w0, w, dir, k);
    var p := PositionOf(w0, q);
    var dst := Step(p, dir);
    assert p != dst by {
      assert !(w0.records[k].alive && w0.records[k].entity.pos == dst);
    }
    forall j | 0 <= j < |w.records| && w.records[j].alive
      ensures w.records[j].entity.pos != dst
    {
      assert !(w0.records[j].alive && w0.records[j].entity.pos == dst);
      if w.records[j].entity.pos == dst {
        StepInjective(w0.records[j].entity.pos, p, dir);
        if j < k { assert false; } else if j > k { assert false; }
      }
    }
    assert !Occupied(w, dst);
  }

  lemma StepInjective(a: Point, b: Point, d: Direction)
    requires Step(a, d) == Step(b, d)
    ensures a == b
  {
  }

  /** Carrying a sequence of distinct entities that have not moved yet takes
      `q` onto the cell that was free ahead of it when the band started. */
  lemma {:induction false} CarryAllMovesFree(w0: World, w: World, recs: seq<Record>, dir: Direction, q: Id, i: nat)
    requires UniqueIds(w0) && NoOverlap(w0) && Drifted(w0, w, dir) && DistinctIds(recs)
    requires forall rec :: rec in recs ==> Has(w, rec.id) && Unmoved(w0, w, rec.id)
    requires i < |recs| && recs[i].id == q
    requires Has(w0, q) && Lookup(w0, q).value.alive && FreeAhead(w0, q, dir)
    ensures Has(CarryAll(w, recs, dir), q) && PositionOf(CarryAll(w, recs, dir), q) == Step(PositionOf(w0, q), dir)
    decreases |recs|, 1
  {
    if i == 0 {
      CarryFirstIsLast(w0, w, recs, dir, q);
    } else {
      CarryLaterMovesFree(w0, w, recs, dir, q, i);
    }
  }

  /** The step of `CarryAllMovesFree` for an entity that is not carried first. */
  lemma {:induction false} CarryLaterMovesFree(w0: World, w: World, recs: seq<Record>, dir: Direction, q: Id, i: nat)
    requires UniqueIds(w0) && NoOverlap(w0) && Drifted(w0, w, dir) && DistinctIds(recs)
    requires forall rec :: rec in recs ==> Has(w, rec.id) && Unmoved(w0, w, rec.id)
    requires 0 < i < |recs| && recs[i].id == q
    requires Has(w0, q) && Lookup(w0, q).value.alive && FreeAhead(w0, q, dir)
    ensures Has(CarryAll(w, recs, dir), q) && PositionOf(CarryAll(w, recs, dir), q) == Step(PositionOf(w0, q), dir)
    decreases |recs|, 0
  {
    var w' := Carry(w, recs[0].id, dir);
    CarryKeepsRestUnmoved(w0, w, recs, dir);
    assert recs[1..][i - 1] == recs[i];
    CarryAllMovesFree(w0, w', recs[1..], dir, q, i - 1);
    assert CarryAll(w, recs, dir) == CarryAll(w', recs[1..], dir);
  }

  /** The entity carried first is carried by no later step. */
  lemma CarryFirstIsLast(w0: World, w: World, recs: seq<Record>, dir: Direction, q: Id)
    requires UniqueIds(w0) && NoOverlap(w0) && Drifted(w0, w, dir) && DistinctIds(recs)
    requires forall rec :: rec in recs ==> Has(w, rec.id)
    requires |recs| > 0 && recs[0].id == q && Unmoved(w0, w, q)
    requires Has(w0, q) && Lookup(w0, q).value.alive && FreeAhead(w0, q, dir)
    ensures Has(CarryAll(w, recs, dir), q) && PositionOf(CarryAll(w, recs, dir), q) == Step(PositionOf(w0, q), dir)
  {
    CarryTakesFreeCell(w0, w, q, dir);
    FirstNotInRest(recs);
    var w' := Carry(w, q, dir);
    assert CarryAll(w, recs, dir) == CarryAll(w', recs[1..], dir);
    assert Lookup(CarryAll(w', recs[1..], dir), q) == Lookup(w', q);
  }

  lemma FirstNotInRest(recs: seq<Record>)
    requires |recs| > 0 && DistinctIds(recs)
    ensures forall rec :: rec in recs[1..] ==> rec.id != recs[0].id
  {
    forall rec | rec in recs[1..] ensures rec.id != recs[0].id {
      var j :| 0 <= j < |recs[1..]| && recs[1..][j] == rec;
      assert recs[j + 1] == rec;
    }
  }

  /** After the first entity is carried, the others still have not moved. */
  lemma CarryKeepsRestUnmoved(w0: World, w: World, recs: seq<Record>, dir: Direction)
    requires UniqueIds(w0) && Drifted(w0, w, dir) && DistinctIds(recs) && |recs| > 0
    requires forall rec :: rec in recs ==> Has(w, rec.id) && Unmoved(w0, w, rec.id)
    ensures Drifted(w0, Carry(w, recs[0].id, dir), dir) && DistinctIds(recs[1..])
    ensures forall rec :: rec in recs[1..] ==>
              Has(Carry(w, recs[0].id, dir), rec.id) && Unmoved(w0, Carry(w, recs[0].id, dir), rec.id)
  {
    assert recs[0] in recs;
    CarryDrifts(w0, w, recs[0].id, dir);
    forall rec | rec in recs[1..]
      ensures Has(Carry(w, recs[0].id, dir), rec.id) && Unmoved(w0, Carry(w, recs[0].id, dir), rec.id)
    {
      var j :| 0 <= j < |recs[1..]| && recs[1..][j] == rec;
      assert recs[j + 1] == rec && rec in recs;
      assert rec.id != recs[0].id;
    }
  }

  /** A band carries every entity above it whose next cell along the band
      is EMPTY and free when the band starts, in either direction: the
      entities carried before it only move to cells next to their own. */
  lemma RunBandMovesFreeEntity(w: World, b: Band, q: Id)
    requires Proper(b) && UniqueIds(w) && NoOverlap(w)
    requires Has(w, q) && Above(w, b, q) && FreeAhead(w, q, b.dir)
    ensures Has(RunBand(w, b), q) && PositionOf(RunBand(w, b), q) == Step(PositionOf(w, q), b.dir)
  {
    var recs := Collect(w, b.start.y - 1, b.start.x, b.end.x);
    CollectedAreStored(w, b.start.y - 1, b.start.x, b.end.x);
    CollectedIdsDistinct(w, b.start.y - 1, b.start.x, b.end.x);
    assert RunBand(w, b) == CarryAll(w, recs, b.dir);
    var i := AboveIsGathered(w, b, q);
    assert Drifted(w, w, b.dir);
    CarryAllMovesFree(w, w, recs, b.dir, q, i);
  }

  /** An entity above the band is among the ones the band gathers. */
  lemma AboveIsGathered(w: World, b: Band, q: Id) returns (i: nat)
    requires Proper(b) && UniqueIds(w) && NoOverlap(w)
    requires Has(w, q) && Above(w, b, q)
    ensures var recs := Collect(w, b.start.y - 1, b.start.x, b.end.x);
            i < |recs| && recs[i].id == q
  {
    var recs := Collect(w, b.start.y - 1, b.start.x, b.end.x);
    var k :| 0 <= k < |w.records| && w.records[k] == Lookup(w, q).value;
    var p := PositionOf(w, q);
    assert Occupied(w, p) by {
      assert w.records[k].alive && w.records[k].entity.pos == p;
    }
    var e := EntityAt(w, p).value;
    assert e in recs;
    var m :| 0 <= m < |w.records| && w.records[m] == e;
    assert m == k by {
      if m < k { assert false; } else if m > k { assert false; }
    }
    i :| i < |recs| && recs[i] == e;
  }

  datatype TransportResult = TransportResult(world: World, result: bool)

  /** `TransporterTrait::run`: every band in the order found; always asks to
      be run again. */
  function Run(bands: seq<Band>, w: World): (r: TransportResult)
    requires forall b :: b in bands ==> Proper(b)
    ensures r.result
    ensures r.world.grid == w.grid
    ensures forall q: Id :: Has(r.world, q) <==> Has(w, q)
    ensures UniqueIds(w) && NoOverlap(w) ==> UniqueIds(r.world) && NoOverlap(r.world)
    decreases |bands|
  {
    if |bands| == 0 then TransportResult(w, true)
    else Run(bands[1..], RunBand(w, bands[0]))
  }

  /** Running one more band runs it on the world the earlier bands leave. */
  lemma {:induction false} RunSnoc(bands: seq<Band>, b: Band, w: World)
    requires forall c :: c in bands ==> Proper(c)
    requires Proper(b)
    ensures forall c :: c in bands + [b] ==> Proper(c)
    ensures Run(bands + [b], w).world == RunBand(Run(bands, w).world, b)
    decreases |bands|
  {
    if |bands| > 0 {
      assert (bands + [b])[1..] == bands[1..] + [b];
      assert forall c :: c in bands[1..] ==> c in bands;
      RunSnoc(bands[1..], b, RunBand(w, bands[0]));
    } else {
      assert bands + [b] == [b];
    }
  }

  /** Band `i` carries every entity above it, in the world the bands before
      it leave, whose next cell along the band is EMPTY and free then. */
  lemma RunMovesFreeEntity(bands: seq<Band>, w: World, i: nat, q: Id)
    requires forall c :: c in bands ==> Proper(c)
    requires i < |bands| && UniqueIds(w) && NoOverlap(w)
    requires var before := Run(bands[..i], w).world;
             Has(before, q) && Above(before, bands[i], q) && FreeAhead(before, q, bands[i].dir)
    ensures var before := Run(bands[..i], w).world;
            var after := Run(bands[..i + 1], w).world;
            Has(after, q) && PositionOf(after, q) == Step(PositionOf(before, q), bands[i].dir)
  {
    var pre, b := bands[..i], bands[i];
    assert forall c :: c in pre ==> c in bands;
    var before := Run(pre, w).world;
    RunBandMovesFreeEntity(before, b, q);
    RunSnoc(pre, b, w);
    TakeOneMore(bands, i);
  }

  lemma TakeOneMore<T>(s: seq<T>, i: nat)
    requires i < |s|
    ensures s[..i] + [s[i]] == s[..i + 1]
  {
  }

  /** A small version of the band scenario: a leftward band on row 1 under
      two entities standing on EMPTY cells between DIRT. */
  function ScenarioGrid(): Grid {
    TileMap(5, 2, [[DIRT, EMPTY, EMPTY, EMPTY, DIRT],
                   [DIRT, LEFT_TRANSPORT, LEFT_TRANSPORT, LEFT_TRANSPORT, DIRT]])
  }

  function ScenarioWorld(boulder: Point, bomb: Point): World {
    World(ScenarioGrid(), [Record(0, Entity(BOULDER, boulder), true), Record(1, Entity(BOMB, bomb), true)])
  }

  lemma ScenarioBands()
    ensures LocateBands(ScenarioGrid()) == [ScenarioBand()]
  {
    var g := ScenarioGrid();
    ScenarioTopRow();
    ScenarioBandRow();
    assert LocateRows(g, 2) == [];
    assert LocateRows(g, 1) == [ScenarioBand()];
  }

  /** The top row of the scenario holds no transport tile. */
  lemma ScenarioTopRow()
    ensures LocateRow(ScenarioGrid(), 0, 0, None, true) == []
  {
    var g := ScenarioGrid();
    assert CellAt(g, 0, 0) == DIRT && CellAt(g, 1, 0) == EMPTY && CellAt(g, 2, 0) == EMPTY;
    assert CellAt(g, 3, 0) == EMPTY && CellAt(g, 4, 0) == DIRT;
    assert LocateRow(g, 0, 5, None, true) == [];
    assert LocateRow(g, 0, 4, None, true) == [];
    assert LocateRow(g, 0, 3, None, true) == [];
    assert LocateRow(g, 0, 2, None, true) == [];
    assert LocateRow(g, 0, 1, None, true) == [];
  }

  /** The second row of the scenario is one leftward band. */
  lemma ScenarioBandRow()
    ensures LocateRow(ScenarioGrid(), 1, 0, None, true) == [ScenarioBand()]
  {
    var g := ScenarioGrid();
    assert CellAt(g, 0, 1) == DIRT && CellAt(g, 1, 1) == LEFT_TRANSPORT && CellAt(g, 2, 1) == LEFT_TRANSPORT;
    assert CellAt(g, 3, 1) == LEFT_TRANSPORT && CellAt(g, 4, 1) == DIRT;
    assert LocateRow(g, 1, 5, None, true) == [];
    assert LocateRow(g, 1, 4, Some(1), true) == [ScenarioBand()];
    assert LocateRow(g, 1, 3, Some(1), true) == [ScenarioBand()];
    assert LocateRow(g, 1, 2, Some(1), true) == [ScenarioBand()];
    assert LocateRow(g, 1, 1, None, true) == [ScenarioBand()];
  }

  /** Moving entity `id` of a scenario world to `dst`. */
  lemma ScenarioMove(boulder: Point, bomb: Point, id: Id, dst: Point)
    requires id <= 1
    ensures Move(ScenarioWorld(boulder, bomb), id, dst) ==
              if id == 0 then ScenarioWorld(dst, bomb) else ScenarioWorld(boulder, dst)
  {
    var m := Move(ScenarioWorld(boulder, bomb), id, dst);
    var e := if id == 0 then ScenarioWorld(dst, bomb) else ScenarioWorld(boulder, dst);
    assert m.records[0] == e.records[0];
    assert m.records[1] == e.records[1];
    assert m.records == e.records;
  }

  function ScenarioBand(): Band {
    Band(Point(1, 1), Point(4, 1), LEFT)
  }

  /** Running the scenario's band is carrying what stands on row 0. */
  lemma ScenarioRunIsCarry(w: World)
    ensures Run([ScenarioBand()], w).world == CarryAll(w, Collect(w, 0, 1, 4), LEFT)
  {
    assert Run([ScenarioBand()], w).world == RunBand(w, ScenarioBand());
  }

  lemma ScenarioHas(boulder: Point, bomb: Point)
    ensures Has(ScenarioWorld(boulder, bomb), 0) && Has(ScenarioWorld(boulder, bomb), 1)
  {
    var w := ScenarioWorld(boulder, bomb);
    assert w.records[0].id == 0 && w.records[1].id == 1;
  }

  /** Carrying two entities is carrying the first, then the second. */
  lemma CarryTwo(w: World, rec0: Record, rec1: Record, dir: Direction)
    requires Has(w, rec0.id) && Has(w, rec1.id)
    ensures CarryAll(w, [rec0, rec1], dir) == Carry(Carry(w, rec0.id, dir), rec1.id, dir)
  {
    var w1 := Carry(w, rec0.id, dir);
    assert [rec0, rec1][1..] == [rec1] && [rec1][1..] == [];
    assert CarryAll(w, [rec0, rec1], dir) == CarryAll(w1, [rec1], dir);
    assert CarryAll(w1, [rec1], dir) == CarryAll(Carry(w1, rec1.id, dir), [], dir);
  }

  lemma ScenarioFirstCollect()
    ensures var w := ScenarioWorld(Point(2, 0), Point(3, 0));
            Collect(w, 0, 1, 4) == [w.records[0], w.records[1]]
  {
    var w := ScenarioWorld(Point(2, 0), Point(3, 0));
    assert EntityAt(w, Point(3, 0)) == Some(w.records[1]);
    assert EntityAt(w, Point(2, 0)) == Some(w.records[0]);
    assert EntityAt(w, Point(1, 0)) == None;
  }

  lemma ScenarioBoulderSlides()
    ensures Carry(ScenarioWorld(Point(2, 0), Point(3, 0)), 0, LEFT) == ScenarioWorld(Point(1, 0), Point(3, 0))
  {
    var w := ScenarioWorld(Point(2, 0), Point(3, 0));
    assert PositionOf(w, 0) == Point(2, 0);
    assert Tile(w, Point(1, 0)) == Some(EMPTY) && EntityAt(w, Point(1, 0)) == None;
    ScenarioMove(Point(2, 0), Point(3, 0), 0, Point(1, 0));
  }

  lemma ScenarioBombFollows()
    ensures Carry(ScenarioWorld(Point(1, 0), Point(3, 0)), 1, LEFT) == ScenarioWorld(Point(1, 0), Point(2, 0))
  {
    var w := ScenarioWorld(Point(1, 0), Point(3, 0));
    assert PositionOf(w, 1) == Point(3, 0) && Step(Point(3, 0), LEFT) == Point(2, 0);
    assert Tile(w, Point(2, 0)) == Some(EMPTY);
    assert FirstAt(w.records, Point(2, 0)) == None;
    ScenarioMove(Point(1, 0), Point(3, 0), 1, Point(2, 0));
  }

  /** One run moves both entities one cell left, the bomb into the cell the
      boulder has just left. */
  lemma ScenarioFirstRun()
    ensures Run([ScenarioBand()], ScenarioWorld(Point(2, 0), Point(3, 0))).world
              == ScenarioWorld(Point(1, 0), Point(2, 0))
  {
    var w := ScenarioWorld(Point(2, 0), Point(3, 0));
    ScenarioRunIsCarry(w);
    ScenarioFirstCollect();
    ScenarioHas(Point(2, 0), Point(3, 0));
    CarryTwo(w, w.records[0], w.records[1], LEFT);
    ScenarioBoulderSlides();
    ScenarioBombFollows();
  }

  lemma ScenarioSecondCollect()
    ensures var w := ScenarioWorld(Point(1, 0), Point(2, 0));
            Collect(w, 0, 1, 4) == [w.records[0], w.records[1]]
  {
    var w := ScenarioWorld(Point(1, 0), Point(2, 0));
    assert EntityAt(w, Point(3, 0)) == None;
    assert EntityAt(w, Point(2, 0)) == Some(w.records[1]);
    assert EntityAt(w, Point(1, 0)) == Some(w.records[0]);
  }

  lemma ScenarioBothBlocked()
    ensures var w := ScenarioWorld(Point(1, 0), Point(2, 0));
            Carry(w, 0, LEFT) == w && Carry(w, 1, LEFT) == w
  {
    var w := ScenarioWorld(Point(1, 0), Point(2, 0));
    assert PositionOf(w, 0) == Point(1, 0) && Tile(w, Point(0, 0)) == Some(DIRT);
    CarryBlocked(w, 0, LEFT);
    assert PositionOf(w, 1) == Point(2, 0) && EntityAt(w, Point(1, 0)) == Some(w.records[0]);
    CarryBlocked(w, 1, LEFT);
  }

  /** The next run moves neither: DIRT is ahead of the boulder and the
      boulder is ahead of the bomb. */
  lemma ScenarioSecondRun()
    ensures Run([ScenarioBand()], ScenarioWorld(Point(1, 0), Point(2, 0))).world
              == ScenarioWorld(Point(1, 0), Point(2, 0))
  {
    var w := ScenarioWorld(Point(1, 0), Point(2, 0));
    ScenarioRunIsCarry(w);
    ScenarioSecondCollect();
    ScenarioHas(Point(1, 0), Point(2, 0));
    CarryTwo(w, w.records[0], w.records[1], LEFT);
    ScenarioBothBlocked();
  }
}

=== FILE: world.dfy ===
/** The shared state every trait reads and writes: the level's tile grid and
    the entity store. The store (`IEntityStore`) is not part of the shown
    source; it is modelled as the entity objects in creation order, each with
    an `alive` flag. A removed entity is dropped from lookups but its object
    survives, because traits hold it by `shared_ptr` and keep reading its
    position after `remove()`. */
module Worlds {
  import opened Wrappers
  import opened Geometry
  import opened Tiles
  import opened Entities

  type Id = nat

  datatype Record = Record(id: Id, entity: Entity, alive: bool)

  datatype World = World(grid: Grid, records: seq<Record>)

  /** `ILevel::explode`, whose algorithm is not part of the shown source. */
  type Blast = (World, Point) -> World

  /** An explosion may take entities out of the store, but their objects
      live on: no entity object disappears. */
  ghost predicate KeepsEntities(explode: Blast) {
    forall v: World, p: Point, q: Id :: Has(v, q) ==> Has(explode(v, p), q)
  }

  function Tile(w: World, p: Point): Option<TileType> {
    Tiles.TileAt(w.grid, p)
  }

  function PutTile(w: World, p: Point, t: TileType): World {
    w.(grid := Tiles.SetTile(w.grid, p, t))
  }

  predicate IsEmptyTile(w: World, p: Point) {
    Tile(w, p) == Some(EMPTY)
  }

  /** Index of the first live record standing on `p`. */
  function FirstAt(rs: seq<Record>, p: Point): (r: Option<nat>)
    ensures r.Some? ==> r.value < |rs| && rs[r.value].alive && rs[r.value].entity.pos == p
    ensures r.Some? ==> forall j :: 0 <= j < r.value ==> !(rs[j].alive && rs[j].entity.pos == p)
    ensures r.None? <==> forall j :: 0 <= j < |rs| ==> !(rs[j].alive && rs[j].entity.pos == p)
  {
    if |rs| == 0 then None
    else if rs[0].alive && rs[0].entity.pos == p then Some(0)
    else match FirstAt(rs[1..], p)
      case None => None
      case Some(k) => Some(k + 1)
  }

  /** Index of the first record carrying `id`, alive or not. */
  function FirstWithId(rs: seq<Record>, id: Id): (r: Option<nat>)
    ensures r.Some? ==> r.value < |rs| && rs[r.value].id == id
    ensures r.Some? ==> forall j :: 0 <= j < r.value ==> rs[j].id != id
    ensures r.None? <==> forall j :: 0 <= j < |rs| ==> rs[j].id != id
  {
    if |rs| == 0 then None
    else if rs[0].id == id then Some(0)
    else match FirstWithId(rs[1..], id)
      case None => None
      case Some(k) => Some(k + 1)
  }

  /** `getEntityByPoint`: a live entity standing on `p`, if any. */
  function EntityAt(w: World, p: Point): (r: Option<Record>)
    ensures r.Some? ==> r.value.alive && r.value.entity.pos == p && r.value in w.records
    ensures r.None? <==> forall j :: 0 <= j < |w.records| ==> !(w.records[j].alive && w.records[j].entity.pos == p)
  {
    match FirstAt(w.records, p)
    case None => None
    case Some(k) => Some(w.records[k])
  }

  predicate Occupied(w: World, p: Point) {
    EntityAt(w, p).Some?
  }

  /** The object of entity `id`, whether or not it was removed from the store. */
  function Lookup(w: World, id: Id): (r: Option<Record>)
    ensures r.Some? ==> r.value.id == id && r.value in w.records
    ensures r.None? <==> forall j :: 0 <= j < |w.records| ==> w.records[j].id != id
  {
    match FirstWithId(w.records, id)
    case None => None
    case Some(k) => Some(w.records[k])
  }

  predicate Has(w: World, id: Id) {
    Lookup(w, id).Some?
  }

  function Kind(w: World, id: Id): EntityType
    requires Has(w, id)
  {
    Lookup(w, id).value.entity.kind
  }

  function PositionOf(w: World, id: Id): Point
    requires Has(w, id)
  {
    Lookup(w, id).value.entity.pos
  }

  /** `getEntityById`: only entities still in the store. */
  function EntityById(w: World, id: Id): (r: Option<Record>)
    ensures r.Some? ==> r.value.id == id && r.value.alive && r.value in w.records
  {
    match Lookup(w, id)
    case Some(rec) => if rec.alive then Some(rec) else None
    case None => None
  }

  /** The live entities in store order (`getEntities`). */
  function LiveEntities(rs: seq<Record>): (r: seq<Record>)
    ensures forall x :: x in r <==> x in rs && x.alive
  {
    if |rs| == 0 then []
    else (if rs[0].alive then [rs[0]] else []) + LiveEntities(rs[1..])
  }

  /** `IEntity::remove`: the entity leaves the store; its object is kept. */
  function Remove(w: World, id: Id): (r: World)
    ensures r.grid == w.grid
    ensures |r.records| == |w.records|
    ensures forall j :: 0 <= j < |w.records| ==>
              r.records[j] == if w.records[j].id == id then w.records[j].(alive := false) else w.records[j]
    ensures EntityById(r, id).None?
    ensures forall q: Id :: Has(r, q) <==> Has(w, q)
    ensures Has(w, id) ==> Lookup(r, id) == Some(Lookup(w, id).value.(alive := false))
    ensures forall q: Id :: q != id ==> Lookup(r, q) == Lookup(w, q)
  {
    var r := World(w.grid, seq(|w.records|, j requires 0 <= j < |w.records| =>
      if w.records[j].id == id then w.records[j].(alive := false) else w.records[j]));
    SameIds(w.records, r.records);
    r
  }

  /** `IEntity::setPosition`. The store's movement and collision events are
      not part of this model. */
  function Move(w: World, id: Id, dst: Point): (r: World)
    ensures r.grid == w.grid
    ensures |r.records| == |w.records|
    ensures forall j :: 0 <= j < |w.records| ==>
              r.records[j] == if w.records[j].id == id then w.records[j].(entity := Entities.SetPosition(w.records[j].entity, dst)) else w.records[j]
    ensures forall q: Id :: Has(r, q) <==> Has(w, q)
    ensures Has(w, id) ==> Lookup(r, id) == Some(Lookup(w, id).value.(entity := Entity(Lookup(w, id).value.entity.kind, dst)))
    ensures forall q: Id :: q != id ==> Lookup(r, q) == Lookup(w, q)
  {
    var r := World(w.grid, seq(|w.records|, j requires 0 <= j < |w.records| =>
      if w.records[j].id == id then w.records[j].(entity := Entities.SetPosition(w.records[j].entity, dst)) else w.records[j]));
    SameIds(w.records, r.records);
    r
  }

  /** Two record sequences with the same ids position by position find every
      id at the same index. */
  lemma SameIds(rs: seq<Record>, ts: seq<Record>)
    requires |rs| == |ts| && forall j :: 0 <= j < |rs| ==> rs[j].id == ts[j].id
    ensures forall q: Id :: FirstWithId(rs, q) == FirstWithId(ts, q)
  {
    forall q: Id ensures FirstWithId(rs, q) == FirstWithId(ts, q) {
      match FirstWithId(rs, q)
      case None =>
      case Some(k) => FirstWithIdUnique(ts, q, k);
    }
  }

  /** A removed entity is no longer found on any point, and an entity found
      there before that was not the removed one is still found. */
  lemma RemoveEffect(w: World, id: Id, p: Point)
    ensures EntityAt(Remove(w, id), p).Some? ==> EntityAt(Remove(w, id), p).value.id != id
    ensures EntityAt(w, p).Some? && EntityAt(w, p).value.id != id ==> EntityAt(Remove(w, id), p) == EntityAt(w, p)
  {
    var r := Remove(w, id);
    match FirstAt(w.records, p)
    case None =>
    case Some(k) =>
      if w.records[k].id != id {
        FirstAtUnique(r.records, p, k);
      }
  }

  lemma FirstWithIdUnique(rs: seq<Record>, id: Id, k: nat)
    requires k < |rs| && rs[k].id == id
    requires forall j :: 0 <= j < k ==> rs[j].id != id
    ensures FirstWithId(rs, id) == Some(k)
  {
  }

  lemma FirstAtUnique(rs: seq<Record>, p: Point, k: nat)
    requires k < |rs| && rs[k].alive && rs[k].entity.pos == p
    requires forall j :: 0 <= j < k ==> !(rs[j].alive && rs[j].entity.pos == p)
    ensures FirstAt(rs, p) == Some(k)
  {
  }

  /** Every entity object appears once in the store. */
  predicate UniqueIds(w: World) {
    forall i, j :: 0 <= i < j < |w.records| ==> w.records[i].id != w.records[j].id
  }

  /** No two live entities share a cell. */
  predicate NoOverlap(w: World) {
    forall i, j :: 0 <= i < j < |w.records| && w.records[i].alive && w.records[j].alive ==>
      w.records[i].entity.pos != w.records[j].entity.pos
  }

  /** Moving an entity onto a cell no live entity occupies keeps entities
      apart. */
  lemma MoveToFreeCell(w: World, id: Id, dst: Point)
    requires UniqueIds(w) && NoOverlap(w)
    requires !Occupied(w, dst)
    ensures UniqueIds(Move(w, id, dst)) && NoOverlap(Move(w, id, dst))
  {
    var r := Move(w, id, dst);
    forall i, j | 0 <= i < j < |r.records| && r.records[i].alive && r.records[j].alive
      ensures r.records[i].entity.pos != r.records[j].entity.pos
    {
      assert !(w.records[i].alive && w.records[i].entity.pos == dst);
      assert !(w.records[j].alive && w.records[j].entity.pos == dst);
    }
  }

  /** With entities kept apart, removing the entity on a cell leaves the
      cell unoccupied. */
  lemma RemoveClearsCell(w: World, p: Point)
    requires NoOverlap(w) && EntityAt(w, p).Some?
    ensures EntityAt(Remove(w, EntityAt(w, p).value.id), p).None?
  {
    var e := EntityAt(w, p).value;
    var k :| 0 <= k < |w.records| && w.records[k] == e;
    var r := Remove(w, e.id);
    forall j | 0 <= j < |r.records| && r.records[j].alive
      ensures r.records[j].entity.pos != p
    {
      assert j != k && w.records[j].alive;
      if j < k { assert w.records[j].entity.pos != w.records[k].entity.pos; }
      else { assert w.records[k].entity.pos != w.records[j].entity.pos; }
    }
  }

  /** With unique ids, a stored record is what its id looks up. */
  lemma LookupOfRecord(w: World, rec: Record)
    requires UniqueIds(w) && rec in w.records
    ensures Lookup(w, rec.id) == Some(rec)
  {
    var i :| 0 <= i < |w.records| && w.records[i] == rec;
    FirstWithIdUnique(w.records, rec.id, i);
  }
}

=== FILE: wrappers.dfy ===
/** Small shared vocabulary: the optional value the C++ code expresses with
    `std::optional` and null `shared_ptr`s. */
module Wrappers {

  datatype Option<+T> = None | Some(value: T) {

    /** The carried value, or `default` when there is none. */
    function GetOr(default: T): T {
      match this
      case Some(v) => v
      case None => default
    }
  }
}

/** Fixed-width C integers. Dafny integers are unbounded; the places where the
    game relies on 32-bit arithmetic go through these helpers. */
module CInt {

  const TWO_TO_THE_32: int := 0x1_0000_0000
  const TWO_TO_THE_31: int := 0x8000_0000

  type Int32 = x: int | -TWO_TO_THE_31 <= x < TWO_TO_THE_31
  type UInt32 = x: int | 0 <= x < TWO_TO_THE_32

  /** Reinterpret an unsigned 32-bit pattern as a two's complement `int`. */
  function ToInt32(u: UInt32): (r: Int32)
    ensures 0 <= u < TWO_TO_THE_31 ==> r == u
    ensures TWO_TO_THE_31 <= u ==> r == u - TWO_TO_THE_32
    ensures (r - u) % TWO_TO_THE_32 == 0
  {
    if u < TWO_TO_THE_31 then u else u - TWO_TO_THE_32
  }

  /** `int x; x -= (unsigned) ms;`: the subtraction is done in unsigned
      arithmetic and the pattern is stored back into the `int`. */
  function SubUnsigned(x: Int32, ms: UInt32): (r: Int32)
    ensures (r - (x - ms)) % TWO_TO_THE_32 == 0
    ensures -TWO_TO_THE_31 <= x - ms ==> r == x - ms
  {
    ToInt32((x - ms) % TWO_TO_THE_32)
  }

  /** `x + 1` on an `int`. Overflow is undefined in C++; the model wraps, as
      two's complement hardware does. */
  function Inc(x: Int32): (r: Int32)
    ensures x < TWO_TO_THE_31 - 1 ==> r == x + 1
    ensures (r - (x + 1)) % TWO_TO_THE_32 == 0
  {
    ToInt32((x + 1) % TWO_TO_THE_32)
  }

  function Abs(x: int): nat {
    if x < 0 then -x else x
  }

  /** C's `/`: the quotient is rounded toward zero, so the remainder takes
      the sign of the dividend (Dafny's own `/` is Euclidean). */
  function Div(a: int, b: int): (q: int)
    requires b != 0
    ensures Abs(a - b * q) < Abs(b)
    ensures a - b * q == 0 || (a - b * q < 0 <==> a < 0)
    ensures 0 <= a && 0 < b ==> q == a / b
  {
    var m := Abs(a) / Abs(b);
    var rem := Abs(a) % Abs(b);
    DivideMagnitudes(Abs(a), Abs(b));
    var q := if (a < 0) == (b < 0) then m else -m;
    assert a - b * q == (if a < 0 then -rem else rem) by {
      NegateFactor(Abs(b), m);
    }
    q
  }

  lemma DivideMagnitudes(x: nat, y: nat)
    requires y > 0
    ensures x == y * (x / y) + x % y && 0 <= x % y < y
  {
  }

  lemma NegateFactor(x: int, y: int)
    ensures (-x) * y == -(x * y) && x * (-y) == -(x * y) && (-x) * (-y) == x * y
  {
  }
}
